=== FILE: README.md ===
# Tildra entitlement, quota and analytics core in Dafny

Tildra summarizes web pages. It has three parts: a FastAPI back end, a Chrome extension and a Next.js dashboard. This project models the parts of it that decide who may do what and what gets counted:

- **The entitlement and quota engine of the API (`api/main.py`).**
  - The users table and the summary history.
  - The lazy daily reset of a free user's counter and the 429 limit check.
  - Usage accounting after a successful summary.
  - Stripe checkout and the Stripe webhook (upgrade to premium, renewal).
  - The Clerk webhook (create, relink by email, update, delete).
  - The account, status, settings and history endpoints.
- **The job services.**
  - `api/services/job_detection.py`: platform dispatch by host, detectors, universal detection, skill and section extraction, ATS keywords.
  - `api/services/resume_tailoring.py`: skill reordering, keyword matches, suggestions, version id.
- **The extension.**
  - The two background scripts: the history kept in local storage, the status handling of `/summarize`, the request hash and de-duplication of the packaged build.
  - The three popups: protected pages, reading time, the content checks, truncation, history lists, export, the fallback parser for plain-text answers, the résumé file check.
- **The dashboard.**
  - The goal tracker and the personalized insights cards.
  - The `/api/analytics/metrics` route.
  - The dashboard's own Clerk webhook route.

## How it is modelled

**State.** The database is `Accounts.Db`: a map from Clerk id to `User`, plus the history rows in creation order. `Accounts.Valid` is the schema's invariant: every row is keyed by its own Clerk id, and e-mail and Stripe customer id are unique. Every handler that writes is proved to keep `Valid`.

**Handlers.** Each handler is a pure function from the state and its inputs to the new state and the HTTP answer.

**Inputs from outside.** Everything the code gets from outside is a parameter:

- the clock;
- Stripe's customer, session and subscription calls;
- Svix verification;
- the DeepSeek answer;
- `fetch` outcomes and cookies;
- the page's DOM and Readability's result;
- the tab;
- the calendar months of the dashboard.

**Numbers.** Integers are unbounded. The 32-bit arithmetic of the packaged extension's hash is written out as ECMAScript ToInt32.

**Division.** JavaScript's `Math.floor`, `Math.round` and truncating `%` are written out where negative or fractional values occur.

**Time.**
- API times are in seconds; the start of the UTC day is `now - now % 86400`.
- Dashboard times are in milliseconds; calendar day `d` runs from `d * 86400000` to `(d + 1) * 86400000`.

**Defects.** Where the code does something its own comments or structure evidently do not intend, the handlers follow the code as written. A corrected definition stands beside each, with the intended property proved about it; "## Findings" lists the pairs.

## Model

| member | source | states |
|---|---|---|
| Accounts.NewFreeUser | api/main.py:738-750 | a new row is on plan "free" with limit 10, both counters 0, no Stripe ids, and its window starting now |
| Accounts.UserByEmail | api/main.py:732 | the lookup by e-mail finds a row exactly when one has that e-mail, and the row it finds has it |
| Accounts.UserByCustomer | api/main.py:562 | the lookup by Stripe customer finds a row exactly when one is linked to that customer |
| Accounts.ReplacePreservesValid | api/main.py:885-888 | writing a row back under its key with the same e-mail and customer keeps the unique constraints |
| Accounts.ReplaceEmailPreservesValid | api/main.py:805-808 | writing a row back with an e-mail no other row holds keeps the unique constraints |
| Accounts.InsertPreservesValid | api/main.py:738-751 | inserting a row with a fresh id, a fresh e-mail and no customer keeps the unique constraints |
| Accounts.RekeyPreservesValid | api/main.py:732-736 | moving a row to a fresh Clerk id with its e-mail and customer keeps the unique constraints |
| Accounts.HistoryOf | api/main.py:1029-1030 | the caller's history rows are exactly the rows with their user id |
| Accounts.HistoryOfConcat | api/main.py:1029-1030 | selecting a user's rows works piecewise, so they keep the order in which they were saved |
| Accounts.DeleteHistoryOf | api/main.py:1079-1081 | deleting a user's history keeps exactly the rows of other users |
| Accounts.DeleteHistorySplits | api/main.py:1079-1081 | every row is either deleted or kept, never both: the two counts add up to the history's length |
| Quota.StartOfDay | api/main.py:882 | the start of the day is a midnight at most a day before `now` |
| Quota.ResetDaily | api/main.py:885-888 | the reset zeroes the counter and starts the window now, changing nothing else |
| Quota.LimitCheck | api/main.py:909-917 | a request is turned away with 429 exactly when the counter has reached the limit on plan "free" (daily message) or "premium" (monthly message); other plans pass |
| Quota.Gate | api/main.py:869-917 | an unknown caller gets 500 "Database error during usage check.", because the 403 is raised inside the `try` and caught; 500 exactly for that or a free row with no window, and never 403; a free row whose window began before today is reset and then checked; every other row is checked as stored and left alone; no other row changes |
| Quota.GateFixed | api/main.py:905-907 | corrected, an unknown caller gets 403 "User profile not found." and nothing is written; every known caller is gated as above |
| Quota.UnknownCallerGets500 | api/main.py:869-907 | as written, an unknown caller gets the 500 where the corrected gate gives 403; neither writes |
| Quota.GatesAgreeOnKnownCallers | api/main.py:869-917 | the two gates agree on every caller who has a row, and neither answers 403 to one |
| Quota.TrackUsage | api/main.py:340-358 | adds one to both counters of the caller's row and changes nothing else; a missing row is left alone |
| Quota.Summarize | api/main.py:869-948 | a refused request fails with the gate's status and message; an admitted one gets a summary exactly when the backend answered, and 503, 504 or 500 for the backend's HTTP, request or other failure; the only history row ever added is the one for an answer that is not an error sentinel; no user is added or removed |
| Quota.Respond | api/main.py:919-948 | for an admitted request the answer is a summary exactly when the backend answered, and 503, 504 or 500 for its HTTP, request or other failure; the two background tasks run exactly for an answer that is not an error sentinel, adding that one history row and bumping the caller's counters, and nothing is written otherwise |
| Quota.SummarizeEndpoint | api/main.py:865-867 | without a configured DeepSeek key the request fails with 500 before anything is read; otherwise it is the flow above |
| Quota.GateNeverIncrements | api/main.py:869-917 | the gate never raises a counter and never touches the lifetime total |
| Quota.PremiumNeverReset | api/main.py:893-899 | a premium row is never reset by the gate, even after its period ended; it is denied exactly when its counter reached its limit |
| Quota.GateDeniesIffExhausted | api/main.py:909-917 | the gate answers 429 exactly when the possibly-reset counter reached the limit on plan "free" or "premium" |
| Quota.GateIdempotent | api/main.py:869-917 | asking the gate twice at the same instant gives the same answer and the second call writes nothing |
| Quota.FreeDeniedUntilRollover | api/main.py:880-913 | a free user who used up the limit today is refused with the daily message for the rest of the day |
| Quota.FreeWindowRollsOver | api/main.py:880-888 | the first request on a later day finds a zero counter and a window starting now, and passes |
| Quota.TrackTimesCounts | api/main.py:340-358 | n runs of the accountant add n to both counters |
| Quota.TenthSummaryExhaustsFreeDay | api/main.py:738-750 | a new free user who made ten summaries today is refused on the eleventh with the daily-limit message |
| Quota.StaleFreeWindowAllows | api/main.py:880-888 | a free row whose window began two days ago is reset and let through |
| Quota.SummarizeCountsOnlySuccess | api/main.py:919-948 | usage is counted once exactly for a request that passed the gate and got a non-error answer; otherwise only the gate's reset changes the counter |
| Quota.DeniedRequestSavesNothing | api/main.py:901-915 | a refused request saves no history and leaves only the gate's own writes |
| Quota.GatePreservesValid | api/main.py:869-917 | the gate keeps the schema invariants |
| Quota.TrackUsagePreservesValid | api/main.py:340-358 | the accountant keeps the schema invariants |
| Quota.SummarizePreservesValid | api/main.py:856-948 | the whole request keeps the schema invariants |
| Quota.SummarizeWrites | api/main.py:919-936 | the users a request leaves are the gate's, with the counters bumped only when a summary was produced |
| Billing.PriceIdFor | api/main.py:394-397 | only the keys "monthly" and "yearly" have a price, each its own |
| Billing.EnsureCustomer | api/main.py:426-458 | a stored customer is reused without a write; otherwise a created customer is linked before the session call; a failed creation is a 500 with no write |
| Billing.CreateCheckoutSession | api/main.py:402-488 | 500 when Stripe is not configured, 404 for an unknown user, 400 for an unknown price key; a session is started exactly when all three checks pass; the only possible write is the customer link |
| Billing.CustomerCreatedOnce | api/main.py:426-429 | once a row has a customer, checkout never consults the customer call and never writes |
| Billing.FirstCheckoutLinksCustomer | api/main.py:441-451 | a first checkout that created customer `c` leaves the row linked to `c` whatever the session call did |
| Billing.CheckoutPreservesValid | api/main.py:402-488 | checkout keeps the schema invariants |
| Billing.SubscriptionTerms | api/main.py:538-552 | the price id comes from the first item's plan when it has one, else from its price; the period end is read only when there are items |
| Billing.Upgrade | api/main.py:570-578 | a completed checkout writes plan "premium", limit 500, a zero counter, the subscription, the price and the period end as both reset time and period end; all other fields are kept |
| Billing.Renew | api/main.py:628-633 | a renewal zeroes the counter and moves the reset time and period end to the new period end, and nothing else |
| Billing.OnCheckoutCompleted | api/main.py:520-596 | an error body with no write for a missing customer or subscription id, a failed retrieval, a subscription without price id or period end, or an unknown customer; otherwise the customer's row is upgraded with the subscription's terms and nothing else is written |
| Billing.OnInvoicePaid | api/main.py:599-648 | an error reply for missing ids; no write for any other reason than a cycle or update, for a failed retrieval or a missing period end, or for a row that is not premium; an error reply for an unknown customer |
| Billing.StripeWebhook | api/main.py:490-654 | a missing secret and a failed construction answer 500, an invalid payload or signature 400, all with no write; a verified checkout or invoice event is handled by its handler; an event of a type it does not handle is acknowledged with no write |
| Billing.CheckoutCompletedUpgrades | api/main.py:520-596 | a completed checkout writes exactly when customer, subscription, price and period end are all present and the customer is known, and then writes only the premium row |
| Billing.RenewalOnlyForPremium | api/main.py:599-648 | a "subscription_cycle" or "subscription_update" invoice with a period end writes exactly when its customer's row is premium, and then zeroes the counter and sets both the reset time and the period end to the new end; plan and limit never change; missing ids and an unknown customer are the two error replies |
| Billing.WebhookPreservesValid | api/main.py:490-654 | every Stripe event keeps the schema invariants and the set of rows |
| Billing.WebhookIdempotent | api/main.py:490-654 | handling a redelivered event leaves the state where the first delivery left it |
| Billing.CheckoutScenario | api/main.py:520-589 | a known customer's completed checkout with price `p` and period end `t` leaves that row premium with 500 fresh summaries until `t` |
| Billing.FirstInvoiceIgnored | api/main.py:610-612 | the first invoice of a subscription ("subscription_create") changes nothing |
| Provisioning.ChooseEmail | api/main.py:709-720 | none without entries, and a chosen address is always the address of one of the entries |
| Provisioning.ChoosePrimaryFirst | api/main.py:712-714 | a non-empty primary entry always wins |
| Provisioning.ChooseFallbacks | api/main.py:715-720 | without a primary match the first verified entry wins, and with none the first entry does |
| Provisioning.Relink | api/main.py:732-736 | relinking by e-mail replaces the Clerk id and the profile fields (absent ones too) and keeps billing and quota |
| Provisioning.ProfilePatch | api/main.py:790-808 | an update writes only the profile fields that are present, and the chosen e-mail only when it is non-empty |
| Provisioning.OnUserCreated | api/main.py:702-765 | an error reply with no write without a Clerk id or an address; "already exists" with no write for a known id; for a new id, the row holding the address moved to the new id and relinked, or else a new free row, each with its reply, and no other row touched |
| Provisioning.OnUserUpdated | api/main.py:767-818 | an error reply without a Clerk id; no write when nothing is present to write, or when the id is unknown (answered ok); 500 with no write when the new e-mail belongs to another row; otherwise the caller's row patched and "updated" |
| Provisioning.OnUserDeleted | api/main.py:820-850 | an error reply without a Clerk id; otherwise the row and all its history are removed, answered ok whether or not the row still existed |
| Provisioning.ClerkWebhook | api/main.py:656-854 | 500 without the secret, 400 for a missing Svix header, and 400 or 500 for a rejected or failed verification, all with no write; a verified `user.created`, `user.updated` or `user.deleted` is handled by its handler and any other type is acknowledged with no write |
| Provisioning.CreatedOutcomes | api/main.py:702-761 | `user.created` does nothing for a known Clerk id; it relinks the row with the same e-mail, moving it to the new id and leaving every other row as it was; otherwise it inserts a new free row and nothing else |
| Provisioning.CreatedIdempotent | api/main.py:726-736 | delivering the same `user.created` twice equals delivering it once |
| Provisioning.RelinkKeepsBilling | api/main.py:732-736 | a relinked row keeps its e-mail and every billing and quota field |
| Provisioning.CreatedPreservesValid | api/main.py:702-761 | `user.created` keeps the schema invariants |
| Provisioning.UpdatedNeverClears | api/main.py:799-803 | `user.updated` never writes an absent value, and with nothing to write it changes nothing |
| Provisioning.UpdatedPreservesValid | api/main.py:767-818 | `user.updated` keeps the schema invariants |
| Provisioning.DeletedRemovesEverything | api/main.py:820-838 | after `user.deleted` neither the row nor any of its history remains; other users' rows and history are untouched |
| Provisioning.DeletedIdempotent | api/main.py:835-849 | a second `user.deleted` answers ok and changes nothing |
| Provisioning.DeleteHistoryTwice | api/main.py:829-831 | deleting a user's history twice is deleting it once |
| Provisioning.CreateThenDelete | api/main.py:702-849 | creating an unknown user and deleting it, once or twice, gives back the users table |
| Provisioning.ClerkWebhookPreservesValid | api/main.py:656-854 | every Clerk delivery keeps the schema invariants |
| AccountApi.DetailsOf | api/main.py:986-992 | the details repeat the row's e-mail, plan and counters, and `is_pro` holds exactly for plan "premium" |
| AccountApi.AccountDetailsAsWritten | api/main.py:983-1001 | as written: the details of a known row, and 500 for a missing one, because the 404 is raised inside the catch-all `try` |
| AccountApi.AccountDetailsFor | api/main.py:993-997 | as intended: the details of a known row, and 404 "User profile not found." for a missing one |
| AccountApi.UserStatusAsWritten | api/main.py:1008-1020 | as written: pro status exactly for plan "premium", and 500 for a missing row |
| AccountApi.UserStatusFor | api/main.py:1010-1016 | as intended: pro status exactly for plan "premium", and 404 for a missing row |
| AccountApi.MissingProfileAnswers500 | api/main.py:983-1020 | a missing row gets 500 from the handlers as written and 404 from the corrected ones; both agree on every existing row |
| AccountApi.SettingsOf | api/main.py:1116-1120 | stored settings are returned as stored; unset ones default to notifications on and marketing off |
| AccountApi.GetSettings | api/main.py:1102-1124 | a known caller gets the settings of their row; an unknown one gets the handler's 500 "Error fetching user settings." |
| AccountApi.PutSettings | api/main.py:1126-1161 | the three settings are written to the caller's row and read back as written; every other column of that row and every other row are kept; an unknown caller gets 500 |
| AccountApi.SettingsRoundTrip | api/main.py:1126-1157 | reading the settings after writing them gives back what was written |
| AccountApi.PutSettingsPreservesValid | api/main.py:1126-1161 | writing settings keeps the schema invariants |
| AccountApi.ListHistory | api/main.py:1024-1040 | the history lists only the caller's rows, newest first; it holds all of them when there are at most 100, and exactly the newest 100 otherwise |
| AccountApi.WithoutRow | api/main.py:1062 | deleting by id keeps exactly the rows with another id |
| AccountApi.DeleteHistoryItem | api/main.py:1044-1071 | 404 with no change unless the caller owns a row with that id; otherwise 204 and exactly that id is gone |
| AccountApi.DeleteRespectsOwnership | api/main.py:1050-1062 | rows of other users and rows with other ids always survive a delete, and after a 204 no row carries the id |
| AccountApi.DeleteAllHistory | api/main.py:1074-1088 | the caller has no history left, and every other user's row stays |
| AccountApi.NoneLeft | api/main.py:1079-1081 | a history without any row of the caller lists nothing for them |
| WebClerk.FirstAddress | web/app/api/webhooks/clerk/route.ts:70 | the e-mail is the first entry's address, none without entries |
| WebClerk.OnCreated | web/app/api/webhooks/clerk/route.ts:62-103 | 400 for a missing id or first address; 200 "User already exists" with no write when the id or the address is taken; otherwise a fresh free row with that id and address, 201 |
| WebClerk.OnUpdated | web/app/api/webhooks/clerk/route.ts:106-139 | 400 for a missing id or first address; 404 for an unknown id; 500 with no write when another row holds the address; otherwise only the row's e-mail changes, 200 |
| WebClerk.OnDeleted | web/app/api/webhooks/clerk/route.ts:142-172 | a soft delete is acknowledged with no write; 400 without an id, 404 for an unknown one, 500 while the row still has history; otherwise the row is removed, 200 |
| WebClerk.WebClerkWebhook | web/app/api/webhooks/clerk/route.ts:10-180 | 500 without the secret, 400 for a missing Svix header, and 400 or 500 for a failed verification, all with no write; a verified created, updated or deleted event is handled by its handler, and an event of an unhandled type writes nothing |
| WebClerk.CreatedOutcomes | web/app/api/webhooks/clerk/route.ts:62-103 | a row is added (201) exactly for a new Clerk id whose first address no row holds, and it is a fresh free row with that address, every other row unchanged; a missing id or address gets 400 and a known id 200 "User already exists"; any other answer changes nothing; the invariants hold |
| WebClerk.UpdatedOnlyEmail | web/app/api/webhooks/clerk/route.ts:106-139 | a successful update changes only the named row's e-mail, to the first address; a known id whose new address no other row holds is updated with 200; a missing id or address gets 400 and an unknown id 404; any other answer changes nothing; the invariants hold |
| WebClerk.SecondDeleteIsNotFound | web/app/api/webhooks/clerk/route.ts:142-172 | the first hard delete of a row without history removes it; a second answers 404 |
| WebClerk.SoftDeleteNoop | web/app/api/webhooks/clerk/route.ts:146-149 | a soft delete answers 200 and never touches the database |
| Jobs.NewPosting | api/services/job_detection.py:16-48 | a posting built from the named fields has empty lists, an empty description and no location |
| Jobs.IndexOf | api/services/job_detection.py:86-87 | the index is the first occurrence of the character, or the length when there is none |
| Jobs.TakeUntil | api/services/job_detection.py:86-87 | the result is the longest prefix without any stop character |
| Jobs.Netloc | api/services/job_detection.py:86-87 | the network location never holds '/', '?' or '#' |
| Jobs.ChoosePlatform | api/services/job_detection.py:86-97 | a detector is chosen exactly when some table key occurs in the lowercased host, and it is the detector of the first such key |
| Jobs.AbsentCharNoMatch | api/services/job_detection.py:90-91 | a key with a character the host lacks never occurs in it |
| Jobs.SlashKeyNeverMatches | api/services/job_detection.py:86-91 | a key containing '/' never occurs in any host |
| Jobs.StackOverflowUnreachable | api/services/job_detection.py:62 | with the declared table, no URL reaches the Stack Overflow detector |
| Jobs.ChooseFirstMatch | api/services/job_detection.py:90-93 | the entry chosen is the first whose key occurs in the host |
| Jobs.FixedStackOverflowReachable | api/services/job_detection.py:54-64 | with the key "stackoverflow.com", a Stack Overflow host that no earlier key claims reaches its detector |
| Jobs.FirstFound | api/services/job_detection.py:120-133 | the text of a selector the page matches, and the default when it matches none |
| Jobs.FirstFitting | api/services/job_detection.py:343-369 | the text of the first selector, in list order, that the page matches with a length strictly between the bounds; the default exactly when no selector fits |
| Jobs.UniversalTitle | api/services/job_detection.py:343-355 | the title is "Unknown Position" or has 6 to 99 characters |
| Jobs.UniversalCompany | api/services/job_detection.py:357-369 | the company is "Unknown Company" or has 3 to 49 characters |
| Jobs.TrimAll | api/services/job_detection.py:393 | every piece is stripped, one for one |
| Jobs.LongOnes | api/services/job_detection.py:393 | only pieces of the input longer than ten characters are kept |
| Jobs.LongOnesKeepsLong | api/services/job_detection.py:393 | no stripped piece longer than ten characters is dropped |
| Jobs.Items | api/services/job_detection.py:387-401 | every item is stripped and longer than ten characters |
| Jobs.ItemsExact | api/services/job_detection.py:392-393 | the items are exactly the stripped pieces of the section longer than ten characters |
| Jobs.ExtractDetails | api/services/job_detection.py:371-401 | an empty description changes nothing; otherwise only skills, requirements and responsibilities change; the skills gain the pattern matches without duplicates; a matched section's list becomes exactly that section's items, and a list whose section was not found is kept |
| Jobs.DetectLinkedIn | api/services/job_detection.py:103-151 | no posting unless the URL has `/jobs/view/<digits>`; the placeholder posting without content; every posting is LinkedIn's and keeps the URL |
| Jobs.DetectIndeed | api/services/job_detection.py:153-194 | no posting unless the URL has `/viewjob?jk=` or `/jobs/`; the placeholder without content; every posting is Indeed's |
| Jobs.DetectGreenhouse | api/services/job_detection.py:196-234 | no posting unless the URL names boards.greenhouse.io; the placeholder without content; every posting is Greenhouse's |
| Jobs.DetectPlaceholder | api/services/job_detection.py:236-306 | the URL-only detectors give their fixed placeholder posting exactly when the URL holds their marker |
| Jobs.CountOccurring | api/services/job_detection.py:318 | the count is 0 exactly when no word occurs and all the words exactly when each occurs |
| Jobs.CountMonotone | api/services/job_detection.py:318-321 | a page that keeps every indicator of another never scores lower |
| Jobs.DetectUniversal | api/services/job_detection.py:308-341 | no posting without content; otherwise a posting exactly when at least three job indicators occur in the lowercased text, marked "Universal" |
| Jobs.DetectJobPage | api/services/job_detection.py:81-101 | an unmatched host goes to the universal detector; a LinkedIn, Indeed or Greenhouse host goes to that platform's detector; every other matched platform goes to its placeholder detector; a posting always keeps the URL |
| Jobs.KeywordsIn | api/services/job_detection.py:418-421 | the keywords found are exactly those occurring in the text, ignoring case |
| Jobs.ExtractJobKeywords | api/services/job_detection.py:403-426 | nothing for an empty description; otherwise the fixed keywords found in the combined text plus every skill, without duplicates |
| Jobs.SkillsAreKeywords | api/services/job_detection.py:379-426 | every extracted skill is among the ATS keywords of a posting with a description |
| Resume.Group | api/services/resume_tailoring.py:122-126 | a group holds exactly the skills with that match status |
| Resume.GroupConcat | api/services/resume_tailoring.py:122-126 | grouping works piecewise, so each group keeps the resume's order |
| Resume.GroupsPermute | api/services/resume_tailoring.py:122-128 | the two groups together are a permutation of the resume's skills |
| Resume.BasicTailor | api/services/resume_tailoring.py:101-132 | every field but the skills is copied; the skills are reordered only when both sides list skills, and then matching ones first |
| Resume.TailorPermutes | api/services/resume_tailoring.py:117-130 | the tailored skills are a permutation of the resume's, with exactly the matching skills first |
| Resume.SkillsIn | api/services/resume_tailoring.py:191-194 | the job skills kept are exactly those whose lowercase form occurs in the text |
| Resume.KeywordMatches | api/services/resume_tailoring.py:170-196 | the matches are exactly the distinct job skills that occur, ignoring case, in the summary, bullets and skills |
| Resume.ListedSkillMatches | api/services/resume_tailoring.py:185-194 | a job skill equal, up to case, to a listed resume skill is always a match |
| Resume.MissingSkills | api/services/resume_tailoring.py:205-208 | the missing skills are exactly the job skills no resume skill contains, ignoring case |
| Resume.Suggestions | api/services/resume_tailoring.py:198-222 | the highlight, summary and bullets tips each appear exactly when their rule fires, the highlight tip first |
| Resume.NoBulletTipWithoutExperience | api/services/resume_tailoring.py:218-220 | with no experience the bullets tip never appears |
| Resume.CoveredSkillsNotMissing | api/services/resume_tailoring.py:205-211 | when every job skill is covered nothing is missing |
| Resume.CoveredPermutation | api/services/resume_tailoring.py:207-208 | coverage depends on the resume skills only as a collection |
| Resume.MissingPermutation | api/services/resume_tailoring.py:205-208 | permuting the resume skills does not change the missing skills |
| Resume.SuggestionsIgnoreTailoring | api/services/resume_tailoring.py:80-85 | the suggestions for the tailored resume equal those for the original |
| Resume.VersionId | api/services/resume_tailoring.py:94 | the version id has no spaces, no capital letters, and an underscore right after the company |
| Resume.VersionIdParts | api/services/resume_tailoring.py:94 | the id is the folded company and the folded title around an underscore |
| Resume.VersionIdFolds | api/services/resume_tailoring.py:94 | postings that differ only in case or in spaces against underscores share an id |
| Resume.Tailor | api/services/resume_tailoring.py:74-95 | the result holds the tailored data, suggestions equal to those for the original resume, the keyword matches of the tailored data (all among the job's skills), the note and the version id |
| Histories.PrependCapped | extension/background.js:55-60 | the new entry comes first, the old ones follow in order, and the list is cut to the cap |
| Histories.Rev | api/main.py:1031 | the reversed list holds the same entries in the opposite order |
| Histories.AddAllKeepsNewest | extension/background.js:55-60 | cutting after every insertion keeps the newest entries, newest first, exactly as one cut at the end would |
| ExtBackground.Existing | extension/background.js:50-52 | a stored array is the starting history; anything else starts from empty |
| ExtBackground.NewEntry | extension/background.js:38-45 | the entry's id comes from the clock; title and url fall back to "Untitled Page" and "" when falsy |
| ExtBackground.AddToSummaryHistory | extension/background.js:32-72 | the new entry first, the previous entries after it in order, at most twenty |
| ExtBackground.CorruptHistoryRestarts | extension/background.js:50-52 | a missing or non-array stored value is replaced by the new entry alone |
| ExtBackground.StatusFailure | extension/background.js:234-253 | a failed status sets the usage-limit flag exactly for 429 and the expired-token flag exactly for 401 and 403; other statuses give "API error (status)" |
| ExtBackground.OtherFailure | extension/background.js:254-258 | any other error sets neither flag and is reported as a network or script error |
| ExtBackground.SummarizeApi | extension/background.js:190-269 | no token means no fetch; success exactly for an OK, parsed answer, which is added to the history; a failure leaves the history alone |
| ExtBackground.FlagsExclusive | extension/background.js:228-266 | a reply never sets both flags, and each flag answers exactly its statuses |
| PkgBackground.ToInt32 | extension-package/background.js:21 | the truncation is a 32-bit signed value congruent to its input modulo 2^32 |
| PkgBackground.HashStep | extension-package/background.js:19-21 | one round of the loop stays a 32-bit signed value |
| PkgBackground.HashOf | extension-package/background.js:17-22 | the hash of any string is a 32-bit signed value |
| PkgBackground.HashStepIsTimes31 | extension-package/background.js:20-21 | each round is `31 * h + c` truncated to 32 bits |
| PkgBackground.HashInput | extension-package/background.js:16 | the hashed text is at most 1000 characters of content, then url and title, joined by '\|', with missing parts empty |
| PkgBackground.GenerateRequestHash | extension-package/background.js:15-24 | the request hash is the decimal digits of the absolute 32-bit hash, at most 2^31 |
| PkgBackground.Admit | extension-package/background.js:135-163 | a pending hash joins its call; a new hash starts and registers a call |
| PkgBackground.Settle | extension-package/background.js:157-158 | a settled call leaves the pending map and nothing else changes |
| PkgBackground.DuplicatesShareCall | extension-package/background.js:136-139 | while a hash is pending, repeats of it start no call |
| PkgBackground.BurstStartsOneCall | extension-package/background.js:131-163 | a burst of identical requests starts one call, and after it settles the next one starts a new call |
| PkgBackground.EffectiveToken | extension-package/background.js:79-82 | the provided token wins over the cookie |
| PkgBackground.StatusMessage | extension-package/background.js:108-118 | 401 and 429 have fixed messages; other statuses give the server's detail or "API error status" |
| PkgBackground.FetchFromApi | extension-package/background.js:78-128 | a request is sent exactly when there is a token or the URL is not the summarize endpoint; it carries a bearer header exactly when there is a token, holding that token; data exactly for a 2xx answer with a body, and it is the body's data; a rejection passes its message, an unreadable body its parse error, and a timeout and every failed status have their own message |
| PkgBackground.ReplyFor | extension-package/background.js:48-65 | a missing tab id is refused; otherwise the reply carries the call's data on success, and on failure its message or a generic one when that is empty |
| PkgBackground.NoTokenNoRequest | extension-package/background.js:84-86 | without any token the summarize endpoint is never contacted |
| PkgPopup.FirstLongSelector | extension-package/popup.js:759-765 | the fallback text comes from a selector longer than 200 characters, and none is used when no selector is that long |
| PkgPopup.BodyText | extension-package/popup.js:767-769 | the body's text trimmed, or empty without a body |
| PkgPopup.FallbackSource | extension-package/popup.js:756-769 | the fallback reads the first selector text longer than 200 characters when it is not blank, and otherwise the body |
| PkgPopup.FallbackContent | extension-package/popup.js:771-784 | the fallback is a prefix of its source of at most 8000 characters, and all of it when short enough |
| PkgPopup.ExtractContent | extension-package/popup.js:733-787 | no error exactly when Readability is loaded and parses non-empty text, and then the content is a prefix of the trimmed text of at most 10000 characters; each failure carries its own message and the fallback content |
| PkgPopup.SendLimit | extension-package/popup.js:556-564 | no summary length is sent more than 8000 characters |
| PkgPopup.Truncate | extension-package/popup.js:556-564 | the text sent is a prefix of the article within the length's limit, and all of it when short enough |
| PkgPopup.TruncationMonotone | extension-package/popup.js:558-563 | brief is sent a prefix of what standard is sent, which is at most what detailed is sent |
| PkgPopup.SummarizeClick | extension-package/popup.js:479-586 | a page is sent exactly when it passes the checks (tab, protected page, token, extraction error, short text), with the text truncated for the chosen length and the title defaulting to "Untitled Page" |
| PkgPopup.FallbackNeverSent | extension-package/popup.js:546-548 | content from the extractor's fallback is never sent |
| PkgPopup.SentTextBounded | extension-package/popup.js:556-586 | at most 8000 characters of any page leave the popup |
| PkgPopup.WordCount | extension-package/popup.js:194-197 | the word count is one more than the spaces in the TL;DR, plus the count for each point, so at least one per point plus one |
| PkgPopup.ReadingTimeMatchesWordCount | extension-package/popup.js:163-197 | the minutes shown are the words shown at 200 a minute, rounded up, at least one |
| PkgPopup.NewItem | extension-package/popup.js:609-616 | the saved title falls back to the URL and then to "Untitled" |
| PkgPopup.SaveToHistory | extension-package/popup.js:617 | the new item first, the previous ones after it, at most 100 |
| PkgPopup.HistoryKeepsNewest | extension-package/popup.js:607-618 | after any run of summaries the history is the newest hundred, newest first |
| Popup.WebPagesNotProtected | extension/popup.js:461-476 | no URL starting with 'h' (so no http or https page) is protected |
| Popup.ProtectedByPrefix | extension/popup.js:461-476 | a URL with a protected scheme prefix is protected whatever follows |
| Popup.Words | extension/popup.js:159 | the word count is one more than the number of spaces |
| Popup.PointWords | extension/popup.js:160 | every key point counts at least one word |
| Popup.ReadingTime | extension/popup.js:157-164 | the minutes are the words at 200 a minute, rounded up, at least one |
| Popup.ReadingTimeGrowsWithPoints | extension/popup.js:157-164 | 200 key points or more take at least two minutes |
| Popup.ContentError | extension/popup.js:535-539 | text is refused exactly when it is missing or shorter than 50 characters after trimming |
| Popup.ShortTextRefused | extension/popup.js:536-538 | text under 50 characters is refused whatever its spacing |
| Popup.Classify | extension/popup.js:681-702 | minutes under an hour, hours under a day, days under a week, the locale date after that, each count the floor of the age |
| Popup.FormatDate | extension/popup.js:681-702 | the label is the count with its suffix, or the locale's date after a week |
| Popup.JustNow | extension/popup.js:689-691 | an age under a minute shows "0m ago" |
| Popup.DeleteEntry | extension/popup.js:752-755 | deleting keeps exactly the entries with another id |
| Popup.DeleteConcat | extension/popup.js:755 | deletion works piecewise, so survivors keep their order |
| Text.TrimSlice | extension/popup-simple.js:338 | `.trim()` gives the slice of the line between its leading and trailing whitespace, with only whitespace outside it |
| Popup.DeleteAbsentAndTwice | extension/popup.js:755 | an absent id deletes nothing, and deleting twice is deleting once |
| Popup.EntryBlock | extension/popup.js:1167-1169 | an entry's block opens with its labelled title, date and URL lines and closes with the "---" separator and a blank line |
| Popup.ExportText | extension/popup.js:1164-1170 | an empty history exports an empty file |
| Popup.ExportConcat | extension/popup.js:1166-1170 | exporting two histories in a row is exporting their concatenation |
| Popup.ExportListsPoint | extension/popup.js:1167-1169 | every key point of every entry appears in the export on its own "- " line |
| Popup.ExportAround | extension/popup.js:1166-1170 | the export is the entries before, the entry's block, and the entries after |
| Popup.BuildExport | extension/popup.js:1163-1170 | the export loop builds exactly the exported text |
| PopupSimple.SetButtonState | extension/popup-simple.js:115-128 | loading disables the button, saves its caption and shows the loading text; unloading re-enables it and restores the saved caption |
| PopupSimple.LoadingRoundTrip | extension/popup-simple.js:115-128 | loading then unloading restores the caption and re-enables the button |
| PopupSimple.DoubleLoadLosesLabel | extension/popup-simple.js:118-121 | loading twice overwrites the saved caption, so unloading then shows the loading text |
| PopupSimple.SaveToHistory | extension/popup-simple.js:174-186 | the new entry first, the previous ones after it, at most fifty |
| PopupSimple.SimpleHistoryKeepsNewest | extension/popup-simple.js:174-186 | saved one at a time, the history is the newest fifty, newest first |
| PopupSimple.NonBlank | extension/popup-simple.js:330 | only lines that are not blank are kept |
| PopupSimple.LabelLength | extension/popup-simple.js:331 | a label is found only at the start of a line that begins with "tl;dr" or "summary", ignoring case |
| PopupSimple.StripLabel | extension/popup-simple.js:331 | a labelled line loses its label and the space after it; other lines are kept |
| PopupSimple.FallbackTldr | extension/popup-simple.js:331 | the first line containing "tl;dr" or "summary:" without its leading label, when that is not empty; else the first line; else "Summary unavailable" |
| PopupSimple.AsWrittenKeepsNumberDot | extension/popup-simple.js:338 | as written, "1. Point" becomes ". Point" |
| PopupSimple.AsWrittenKeepsBulletTail | extension/popup-simple.js:338 | as written, a bullet loses only its first character |
| PopupSimple.AsWrittenDropsOne | extension/popup-simple.js:338 | as written, exactly one marker character goes before the trim |
| PopupSimple.StripMarkerDropsNumber | extension/popup-simple.js:337-338 | corrected, "12. Point" is a point line and becomes "Point" |
| PopupSimple.StripMarkerDropsBullet | extension/popup-simple.js:334-338 | corrected, a bullet line becomes its text |
| PopupSimple.NumberedLine | extension/popup-simple.js:337-338 | corrected, a numbered line loses its digits and dot |
| PopupSimple.StripTrimmedLine | extension/popup-simple.js:333-338 | corrected, a marker of n characters loses exactly those n |
| PopupSimple.KeyPoints | extension/popup-simple.js:333-338 | as written: the points are non-empty, at most one per line |
| PopupSimple.NumberedPointKeepsDot | extension/popup-simple.js:333-338 | as written, the line "1. Point" gives the point ". Point" |
| PopupSimple.IndentedMarkerKept | extension/popup-simple.js:333-338 | as written, an indented "- text" line keeps its dash, since the class is tried against the untrimmed line |
| PopupSimple.BulletListPointsAsWritten | extension/popup-simple.js:333-338 | as written, a list of bullet lines gives one point per line, in order, each still starting with the bullet's last two characters |
| PopupSimple.KeyPointsFixed | extension/popup-simple.js:333-338 | corrected: the points are non-empty, at most one per line |
| PopupSimple.BulletListPoints | extension/popup-simple.js:333-338 | corrected, a list of bullet lines gives back exactly its texts, in order |
| PopupSimple.LongSentences | extension/popup-simple.js:342 | only sentence pieces longer than 20 characters when trimmed are kept |
| PopupSimple.SecondToFourth | extension/popup-simple.js:343 | at most three sentences, each longer than 20 characters |
| PopupSimple.ParseFallback | extension/popup-simple.js:330-349 | the TL;DR as above; the marker points as the script strips them when there are any; without marker points, the second to fourth long sentences when there is more than one line, and the default point when that leaves none or there is at most one line; never an empty point |
| PopupSimple.TldrNeverBlank | extension/popup-simple.js:330-349 | blank text gets both placeholders, and any other text a TL;DR that is not blank |
| PopupSimple.PlainSummary | extension/popup-simple.js:307-312 | a non-empty text, and none exactly when the `summary`, `content`, `text` and `data.summary` fields are all falsy |
| PopupSimple.FreshToken | extension/popup-simple.js:196-240 | a truthy token answered by a Tildra tab wins, otherwise the stored token is used |
| PopupSimple.CallSummarizeApi | extension/popup-simple.js:189-360 | the request carries a truthy token from a Tildra tab, else the stored token, and no bearer without either; a tab's token replaces the stored one; 401 drops the stored token and reports expiry, and every other outcome leaves the token in use stored; 429 reports the limit; an abort reports the timeout; other failed statuses report the status; a failed fetch reports its message; success exactly for a 2xx answer with a TL;DR and key points or a plain-text field, a structured answer passing through unchanged and a plain-text one parsed by the fallback parser; a 2xx answer with neither reports "No summary returned" with the response dump |
| PopupSimple.TailoringPoints | extension/popup-simple.js:537-560 | three or four hints: the skills hint first when there are skills, then a hint naming the first technical requirement; only the fixed hints when there is neither |
| PopupSimple.SkillsPointNamesFirstThree | extension/popup-simple.js:540-542 | the skills hint names each of the first three skills |
| PopupSimple.FileExtension | extension/popup-simple.js:798 | the extension starts with a dot |
| PopupSimple.CheckResumeFile | extension/popup-simple.js:793-812 | too large exactly above 5 MB; accepted exactly within the size and with an allowed extension |
| PopupSimple.ExtensionAfterLastDot | extension/popup-simple.js:798 | the extension is the lowercased text after the last dot, or the whole name without a dot |
| PopupSimple.DocxAccepted | extension/popup-simple.js:797-812 | ".DOCX" in any case is accepted |
| PopupSimple.DotlessNameAccepted | extension/popup-simple.js:797-812 | a file named "pdf" passes the type test |
| Goals.Progress | web/components/analytics/goal-tracker.tsx:74-77 | progress is 0 without a positive target, 100 from the target on, and otherwise the percentage rounded half up |
| Goals.ProgressMonotone | web/components/analytics/goal-tracker.tsx:74-77 | more done never means less progress |
| Goals.StatusOf | web/components/analytics/goal-tracker.tsx:79-85 | completed from 100, on track from 80, behind from 50, needs attention below |
| Goals.CompletedFromNinetyNineAndAHalf | web/components/analytics/goal-tracker.tsx:74-85 | because of the rounding, a goal is completed exactly from 99.5% of its target |
| Goals.CurrentValue | web/components/analytics/goal-tracker.tsx:87-101 | daily is the total over 30, rounded down; weekly, monthly and efficiency read their metric; anything else is 0 |
| Goals.Split60 | web/components/analytics/goal-tracker.tsx:108-109 | for a non-negative value, hours and minutes add back to it with minutes under 60; for a negative one the minutes take the dividend's sign |
| Goals.FormatGoalValue | web/components/analytics/goal-tracker.tsx:103-114 | weekly time as "Hh Mm", or "Mm" under an hour; other goals as the number and unit |
| Goals.UnderAnHour | web/components/analytics/goal-tracker.tsx:107-110 | under an hour the weekly value is just its minutes |
| Goals.Filter | web/components/analytics/goal-tracker.tsx:139-140 | filtering keeps exactly the goals that pass |
| Goals.FilterConcat | web/components/analytics/goal-tracker.tsx:139-140 | filtering works piecewise, so the active and completed lists keep the goals' order |
| Goals.ActiveGoals | web/components/analytics/goal-tracker.tsx:139 | the active list is exactly the active goals |
| Goals.CompletedGoals | web/components/analytics/goal-tracker.tsx:140 | the completed list is exactly the inactive goals at 100% |
| Goals.ActiveCompletedDisjoint | web/components/analytics/goal-tracker.tsx:139-140 | no goal is both active and completed, and an inactive goal below 99.5% is in neither list |
| Insights.FormatTime | web/components/analytics/personalized-insights.tsx:95-102 | minutes as "Hh Mm", or "Mm" under an hour |
| Insights.FormatTimeMatchesGoals | web/components/analytics/personalized-insights.tsx:95-102 | the insights card and the goal tracker show minutes the same way |
| Insights.TimeSavedInsight | web/components/analytics/personalized-insights.tsx:110-121 | trend up above 120 minutes, stable above 60, down otherwise; priority low above 120, medium otherwise |
| Insights.WeeklyInsights | web/components/analytics/personalized-insights.tsx:104-172 | one to four insights, the time-saved one first, one more for each condition that holds |
| Insights.WeeklyInsightsWhen | web/components/analytics/personalized-insights.tsx:123-169 | the streak milestone appears exactly from seven days, the library milestone exactly from 50 summaries, and a score insight exactly at 80 or more or under 40 |
| Insights.AllInsights | web/components/analytics/personalized-insights.tsx:174 | the cards hold every supplied and every generated insight, so there is always at least one |
| Insights.Current | web/components/analytics/personalized-insights.tsx:175 | the insight at the index, or the first when the index is past the end |
| Insights.TickAsWritten | web/components/analytics/personalized-insights.tsx:71-79 | as written: a tick steps modulo the number of supplied insights, and only when rotating with two or more supplied |
| Insights.Tick | web/components/analytics/personalized-insights.tsx:71-79 | as intended: a tick steps to the next insight shown and wraps to the first after the last |
| Insights.RotationMissesGenerated | web/components/analytics/personalized-insights.tsx:71-79 | as written, every card the rotation reaches from the first is the first card or a supplied insight, so generated insights after the first are never shown |
| Insights.NoSuppliedNoRotation | web/components/analytics/personalized-insights.tsx:71-79 | as written, with no supplied insights the cards never rotate, even with several generated ones |
| Insights.RotationVisitsAll | web/components/analytics/personalized-insights.tsx:71-79 | as intended, k ticks from the first show insight k, and one tick per insight comes back to the first |
| Insights.EveryInsightShown | web/components/analytics/personalized-insights.tsx:71-79 | as intended, every insight is shown after as many ticks as its index |
| Metrics.TimeSaved | web/app/api/analytics/metrics/route.ts:47-52 | at least two minutes; more exactly when the estimated original is at least 9 characters longer than the summary, and then that reduction read at 250 a minute |
| Metrics.LongerSummarySavesLess | web/app/api/analytics/metrics/route.ts:47-52 | a longer summary of the same page never saves more time |
| Metrics.TotalTime | web/app/api/analytics/metrics/route.ts:55 | every summary adds at least two minutes |
| Metrics.Round | web/app/api/analytics/metrics/route.ts:164-168 | the rounding is within half a minute, halves up |
| Metrics.RoundMonotone | web/app/api/analytics/metrics/route.ts:164-168 | rounding keeps the order of values |
| Metrics.WindowMembers | web/app/api/analytics/metrics/route.ts:121-123 | a window holds exactly the summaries made within it |
| Metrics.Since | web/app/api/analytics/metrics/route.ts:57-61 | the filter keeps exactly the summaries made at the start or later |
| Metrics.SinceShrinks | web/app/api/analytics/metrics/route.ts:57-61 | a later start never gives more time saved |
| Metrics.WindowSplit | web/app/api/analytics/metrics/route.ts:121-128 | windows that meet add up, in count and in time saved |
| Metrics.InsertDay | web/app/api/analytics/metrics/route.ts:65-67 | adding a day keeps the days distinct and newest first, and holds exactly the old days and the new one |
| Metrics.SortDays | web/app/api/analytics/metrics/route.ts:65-67 | the distinct days, newest first, are exactly the days given |
| Metrics.StreakRun | web/app/api/analytics/metrics/route.ts:69-78 | a streak of k means today and the k-1 days before it are active, and the day before them is not |
| Metrics.StreakDays | web/app/api/analytics/metrics/route.ts:64-78 | every day of the streak ending today is active; the day before it is not when no day is later than today; a later active day gives 0 |
| Metrics.CategoryOf | web/app/api/analytics/metrics/route.ts:83-96 | 'general' exactly without a URL or with one that does not parse; otherwise each category exactly when its rule is the first that matches the host, in the order technical, articles, news, research, video, and 'web' exactly when none matches |
| Metrics.DaysActive | web/app/api/analytics/metrics/route.ts:64-67 | the distinct days, newest first, are exactly the days on which some summary was made |
| Metrics.FirstRuleWins | web/app/api/analytics/metrics/route.ts:87-92 | a host naming GitHub and a blog is technical |
| Metrics.TallyCounts | web/app/api/analytics/metrics/route.ts:81-103 | the map has one entry per category present, counting its summaries |
| Metrics.TallyCountsAll | web/app/api/analytics/metrics/route.ts:81-103 | every summary is counted in exactly one category |
| Metrics.BumpAddsOne | web/app/api/analytics/metrics/route.ts:98-101 | counting one summary raises the total count by one |
| Metrics.InsertByCount | web/app/api/analytics/metrics/route.ts:112 | inserting keeps the order by count and the entries as a multiset |
| Metrics.SortKeepsSum | web/app/api/analytics/metrics/route.ts:112 | sorting neither adds nor drops a counted summary |
| Metrics.TopCategories | web/app/api/analytics/metrics/route.ts:105-112 | the categories, most summaries first, are a permutation of the tally |
| Metrics.TopCategoriesCounts | web/app/api/analytics/metrics/route.ts:105-112 | every category present is listed with its count, and the counts add up to the summaries |
| Metrics.ProductivityScore | web/app/api/analytics/metrics/route.ts:155-161 | the score is at most 100 and is the sum of its three capped parts, so the final cap never binds |
| Metrics.FullScore | web/app/api/analytics/metrics/route.ts:158-161 | the score is 100 exactly when four streak days, four summaries this week and four categories fill each part |
| Metrics.WeeklyData | web/app/api/analytics/metrics/route.ts:115-132 | seven bars, the j-th for the day six minus j days before today |
| Metrics.DayBarsAt | web/app/api/analytics/metrics/route.ts:117-131 | the j-th of the bars counts the summaries of the j-th day, from its midnight to the next |
| Metrics.DayBarsAddUp | web/app/api/analytics/metrics/route.ts:115-132 | the daily bars add up to the summaries of those days |
| Metrics.WeekBarsAddUp | web/app/api/analytics/metrics/route.ts:115-132 | the week's bars count every summary from midnight six days ago to the end of today |
| Metrics.MonthBarsAsWritten | web/app/api/analytics/metrics/route.ts:135-152 | as written, one bar per month, counting and timing exactly the summaries of that month's as-written window |
| Metrics.MonthWindowAsWritten | web/app/api/analytics/metrics/route.ts:137-143 | as written, a month holds exactly the summaries from its first midnight up to and including the midnight that starts its last day |
| Metrics.LastDayLost | web/app/api/analytics/metrics/route.ts:137-143 | as written, a summary after midnight on a month's last day is in no month |
| Metrics.MonthBars | web/app/api/analytics/metrics/route.ts:135-152 | corrected, a month's bar runs from its first midnight to the next month's |
| Metrics.MonthBarsAddUp | web/app/api/analytics/metrics/route.ts:135-152 | corrected, consecutive months count every summary of the period exactly once |
| Metrics.EndAfterStart | web/app/api/analytics/metrics/route.ts:136-138 | the last of consecutive months ends after the first starts |
| Metrics.GetMetrics | web/app/api/analytics/metrics/route.ts:5-183 | 401 exactly without a user; zeros without summaries; otherwise the count; the rounded total time and the rounded time since 7 and 30 days before now, with weekly ≤ monthly ≤ total; the categories by count; the score of the streak, the last week's count and the number of categories, at most 100; category counts adding up to the summaries; a streak of active days ending today that stops at the first inactive day, and is 0 when a summary is dated after today; the seven day bars; and the six month bars as written, whose month ends at the midnight starting its last day |

## Left out

- Authentication (Clerk JWT checks, row-level security context): the caller's Clerk id is an input.
- Signature verification (Stripe and Svix): an input saying whether it succeeded.
- Network, storage, DOM, timers: their results are inputs.
- Logging: not modelled.
- Welcome and contact e-mails: not modelled; they do not change state.
- `call_deepseek_api` (api/main.py:1225-1361): its result is an input (`Quota.Upstream`). Prompt building and response parsing are not modelled.
- The résumé service's DeepSeek calls and cover letter: left out for the same reason.
- The optimization score of `tailor_resume` (api/services/resume_tailoring.py:134-168): floating-point arithmetic.
- Resume.Tailor: leaves the optimization score out for that reason.
- Goals.Progress: rounds the exact percentage `current * 100 / target`. The component rounds an IEEE double, so a quotient that is a half in exact arithmetic can round down there: 23 of 40 gives 57 in JavaScript and 58 here.
- ExtBackground.OtherFailure: a message that starts with "API error" is reported as it is. The script would read a status out of it with `/API error (\d+)/`, but only the thrown status error carries one, and that error is modelled by `ExtBackground.StatusFailure`.
- Parsing the HTML of a job page (BeautifulSoup): the elements a selector matches are an input map.
- Regular-expression matching of skills in a description: the matches are an input.
- `urlparse`: modelled by `Jobs.Netloc` for the usual scheme-and-authority shape only. Userinfo and ports stay part of the host.
- Dashboard URL parsing (`new URL(...).hostname`): an input. A URL that does not parse is a separate case.
- Python's `set()` order is unspecified. The model fixes first-occurrence order, and every stated property is order-independent.
- The Prisma error codes of the dashboard's Clerk route: modelled from their meaning. A duplicate create is P2002 and a missing row is P2025.
- Dashboard Clerk delete with history: a row that still has history is assumed to be refused (500). The foreign-key schema is not part of this model.
- Dashboard Clerk defaults: the plan and counters of a row it creates are assumed equal to the API's.
- History rows are not re-keyed when a row is relinked to a new Clerk id by e-mail. The schema's cascade rules are not part of this model.
- The metrics route's catch-all 500 (a database failure): not modelled.
- Provisioning.EmailEntry: an entry's `verification` is its status or absent. An entry whose `verification` is JSON null makes the handler's `.get("verification", {}).get("status")` raise, which `user.created` and `user.updated` answer with 500; that case is not modelled.
- Row timestamps (`createdAt`, `updatedAt` of a user row): not modelled. The settings update also sets `updatedAt`; the model's row has no such column.
- Billing.EnsureCustomer: refuses (500) a created customer id that is empty or already linked to another row. Stripe never returns an empty id, and a duplicate would violate the unique `stripeCustomerId` column and raise inside the handler's try; the handler itself would link any id.
- Month boundaries come from the local calendar (`new Date(y, m, 1)`): the months are an input (`Metrics.Month`, a start and a number of days).
- Time zones and daylight saving time: the calendar day of a timestamp is `t / 86400000`.
- Chart labels (`toLocaleDateString`): not modelled.
- `avgWordsReduced` (a constant 300 for a non-empty bar): not modelled.
- The categories' `timeSaved` and `averageLength`: floating point.
- Metrics.TopCategories: the route's sort is stable; the model states the order by count and the permutation, not the order among ties.
- Metrics.TimeSaved: minutes are kept exact as a reduction over 250 and compared through multiplication. The JavaScript floating-point value is not modelled.
- Insights: descriptions, icons and actionable texts are left out; only kind, title, value, trend and priority are kept.
- Strings are sequences of Dafny characters, which are Unicode scalar values, not UTF-16 code units. An astral character is therefore one character here where JavaScript counts two; this matters for the package hash and for `.length` checks.
- Case folding and whitespace cover ASCII only. JavaScript's `\s` and Python's `str.strip()` also accept other Unicode spaces.
- PopupSimple.LongSentences: splits at each '.', '!' and '?' instead of at runs of them. The extra pieces are empty and are dropped by the length test.
- PopupSimple.PlainSummary: object-valued summary fields (`summary.content`, `summary.text`, `JSON.stringify`) are not modelled; the fields are strings.
- The packaged popup's mapping of error messages to friendly texts: not modelled.
- The popups' clear-history button: it simply stores `[]`.
- The popups' settings, themes and onboarding: not modelled.
- The job copilot UI: not modelled.
- The context menus and token retrieval of the background scripts: not modelled, beyond the token's presence.

## Findings

| source | as written | input that shows it | evidently intended | confidence | as-written member | corrected member |
|---|---|---|---|---|---|---|
| api/main.py:874-903 | the 403 for a caller without a row is raised inside a `try` whose `except Exception` turns it into a 500 | a signed-in Clerk id with no row in the users table asks for a summary | 403 "User profile not found.", as the check after the `try` says | high, not executed | Quota.UnknownCallerGets500 | Quota.GateFixed |
| api/main.py:983-1020 | the 404 for a missing user is raised inside a `try` whose `except Exception` turns it into a 500 | a signed-in Clerk id with no row in the users table | 404 "User profile not found." | high, not executed | AccountApi.MissingProfileAnswers500 | AccountApi.AccountDetailsFor |
| api/services/job_detection.py:62 | the dispatch table key 'stackoverflow.com/jobs' holds a path, but it is matched against the host only | `https://stackoverflow.com/jobs/123` (host "stackoverflow.com") | key "stackoverflow.com", so the Stack Overflow detector is reachable | high, not executed | Jobs.StackOverflowUnreachable | Jobs.FixedStackOverflowReachable |
| extension/popup-simple.js:338 | `/^[‚Ä¢\-*\d\.]\s*/` is a character class, so it strips a single character of the marker (the bullet is spelled as three characters) | the line "1. First point" gives ". First point" | the whole marker goes: "First point" | high, not executed | PopupSimple.NumberedPointKeepsDot | PopupSimple.StripMarkerDropsNumber |
| web/components/analytics/personalized-insights.tsx:71-79 | the rotation steps modulo `insights.length` (the supplied insights), not the number shown | no supplied insights and a 7-day streak: two cards, never rotated | step modulo `allInsights.length` | medium, not executed | Insights.NoSuppliedNoRotation | Insights.RotationVisitsAll |
| web/app/api/analytics/metrics/route.ts:137-143 | the month ends at `new Date(y, m + 1, 0)`, the midnight that starts its last day, and the test is `<=` | a summary at noon on the month's last day | the month ends at the next month's first midnight | high, not executed | Metrics.LastDayLost | Metrics.MonthBarsAddUp |

=== FILE: account_api.dfy ===
/** The API's account endpoints (api/main.py): account details and pro
    status, the summary-history list and its deletion, and notification
    settings. */
module AccountApi {
  import opened Options
  import opened Accounts
  import Histories

  datatype ApiResult<T> = Success(value: T) | ApiError(status: int, detail: string)

  /** Pro status is exactly the plan string "premium". */
  predicate IsPro(u: User) {
    u.plan == PremiumPlan
  }

  datatype AccountDetails = AccountDetails(email: string, plan: string, summariesUsed: nat, summaryLimit: int, isPro: bool)

  function DetailsOf(u: User): (d: AccountDetails)
    ensures d.isPro <==> u.plan == "premium"
    ensures d.email == u.email && d.plan == u.plan && d.summariesUsed == u.summariesUsed && d.summaryLimit == u.summaryLimit
  {
    AccountDetails(u.email, u.plan, u.summariesUsed, u.summaryLimit, IsPro(u))
  }

  /** `get_account_details` as written: the 404 for a missing row is raised
      inside the `try` whose catch-all turns every exception into a 500. */
  function AccountDetailsAsWritten(users: Users, id: ClerkId): (r: ApiResult<AccountDetails>)
    ensures id in users <==> r.Success?
    ensures id in users ==> r.value == DetailsOf(users[id])
    ensures id !in users ==> r == ApiError(500, "Error fetching account details.")
  {
    if id in users then Success(DetailsOf(users[id])) else ApiError(500, "Error fetching account details.")
  }

  /** The evidently intended behaviour: a missing row is a 404. */
  function AccountDetailsFor(users: Users, id: ClerkId): (r: ApiResult<AccountDetails>)
    ensures id in users <==> r.Success?
    ensures id in users ==> r.value == DetailsOf(users[id])
    ensures id !in users ==> r == ApiError(404, "User profile not found.")
  {
    if id in users then Success(DetailsOf(users[id])) else ApiError(404, "User profile not found.")
  }

  /** `get_user_status` as written, with the same swallowed 404. */
  function UserStatusAsWritten(users: Users, id: ClerkId): (r: ApiResult<bool>)
    ensures id in users <==> r.Success?
    ensures id in users ==> (r.value <==> users[id].plan == PremiumPlan)
    ensures id !in users ==> r == ApiError(500, "Error fetching user status.")
  {
    if id in users then Success(IsPro(users[id])) else ApiError(500, "Error fetching user status.")
  }

  /** `get_user_status` with the intended 404. */
  function UserStatusFor(users: Users, id: ClerkId): (r: ApiResult<bool>)
    ensures id in users <==> r.Success?
    ensures id in users ==> (r.value <==> users[id].plan == PremiumPlan)
    ensures id !in users ==> r == ApiError(404, "User profile not found.")
  {
    if id in users then Success(IsPro(users[id])) else ApiError(404, "User profile not found.")
  }

  /** A caller whose row is missing never gets the 404 the handlers raise:
      the catch-all answers 500 instead. The corrected handlers agree with
      the as-written ones on every existing row. */
  lemma MissingProfileAnswers500(users: Users, id: ClerkId)
    requires id !in users
    ensures AccountDetailsAsWritten(users, id).status == 500 && AccountDetailsFor(users, id).status == 404
    ensures UserStatusAsWritten(users, id).status == 500 && UserStatusFor(users, id).status == 404
    ensures forall k :: k in users ==>
              (AccountDetailsAsWritten(users, k) == AccountDetailsFor(users, k) &&
               UserStatusAsWritten(users, k) == UserStatusFor(users, k))
  {
  }

  // ---------------------------------------------------------------------
  // Settings
  // ---------------------------------------------------------------------

  datatype Settings = Settings(emailNotifications: bool, summaryNotifications: bool, marketingEmails: bool)

  /** Stored settings with the defaults for unset columns: notifications on,
      marketing off. */
  function SettingsOf(u: User): (s: Settings)
    ensures u.emailNotifications.None? ==> s.emailNotifications
    ensures u.summaryNotifications.None? ==> s.summaryNotifications
    ensures u.marketingEmails.None? ==> !s.marketingEmails
    ensures u.emailNotifications.Some? ==> s.emailNotifications == u.emailNotifications.value
    ensures u.summaryNotifications.Some? ==> s.summaryNotifications == u.summaryNotifications.value
    ensures u.marketingEmails.Some? ==> s.marketingEmails == u.marketingEmails.value
  {
    Settings(u.emailNotifications.GetOr(true), u.summaryNotifications.GetOr(true), u.marketingEmails.GetOr(false))
  }

  /** `get_user_settings`; its 404 is also swallowed into a 500. */
  function GetSettings(users: Users, id: ClerkId): (r: ApiResult<Settings>)
    ensures id in users <==> r.Success?
    ensures id in users ==> r.value == SettingsOf(users[id])
    ensures id !in users ==> r == ApiError(500, "Error fetching user settings.")
  {
    if id in users then Success(SettingsOf(users[id])) else ApiError(500, "Error fetching user settings.")
  }

  /** `update_user_settings`: all three columns are written; the handler
      answers with the values read back. */
  function PutSettings(users: Users, id: ClerkId, s: Settings): (r: (Users, ApiResult<Settings>))
    ensures id !in users ==> r == (users, ApiError(500, "Error updating user settings."))
    ensures id in users ==> r.1 == Success(s) && r.0.Keys == users.Keys
    ensures forall k :: k in users && k != id ==> k in r.0 && r.0[k] == users[k]
    ensures id in users ==> SettingsOf(r.0[id]) == s
    ensures id in users ==>
              r.0[id].(emailNotifications := users[id].emailNotifications,
                       summaryNotifications := users[id].summaryNotifications,
                       marketingEmails := users[id].marketingEmails) == users[id]
  {
    if id !in users then (users, ApiError(500, "Error updating user settings."))
    else
      var v := users[id].(emailNotifications := Some(s.emailNotifications),
                          summaryNotifications := Some(s.summaryNotifications),
                          marketingEmails := Some(s.marketingEmails));
      (users[id := v], Success(SettingsOf(v)))
  }

  /** Reading after writing returns what was written. */
  lemma SettingsRoundTrip(users: Users, id: ClerkId, s: Settings)
    requires id in users
    ensures GetSettings(PutSettings(users, id, s).0, id) == Success(s)
  {
  }

  lemma PutSettingsPreservesValid(users: Users, id: ClerkId, s: Settings)
    requires Valid(users)
    ensures Valid(PutSettings(users, id, s).0)
  {
    if id in users {
      var v := users[id].(emailNotifications := Some(s.emailNotifications),
                          summaryNotifications := Some(s.summaryNotifications),
                          marketingEmails := Some(s.marketingEmails));
      ReplacePreservesValid(users, id, v);
    }
  }

  // ---------------------------------------------------------------------
  // History
  // ---------------------------------------------------------------------

  /** `get_user_history`: the caller's rows, newest first (rows are kept in
      creation order), at most 100. */
  function ListHistory(h: seq<HistoryRow>, id: ClerkId): (r: seq<HistoryRow>)
    ensures |r| <= 100
    ensures forall x :: x in r ==> x in h && x.userId == id
    ensures |r| == if |HistoryOf(h, id)| <= 100 then |HistoryOf(h, id)| else 100
    ensures forall i :: 0 <= i < |r| ==> r[i] == HistoryOf(h, id)[|HistoryOf(h, id)| - 1 - i]
  {
    var mine := Histories.Rev(HistoryOf(h, id));
    var r := if |mine| <= 100 then mine else mine[..100];
    assert forall i :: 0 <= i < |r| ==> r[i] == mine[i];
    r
  }

  /** Rows other than the one with id `hid`. */
  function WithoutRow(h: seq<HistoryRow>, hid: string): (r: seq<HistoryRow>)
    ensures forall x :: x in r <==> x in h && x.id != hid
    ensures |r| <= |h|
  {
    if h == [] then []
    else (if h[0].id == hid then [] else [h[0]]) + WithoutRow(h[1..], hid)
  }

  /** The caller owns a row with this id. */
  predicate Owns(h: seq<HistoryRow>, id: ClerkId, hid: string) {
    exists x :: x in h && x.id == hid && x.userId == id
  }

  /** `delete_single_history_item`: answers 404 unless the caller owns the
      row, and then deletes it (204). */
  function DeleteHistoryItem(h: seq<HistoryRow>, id: ClerkId, hid: string): (r: (seq<HistoryRow>, int))
    ensures !Owns(h, id, hid) ==> r == (h, 404)
    ensures Owns(h, id, hid) ==> r.1 == 204 && r.0 == WithoutRow(h, hid)
  {
    if Owns(h, id, hid) then (WithoutRow(h, hid), 204) else (h, 404)
  }

  /** Nobody can delete another user's row: whatever `id` asks for, the
      rows of every other user that do not carry the requested id stay,
      and when the requested row belongs to someone else nothing changes. */
  lemma DeleteRespectsOwnership(h: seq<HistoryRow>, id: ClerkId, hid: string)
    requires forall i, j :: 0 <= i < j < |h| ==> h[i].id != h[j].id
    ensures forall x :: x in h && x.userId != id ==> x in DeleteHistoryItem(h, id, hid).0
    ensures forall x :: x in h && x.id != hid ==> x in DeleteHistoryItem(h, id, hid).0
    ensures DeleteHistoryItem(h, id, hid).1 == 204 ==> !exists x :: x in DeleteHistoryItem(h, id, hid).0 && x.id == hid
  {
    if Owns(h, id, hid) {
      var y :| y in h && y.id == hid && y.userId == id;
      forall x | x in h && x.userId != id
        ensures x.id != hid
      {
        var i :| 0 <= i < |h| && h[i] == x;
        var j :| 0 <= j < |h| && h[j] == y;
        assert i != j;
      }
    }
  }

  /** `delete_all_user_history`: the caller's rows go, everybody else's
      stay in order. */
  function DeleteAllHistory(h: seq<HistoryRow>, id: ClerkId): (r: seq<HistoryRow>)
    ensures HistoryOf(r, id) == []
    ensures forall x :: x in h && x.userId != id <==> x in r
  {
    var r := DeleteHistoryOf(h, id);
    NoneLeft(r, id);
    r
  }

  lemma {:induction false} NoneLeft(h: seq<HistoryRow>, id: ClerkId)
    requires forall x :: x in h ==> x.userId != id
    ensures HistoryOf(h, id) == []
  {
    if h != [] {
      assert h[0] in h;
      assert forall x :: x in h[1..] ==> x in h;
      NoneLeft(h[1..], id);
    }
  }
}

=== FILE: accounts.dfy ===
/** The user record store behind the API: one `User` row per Clerk id, the
    summary-history rows that belong to users, and the uniqueness rules the
    database schema enforces on them. Timestamps are integer epoch seconds. */
module Accounts {
  import opened Options

  type ClerkId = string
  type Time = int

  const FreePlan: string := "free"
  const PremiumPlan: string := "premium"
  /** Daily quota a new row starts with. */
  const FreeLimit: int := 10
  /** Quota set when a checkout upgrades a row. */
  const PremiumLimit: int := 500
  const DaySeconds: int := 86400

  datatype User = User(
    clerkId: ClerkId,
    email: string,
    firstName: Option<string>,
    lastName: Option<string>,
    profileImageUrl: Option<string>,
    plan: string,
    summariesUsed: nat,
    summaryLimit: int,
    /** Free rows: time of the last daily reset. Premium rows: end of the
        paid billing period. */
    usageResetAt: Option<Time>,
    totalSummariesMade: nat,
    stripeCustomerId: Option<string>,
    stripeSubscriptionId: Option<string>,
    stripePriceId: Option<string>,
    stripeCurrentPeriodEnd: Option<Time>,
    emailNotifications: Option<bool>,
    summaryNotifications: Option<bool>,
    marketingEmails: Option<bool>)

  /** One saved summary; `userId` is the owner's Clerk id. */
  datatype HistoryRow = HistoryRow(
    id: string,
    userId: ClerkId,
    url: Option<string>,
    title: Option<string>,
    tldr: string,
    keyPoints: seq<string>)

  type Users = map<ClerkId, User>

  /** The whole database: user rows by Clerk id, and history rows in
      insertion order. */
  datatype Db = Db(users: Users, history: seq<HistoryRow>)

  /** A row freshly provisioned on the free plan. */
  function NewFreeUser(id: ClerkId, email: string, first: Option<string>, last: Option<string>,
                       image: Option<string>, now: Time): (u: User)
    ensures u.clerkId == id && u.email == email
    ensures u.plan == FreePlan && u.summaryLimit == FreeLimit
    ensures u.summariesUsed == 0 && u.totalSummariesMade == 0
    ensures u.usageResetAt == Some(now)
    ensures u.stripeCustomerId == None && u.stripeSubscriptionId == None
  {
    User(id, email, first, last, image, FreePlan, 0, FreeLimit, Some(now), 0,
         None, None, None, None, None, None, None)
  }

  /** The schema's invariants: rows are keyed by their own Clerk id, and
      `email` and `stripeCustomerId` are unique columns. */
  predicate Valid(users: Users) {
    && (forall k :: k in users ==> users[k].clerkId == k)
    && (forall a, b :: a in users && b in users && users[a].email == users[b].email ==> a == b)
    && (forall a, b ::
          (a in users && b in users && users[a].stripeCustomerId.Some? &&
           users[a].stripeCustomerId == users[b].stripeCustomerId) ==> a == b)
  }

  /** `find_unique(where={"email": e})`. */
  function UserByEmail(users: Users, e: string): (r: Option<ClerkId>)
    requires Valid(users)
    ensures r.Some? <==> exists k :: k in users && users[k].email == e
    ensures r.Some? ==> r.value in users && users[r.value].email == e
  {
    if exists k :: k in users && users[k].email == e then
      var k :| k in users && users[k].email == e;
      Some(k)
    else None
  }

  /** `find_unique(where={"stripeCustomerId": c})`. */
  function UserByCustomer(users: Users, c: string): (r: Option<ClerkId>)
    requires Valid(users)
    ensures r.Some? <==> exists k :: k in users && users[k].stripeCustomerId == Some(c)
    ensures r.Some? ==> r.value in users && users[r.value].stripeCustomerId == Some(c)
  {
    if exists k :: k in users && users[k].stripeCustomerId == Some(c) then
      var k :| k in users && users[k].stripeCustomerId == Some(c);
      Some(k)
    else None
  }

  /** Writing a row back under its own key keeps the schema invariants as
      long as its email and customer id are unchanged. */
  lemma ReplacePreservesValid(users: Users, k: ClerkId, u: User)
    requires Valid(users) && k in users
    requires u.clerkId == k && u.email == users[k].email
    requires u.stripeCustomerId == users[k].stripeCustomerId
    ensures Valid(users[k := u])
  {
  }

  /** Writing a row back under its own key with a new email keeps the
      schema invariants when no other row has that email. */
  lemma ReplaceEmailPreservesValid(users: Users, k: ClerkId, u: User)
    requires Valid(users) && k in users && u.clerkId == k
    requires u.stripeCustomerId == users[k].stripeCustomerId
    requires forall j :: j in users && j != k ==> users[j].email != u.email
    ensures Valid(users[k := u])
  {
  }

  /** Adding a row with a fresh id, a fresh email and no customer keeps the
      schema invariants. */
  lemma InsertPreservesValid(users: Users, u: User)
    requires Valid(users) && u.clerkId !in users && u.stripeCustomerId.None?
    requires forall j :: j in users ==> users[j].email != u.email
    ensures Valid(users[u.clerkId := u])
  {
  }

  /** Moving a row to a fresh key while keeping its email and customer id
      keeps the schema invariants. */
  lemma RekeyPreservesValid(users: Users, prior: ClerkId, u: User)
    requires Valid(users) && prior in users && u.clerkId !in users
    requires u.email == users[prior].email && u.stripeCustomerId == users[prior].stripeCustomerId
    ensures Valid((users - {prior})[u.clerkId := u])
  {
    var r := (users - {prior})[u.clerkId := u];
    assert forall j :: j in r && j != u.clerkId ==> j in users && j != prior && r[j] == users[j];
  }

  /** Giving a row a customer id that no row holds keeps the schema
      invariants. */
  lemma SetCustomerPreservesValid(users: Users, k: ClerkId, c: string)
    requires Valid(users) && k in users
    requires forall j :: j in users ==> users[j].stripeCustomerId != Some(c)
    ensures Valid(users[k := users[k].(stripeCustomerId := Some(c))])
  {
    var r := users[k := users[k].(stripeCustomerId := Some(c))];
    forall a, b | a in r && b in r && r[a].stripeCustomerId.Some? && r[a].stripeCustomerId == r[b].stripeCustomerId
      ensures a == b
    {
      if a == k || b == k {
        assert r[a].stripeCustomerId == Some(c);
      }
    }
  }

  /** Removing a row keeps the schema invariants. */
  lemma RemovePreservesValid(users: Users, k: ClerkId)
    requires Valid(users)
    ensures Valid(users - {k})
  {
  }

  /** History rows owned by `id`. */
  function HistoryOf(h: seq<HistoryRow>, id: ClerkId): (r: seq<HistoryRow>)
    ensures forall x :: x in r <==> x in h && x.userId == id
    ensures |r| <= |h|
  {
    if h == [] then []
    else (if h[0].userId == id then [h[0]] else []) + HistoryOf(h[1..], id)
  }

  /** Selecting works piecewise, so the caller's rows keep the order in
      which they were saved. */
  lemma {:induction false} HistoryOfConcat(a: seq<HistoryRow>, b: seq<HistoryRow>, id: ClerkId)
    ensures HistoryOf(a + b, id) == HistoryOf(a, id) + HistoryOf(b, id)
  {
    if a == [] {
      assert a + b == b;
    } else {
      assert (a + b)[1..] == a[1..] + b;
      HistoryOfConcat(a[1..], b, id);
    }
  }

  /** `delete_many(where={"userId": id})`: every other row stays, in order. */
  function DeleteHistoryOf(h: seq<HistoryRow>, id: ClerkId): (r: seq<HistoryRow>)
    ensures forall x :: x in r <==> x in h && x.userId != id
    ensures |r| <= |h|
  {
    if h == [] then []
    else (if h[0].userId == id then [] else [h[0]]) + DeleteHistoryOf(h[1..], id)
  }

  /** Each row is either removed by `DeleteHistoryOf` or kept, never both. */
  lemma {:induction false} DeleteHistorySplits(h: seq<HistoryRow>, id: ClerkId)
    ensures |DeleteHistoryOf(h, id)| + |HistoryOf(h, id)| == |h|
  {
    if h != [] {
      DeleteHistorySplits(h[1..], id);
    }
  }
}

=== FILE: billing.dfy ===
/** Stripe billing (api/main.py): starting a checkout, which creates the
    Stripe customer at most once per row, and the webhook that upgrades a
    row to premium when a checkout completes and renews its quota when a
    paid invoice starts a new period. Every Stripe API call is an input:
    the model receives what the call returned. */
module Billing {
  import opened Options
  import opened Text
  import opened Accounts

  const MonthlyPriceId: string := "price_1RTWE7AGvsrc7mtDIbGZqLgm"
  const YearlyPriceId: string := "price_1RUX3xAGvsrc7mtDT8Cx3YZM"

  /** The price-key table; only "monthly" and "yearly" are known. */
  function PriceIdFor(key: string): (r: Option<string>)
    ensures r.Some? <==> key == "monthly" || key == "yearly"
    ensures key == "monthly" ==> r == Some(MonthlyPriceId)
    ensures key == "yearly" ==> r == Some(YearlyPriceId)
  {
    if key == "monthly" then Some(MonthlyPriceId)
    else if key == "yearly" then Some(YearlyPriceId)
    else None
  }

  // ---------------------------------------------------------------------
  // Checkout
  // ---------------------------------------------------------------------

  /** What `stripe.Customer.create` did. */
  datatype CustomerOutcome = CustomerCreated(id: string) | CustomerRejected(message: string) | CustomerCrashed

  /** What `stripe.checkout.Session.create` did. */
  datatype SessionOutcome = SessionCreated(sessionId: string, url: string) | SessionRejected(message: string) | SessionCrashed

  datatype CheckoutReply = CheckoutStarted(sessionId: string, url: string) | CheckoutFailed(status: int, detail: string)

  const PrepareFailed: string := "Failed to prepare user data for Stripe."

  /** The fixed messages of the checkout and webhook replies. */
  const StripeMissingMessage: string := "Stripe is not configured on the server."
  const CheckoutCrashedMessage: string := "An unexpected error occurred. Please try again later."
  const MissingPayloadMessage: string := "Missing data in webhook payload"
  const MissingSubscriptionDataMessage: string := "Missing subscription data"
  const MissingInvoiceIdsMessage: string := "Missing subscription or customer ID in invoice"
  const RenewalUserMissingMessage: string := "User not found for subscription renewal."
  const WebhookSecretMissingMessage: string := "Internal server error."
  const WebhookCrashedMessage: string := "Internal server error processing webhook."

  /** Either the customer id the session is opened for, or the reply that
      ends the request before a session is requested. */
  datatype CustomerStep = Linked(customerId: string) | Refused(reply: CheckoutReply)

  /** The stored customer id when it is set, else a newly created one,
      which is written to the row before the session is requested (and
      stays there if the session fails). A missing email raises inside the
      customer block, whose catch-all answers with the generic preparation
      failure; so does the unique violation when the new customer id
      already belongs to another row. */
  function EnsureCustomer(users: Users, id: ClerkId, customer: CustomerOutcome): (r: (Users, CustomerStep))
    requires Valid(users) && id in users
    ensures Truthy(users[id].stripeCustomerId) ==> r == (users, Linked(users[id].stripeCustomerId.value))
    ensures r.1.Refused? ==> r.0 == users && r.1.reply.CheckoutFailed? && r.1.reply.status == 500
    ensures r.1.Linked? ==> r.1.customerId != "" && id in r.0 && r.0[id].stripeCustomerId == Some(r.1.customerId)
    ensures r.0 == users || r.0 == users[id := users[id].(stripeCustomerId := r.0[id].stripeCustomerId)]
  {
    var u := users[id];
    if Truthy(u.stripeCustomerId) then (users, Linked(u.stripeCustomerId.value))
    else if u.email == "" then (users, Refused(CheckoutFailed(500, PrepareFailed)))
    else
      match customer
      case CustomerRejected(msg) => (users, Refused(CheckoutFailed(500, "Stripe customer creation failed: " + msg)))
      case CustomerCrashed => (users, Refused(CheckoutFailed(500, PrepareFailed)))
      case CustomerCreated(c) =>
        if c == "" || UserByCustomer(users, c).Some? then (users, Refused(CheckoutFailed(500, PrepareFailed)))
        else (users[id := u.(stripeCustomerId := Some(c))], Linked(c))
  }

  /** `create_checkout_session`. `configured` is whether both Stripe
      secrets are set. */
  function CreateCheckoutSession(users: Users, configured: bool, id: ClerkId, priceKey: string,
                                 customer: CustomerOutcome, session: SessionOutcome): (r: (Users, CheckoutReply))
    requires Valid(users)
    ensures !configured ==> r == (users, CheckoutFailed(500, StripeMissingMessage))
    ensures configured && id !in users ==> r == (users, CheckoutFailed(404, "User not found"))
    ensures configured && id in users && PriceIdFor(priceKey).None? ==> r == (users, CheckoutFailed(400, "Invalid price key"))
    ensures r.1.CheckoutStarted? <==> configured && id in users && PriceIdFor(priceKey).Some?
                                        && EnsureCustomer(users, id, customer).1.Linked? && session.SessionCreated?
    ensures r.0 == users || (id in users && id in r.0 && !Truthy(users[id].stripeCustomerId) &&
                             r.0 == users[id := users[id].(stripeCustomerId := r.0[id].stripeCustomerId)])
  {
    if !configured then (users, CheckoutFailed(500, StripeMissingMessage))
    else if id !in users then (users, CheckoutFailed(404, "User not found"))
    else if PriceIdFor(priceKey).None? then (users, CheckoutFailed(400, "Invalid price key"))
    else
      var linked := EnsureCustomer(users, id, customer);
      if linked.1.Refused? then (linked.0, linked.1.reply)
      else
        match session
        case SessionCreated(sid, url) => (linked.0, CheckoutStarted(sid, url))
        case SessionRejected(msg) => (linked.0, CheckoutFailed(500, "Stripe API error: " + msg))
        case SessionCrashed => (linked.0, CheckoutFailed(500, CheckoutCrashedMessage))
  }

  /** The customer is created at most once: once a row has a customer id,
      later checkouts never consult the customer call and never write. */
  lemma CustomerCreatedOnce(users: Users, id: ClerkId, key: string, c1: CustomerOutcome, c2: CustomerOutcome,
                            s: SessionOutcome, configured: bool)
    requires Valid(users) && id in users && Truthy(users[id].stripeCustomerId)
    ensures CreateCheckoutSession(users, configured, id, key, c1, s) == CreateCheckoutSession(users, configured, id, key, c2, s)
    ensures CreateCheckoutSession(users, configured, id, key, c1, s).0 == users
  {
  }

  /** A first checkout that creates customer `c` leaves the row linked to
      `c` whatever the session call does, so a retry reuses it. */
  lemma FirstCheckoutLinksCustomer(users: Users, id: ClerkId, key: string, c: string, s: SessionOutcome)
    requires Valid(users) && id in users && !Truthy(users[id].stripeCustomerId)
    requires users[id].email != "" && c != "" && UserByCustomer(users, c).None?
    requires PriceIdFor(key).Some?
    ensures var after := CreateCheckoutSession(users, true, id, key, CustomerCreated(c), s).0;
            after == users[id := users[id].(stripeCustomerId := Some(c))]
  {
  }

  /** Checkout keeps the schema invariants. */
  lemma CheckoutPreservesValid(users: Users, configured: bool, id: ClerkId, key: string,
                               customer: CustomerOutcome, session: SessionOutcome)
    requires Valid(users)
    ensures Valid(CreateCheckoutSession(users, configured, id, key, customer, session).0)
  {
    if configured && id in users && PriceIdFor(key).Some? {
      var u := users[id];
      assert CreateCheckoutSession(users, configured, id, key, customer, session).0 == EnsureCustomer(users, id, customer).0;
      if !Truthy(u.stripeCustomerId) && u.email != "" && customer.CustomerCreated?
         && customer.id != "" && UserByCustomer(users, customer.id).None? {
        SetCustomerPreservesValid(users, id, customer.id);
      } else {
        assert EnsureCustomer(users, id, customer).0 == users;
      }
    } else {
      assert CreateCheckoutSession(users, configured, id, key, customer, session).0 == users;
    }
  }

  // ---------------------------------------------------------------------
  // Webhook
  // ---------------------------------------------------------------------

  /** A price or plan object on a subscription item, with its `id` field. */
  datatype PriceRef = PriceRef(id: Option<string>)

  datatype SubscriptionItem = SubscriptionItem(plan: Option<PriceRef>, price: Option<PriceRef>)

  /** The fields of a retrieved subscription that the webhook reads. */
  datatype Subscription = Subscription(items: seq<SubscriptionItem>, currentPeriodEnd: Option<Time>)

  /** What `stripe.Subscription.retrieve` did. */
  datatype Retrieval = Retrieved(sub: Subscription) | RetrieveFailed(message: string)

  datatype StripeEvent =
    | CheckoutCompleted(customer: Option<string>, subscription: Option<string>)
    | InvoicePaid(subscription: Option<string>, customer: Option<string>, billingReason: Option<string>)
    | OtherEvent(kind: string)

  /** The outcome of `construct_event`: a verified event, or the error it
      raised (a malformed payload, a bad signature, anything else). */
  datatype Delivery = Verified(event: StripeEvent) | InvalidPayload | InvalidSignature | ConstructFailed

  /** The reply body: `{"received": true}`, `{"error": …}`, or
      `{"status": "error", "message": …}` (all with HTTP 200), or an HTTP
      error. */
  datatype WebhookReply = Received | ErrorBody(error: string) | StatusError(message: string) | HttpError(status: int, detail: string)

  /** The price id and period end read from the first subscription item:
      the plan's id wins over the price's id even when it is absent. With
      no items both are absent. */
  function SubscriptionTerms(s: Subscription): (r: (Option<string>, Option<Time>))
    ensures s.items == [] ==> r == (None, None)
    ensures s.items != [] ==> r.1 == s.currentPeriodEnd
    ensures s.items != [] && s.items[0].plan.Some? ==> r.0 == s.items[0].plan.value.id
    ensures s.items != [] && s.items[0].plan.None? && s.items[0].price.Some? ==> r.0 == s.items[0].price.value.id
    ensures r.0.Some? ==> s.items != [] && (s.items[0].plan.Some? || s.items[0].price.Some?)
  {
    if s.items == [] then (None, None)
    else
      var item := s.items[0];
      var price := if item.plan.Some? then item.plan.value.id
                   else if item.price.Some? then item.price.value.id
                   else None;
      (price, s.currentPeriodEnd)
  }

  /** The premium row written by a completed checkout. */
  function Upgrade(u: User, subscription: string, price: string, periodEnd: Time): (v: User)
    ensures v.plan == PremiumPlan && v.summaryLimit == PremiumLimit && v.summariesUsed == 0
    ensures v.usageResetAt == Some(periodEnd) && v.stripeCurrentPeriodEnd == Some(periodEnd)
    ensures v.stripeSubscriptionId == Some(subscription) && v.stripePriceId == Some(price)
    ensures v.(plan := u.plan, summaryLimit := u.summaryLimit, summariesUsed := u.summariesUsed,
               usageResetAt := u.usageResetAt, stripeCurrentPeriodEnd := u.stripeCurrentPeriodEnd,
               stripeSubscriptionId := u.stripeSubscriptionId, stripePriceId := u.stripePriceId) == u
  {
    u.(plan := PremiumPlan, summaryLimit := PremiumLimit, stripeSubscriptionId := Some(subscription),
       stripePriceId := Some(price), stripeCurrentPeriodEnd := Some(periodEnd), summariesUsed := 0,
       usageResetAt := Some(periodEnd))
  }

  /** The row written by a renewal: a fresh counter and the new period end. */
  function Renew(u: User, periodEnd: Time): (v: User)
    ensures v.summariesUsed == 0 && v.usageResetAt == Some(periodEnd) && v.stripeCurrentPeriodEnd == Some(periodEnd)
    ensures v.(summariesUsed := u.summariesUsed, usageResetAt := u.usageResetAt,
               stripeCurrentPeriodEnd := u.stripeCurrentPeriodEnd) == u
  {
    u.(summariesUsed := 0, usageResetAt := Some(periodEnd), stripeCurrentPeriodEnd := Some(periodEnd))
  }

  predicate IsRenewalReason(reason: Option<string>) {
    reason == Some("subscription_cycle") || reason == Some("subscription_update")
  }

  /** A subscription carries a price id and a period end; a zero period
      end counts as missing. */
  predicate TermsComplete(sub: Subscription) {
    Truthy(SubscriptionTerms(sub).0) && SubscriptionTerms(sub).1.Some? && SubscriptionTerms(sub).1.value != 0
  }

  /** `checkout.session.completed`: an error body for a missing id, a
      failed retrieval, incomplete terms or an unknown customer, all with
      no write; otherwise the customer's row is upgraded. */
  function OnCheckoutCompleted(users: Users, customer: Option<string>, subscription: Option<string>,
                               retrieval: Retrieval): (r: (Users, WebhookReply))
    requires Valid(users)
    ensures !Truthy(customer) || !Truthy(subscription) ==> r == (users, ErrorBody(MissingPayloadMessage))
    ensures Truthy(customer) && Truthy(subscription) && retrieval.RetrieveFailed? ==>
              r == (users, ErrorBody("Stripe API error: " + retrieval.message))
    ensures Truthy(customer) && Truthy(subscription) && retrieval.Retrieved? && !TermsComplete(retrieval.sub) ==>
              r == (users, ErrorBody(MissingSubscriptionDataMessage))
    ensures Truthy(customer) && Truthy(subscription) && retrieval.Retrieved? && TermsComplete(retrieval.sub)
            && UserByCustomer(users, customer.value).None? ==>
              r == (users, ErrorBody("User not found"))
    ensures Truthy(customer) && Truthy(subscription) && retrieval.Retrieved? && TermsComplete(retrieval.sub)
            && UserByCustomer(users, customer.value).Some? ==>
              r == (users[UserByCustomer(users, customer.value).value :=
                          Upgrade(users[UserByCustomer(users, customer.value).value], subscription.value,
                                  SubscriptionTerms(retrieval.sub).0.value, SubscriptionTerms(retrieval.sub).1.value)],
                    Received)
  {
    if !Truthy(customer) || !Truthy(subscription) then (users, ErrorBody(MissingPayloadMessage))
    else match retrieval
      case RetrieveFailed(msg) => (users, ErrorBody("Stripe API error: " + msg))
      case Retrieved(sub) =>
        var terms := SubscriptionTerms(sub);
        if !TermsComplete(sub) then (users, ErrorBody(MissingSubscriptionDataMessage))
        else match UserByCustomer(users, customer.value)
          case None => (users, ErrorBody("User not found"))
          case Some(k) => (users[k := Upgrade(users[k], subscription.value, terms.0.value, terms.1.value)], Received)
  }

  /** `invoice.payment_succeeded`. A failed retrieval or an absent period
      end raises inside the handler's try and is only logged. */
  function OnInvoicePaid(users: Users, subscription: Option<string>, customer: Option<string>,
                         reason: Option<string>, retrieval: Retrieval): (r: (Users, WebhookReply))
    requires Valid(users)
    ensures !Truthy(subscription) || !Truthy(customer) ==> r == (users, StatusError(MissingInvoiceIdsMessage))
    ensures Truthy(subscription) && Truthy(customer) && !IsRenewalReason(reason) ==> r == (users, Received)
    ensures Truthy(subscription) && Truthy(customer) && IsRenewalReason(reason)
            && (retrieval.RetrieveFailed? || retrieval.sub.currentPeriodEnd.None?) ==>
              r == (users, Received)
    ensures Truthy(subscription) && Truthy(customer) && IsRenewalReason(reason)
            && retrieval.Retrieved? && retrieval.sub.currentPeriodEnd.Some?
            && UserByCustomer(users, customer.value).None? ==>
              r == (users, StatusError(RenewalUserMissingMessage))
    ensures Truthy(subscription) && Truthy(customer) && IsRenewalReason(reason)
            && retrieval.Retrieved? && retrieval.sub.currentPeriodEnd.Some?
            && UserByCustomer(users, customer.value).Some?
            && users[UserByCustomer(users, customer.value).value].plan != PremiumPlan ==>
              r == (users, Received)
  {
    if !Truthy(subscription) || !Truthy(customer) then
      (users, StatusError(MissingInvoiceIdsMessage))
    else if !IsRenewalReason(reason) then (users, Received)
    else if retrieval.RetrieveFailed? || retrieval.sub.currentPeriodEnd.None? then (users, Received)
    else match UserByCustomer(users, customer.value)
      case None => (users, StatusError(RenewalUserMissingMessage))
      case Some(k) =>
        if users[k].plan == PremiumPlan
        then (users[k := Renew(users[k], retrieval.sub.currentPeriodEnd.value)], Received)
        else (users, Received)
  }

  /** `stripe_webhook`: `secretConfigured` is whether the signing secret is
      set; `retrieval` is what the subscription lookup returns, if the
      handler makes it. */
  function StripeWebhook(users: Users, secretConfigured: bool, delivery: Delivery, retrieval: Retrieval): (r: (Users, WebhookReply))
    requires Valid(users)
    ensures !secretConfigured ==> r == (users, HttpError(500, WebhookSecretMissingMessage))
    ensures secretConfigured && delivery == InvalidPayload ==> r == (users, HttpError(400, "Invalid payload"))
    ensures secretConfigured && delivery == InvalidSignature ==> r == (users, HttpError(400, "Invalid signature"))
    ensures secretConfigured && delivery == ConstructFailed ==> r == (users, HttpError(500, WebhookCrashedMessage))
    ensures delivery.Verified? && delivery.event.OtherEvent? ==> r.0 == users && (secretConfigured ==> r.1 == Received)
    ensures secretConfigured && delivery.Verified? && delivery.event.CheckoutCompleted? ==>
              r == OnCheckoutCompleted(users, delivery.event.customer, delivery.event.subscription, retrieval)
    ensures secretConfigured && delivery.Verified? && delivery.event.InvoicePaid? ==>
              r == OnInvoicePaid(users, delivery.event.subscription, delivery.event.customer,
                                 delivery.event.billingReason, retrieval)
  {
    if !secretConfigured then (users, HttpError(500, WebhookSecretMissingMessage))
    else match delivery
      case InvalidPayload => (users, HttpError(400, "Invalid payload"))
      case InvalidSignature => (users, HttpError(400, "Invalid signature"))
      case ConstructFailed => (users, HttpError(500, WebhookCrashedMessage))
      case Verified(event) =>
        match event
        case CheckoutCompleted(customer, subscription) => OnCheckoutCompleted(users, customer, subscription, retrieval)
        case InvoicePaid(subscription, customer, reason) => OnInvoicePaid(users, subscription, customer, reason, retrieval)
        case OtherEvent(_) => (users, Received)
  }

  // ---------------------------------------------------------------------
  // Properties
  // ---------------------------------------------------------------------

  /** A completed checkout writes exactly when every input it needs is
      present and the customer is known, and then writes the premium row
      and nothing else. */
  lemma CheckoutCompletedUpgrades(users: Users, customer: Option<string>, subscription: Option<string>, retrieval: Retrieval)
    requires Valid(users)
    ensures var r := OnCheckoutCompleted(users, customer, subscription, retrieval);
            var terms := if retrieval.Retrieved? then SubscriptionTerms(retrieval.sub) else (None, None);
            var applies := Truthy(customer) && Truthy(subscription) && retrieval.Retrieved?
                           && Truthy(terms.0) && terms.1.Some? && terms.1.value != 0
                           && UserByCustomer(users, customer.value).Some?;
            && (r.1 == Received <==> applies)
            && (!applies ==> r.0 == users)
            && (applies ==> var k := UserByCustomer(users, customer.value).value;
                            r.0 == users[k := Upgrade(users[k], subscription.value, terms.0.value, terms.1.value)])
  {
  }

  /** A renewal writes exactly for a cycle or update invoice with a period
      end whose customer's row is premium, and then renews that row and
      leaves plan and limit untouched; missing ids and an unknown customer
      are the two error replies. */
  lemma RenewalOnlyForPremium(users: Users, subscription: Option<string>, customer: Option<string>,
                              reason: Option<string>, retrieval: Retrieval)
    requires Valid(users)
    ensures var r := OnInvoicePaid(users, subscription, customer, reason, retrieval);
            && (r.0 != users ==> && Truthy(subscription) && Truthy(customer) && IsRenewalReason(reason)
                                 && retrieval.Retrieved? && retrieval.sub.currentPeriodEnd.Some?
                                 && UserByCustomer(users, customer.value).Some?
                                 && users[UserByCustomer(users, customer.value).value].plan == PremiumPlan)
            && (r.0 != users ==> var k := UserByCustomer(users, customer.value).value;
                                 r.0 == users[k := Renew(users[k], retrieval.sub.currentPeriodEnd.value)])
            && (forall k :: k in users ==> k in r.0 && r.0[k].plan == users[k].plan
                                           && r.0[k].summaryLimit == users[k].summaryLimit)
    ensures Truthy(subscription) && Truthy(customer) && IsRenewalReason(reason)
            && retrieval.Retrieved? && retrieval.sub.currentPeriodEnd.Some?
            && UserByCustomer(users, customer.value).Some?
            && users[UserByCustomer(users, customer.value).value].plan == PremiumPlan
            ==> OnInvoicePaid(users, subscription, customer, reason, retrieval)
                == (users[UserByCustomer(users, customer.value).value :=
                          Renew(users[UserByCustomer(users, customer.value).value], retrieval.sub.currentPeriodEnd.value)],
                    Received)
    ensures OnInvoicePaid(users, subscription, customer, reason, retrieval).1 == StatusError(MissingInvoiceIdsMessage)
            <==> !Truthy(subscription) || !Truthy(customer)
    ensures OnInvoicePaid(users, subscription, customer, reason, retrieval).1 == StatusError(RenewalUserMissingMessage)
            <==> Truthy(subscription) && Truthy(customer) && IsRenewalReason(reason)
                 && retrieval.Retrieved? && retrieval.sub.currentPeriodEnd.Some?
                 && UserByCustomer(users, customer.value).None?
  {
  }


  /** Every webhook keeps the schema invariants and the set of rows. */
  lemma WebhookPreservesValid(users: Users, secretConfigured: bool, delivery: Delivery, retrieval: Retrieval)
    requires Valid(users)
    ensures Valid(StripeWebhook(users, secretConfigured, delivery, retrieval).0)
    ensures StripeWebhook(users, secretConfigured, delivery, retrieval).0.Keys == users.Keys
  {
    var r := StripeWebhook(users, secretConfigured, delivery, retrieval);
    if r.0 != users {
      match delivery.event
      case CheckoutCompleted(customer, subscription) =>
        var k := UserByCustomer(users, customer.value).value;
        var terms := SubscriptionTerms(retrieval.sub);
        ReplacePreservesValid(users, k, Upgrade(users[k], subscription.value, terms.0.value, terms.1.value));
      case InvoicePaid(subscription, customer, reason) =>
        var k := UserByCustomer(users, customer.value).value;
        ReplacePreservesValid(users, k, Renew(users[k], retrieval.sub.currentPeriodEnd.value));
    }
  }

  /** Stripe redelivers events; handling a delivery a second time leaves
      the state where the first one left it. */
  lemma WebhookIdempotent(users: Users, secretConfigured: bool, delivery: Delivery, retrieval: Retrieval)
    requires Valid(users)
    ensures var once := StripeWebhook(users, secretConfigured, delivery, retrieval).0;
            Valid(once) && StripeWebhook(once, secretConfigured, delivery, retrieval).0 == once
  {
    WebhookPreservesValid(users, secretConfigured, delivery, retrieval);
    if secretConfigured && delivery.Verified? {
      match delivery.event
      case CheckoutCompleted(customer, subscription) =>
        CheckoutCompletedTwice(users, customer, subscription, retrieval);
      case InvoicePaid(subscription, customer, reason) =>
        InvoicePaidTwice(users, subscription, customer, reason, retrieval);
      case OtherEvent(_) =>
    }
  }

  /** A completed checkout handled a second time writes the row it wrote
      the first time. */
  lemma CheckoutCompletedTwice(users: Users, customer: Option<string>, subscription: Option<string>, retrieval: Retrieval)
    requires Valid(users)
    ensures var once := OnCheckoutCompleted(users, customer, subscription, retrieval).0;
            Valid(once) && OnCheckoutCompleted(once, customer, subscription, retrieval).0 == once
  {
    var once := OnCheckoutCompleted(users, customer, subscription, retrieval).0;
    CheckoutCompletedUpgrades(users, customer, subscription, retrieval);
    if once != users {
      var k := UserByCustomer(users, customer.value).value;
      var terms := SubscriptionTerms(retrieval.sub);
      var v := Upgrade(users[k], subscription.value, terms.0.value, terms.1.value);
      ReplacePreservesValid(users, k, v);
      assert UserByCustomer(once, customer.value) == Some(k) by {
        assert once[k].stripeCustomerId == Some(customer.value);
      }
      CheckoutCompletedUpgrades(once, customer, subscription, retrieval);
    }
  }

  /** A renewal handled a second time writes the row it wrote the first
      time. */
  lemma InvoicePaidTwice(users: Users, subscription: Option<string>, customer: Option<string>,
                         reason: Option<string>, retrieval: Retrieval)
    requires Valid(users)
    ensures var once := OnInvoicePaid(users, subscription, customer, reason, retrieval).0;
            Valid(once) && OnInvoicePaid(once, subscription, customer, reason, retrieval).0 == once
  {
    var once := OnInvoicePaid(users, subscription, customer, reason, retrieval).0;
    RenewalOnlyForPremium(users, subscription, customer, reason, retrieval);
    if once != users {
      var k := UserByCustomer(users, customer.value).value;
      var v := Renew(users[k], retrieval.sub.currentPeriodEnd.value);
      ReplacePreservesValid(users, k, v);
      assert UserByCustomer(once, customer.value) == Some(k) by {
        assert once[k].stripeCustomerId == Some(customer.value);
      }
      assert once[k].plan == PremiumPlan;
      assert once[k := Renew(once[k], retrieval.sub.currentPeriodEnd.value)] == once;
    }
  }

  /** A completed checkout for a known customer whose subscription reports
      price `p` and period end `t` leaves that row premium with a fresh
      500-summary quota that ends at `t`. */
  lemma CheckoutScenario(users: Users, k: ClerkId, cus: string, sub: string, p: string, t: Time)
    requires Valid(users) && k in users && users[k].stripeCustomerId == Some(cus) && cus != "" && sub != ""
    requires p != "" && t != 0
    ensures var item := SubscriptionItem(Some(PriceRef(Some(p))), None);
            var delivery := Verified(CheckoutCompleted(Some(cus), Some(sub)));
            var after := StripeWebhook(users, true, delivery, Retrieved(Subscription([item], Some(t)))).0;
            && k in after && after[k].plan == PremiumPlan && after[k].summariesUsed == 0
            && after[k].summaryLimit == 500 && after[k].stripeCurrentPeriodEnd == Some(t)
            && after[k].usageResetAt == Some(t) && after[k].stripePriceId == Some(p)
  {
    assert UserByCustomer(users, cus) == Some(k);
  }

  /** The first invoice of a new subscription ("subscription_create") is
      acknowledged and changes nothing. */
  lemma FirstInvoiceIgnored(users: Users, sub: string, cus: string, retrieval: Retrieval)
    requires Valid(users) && sub != "" && cus != ""
    ensures StripeWebhook(users, true, Verified(InvoicePaid(Some(sub), Some(cus), Some("subscription_create"))), retrieval)
            == (users, Received)
  {
  }
}

=== FILE: ext_background.dfy ===
/** The browser extension's background script (extension/background.js):
    recording a summary in the local history and the `summarizeAPI`
    message, which calls the summarization endpoint with the page text and
    classifies its failures. The clock, the active tab and the fetch result
    are inputs. */
module ExtBackground {
  import opened Options
  import opened Text
  import opened Histories

  const MaxHistoryItems: nat := 20

  /** The summary the endpoint returns (`tldr`, `key_points`). */
  datatype SummaryData = SummaryData(tldr: string, keyPoints: seq<string>)

  /** What the active tab says about the page; `{}` when there is none. */
  datatype PageInfo = PageInfo(title: Option<string>, url: Option<string>)

  datatype HistoryEntry = HistoryEntry(
    id: string,
    timestamp: string,
    title: string,
    url: string,
    summary: string,
    keyPoints: seq<string>)

  /** The stored `summaryHistory` value: absent, something other than an
      array, or an array. */
  datatype StoredHistory = Absent | NotAList | Entries(items: seq<HistoryEntry>)

  /** The history the script starts from: anything that is not an array
      counts as empty. */
  function Existing(stored: StoredHistory): (r: seq<HistoryEntry>)
    ensures stored.Entries? ==> r == stored.items
    ensures !stored.Entries? ==> r == []
  {
    if stored.Entries? then stored.items else []
  }

  /** The entry for a summary: id from the clock in milliseconds, title
      and url defaulted when falsy. */
  function NewEntry(data: SummaryData, page: PageInfo, nowMs: nat, isoTime: string): (e: HistoryEntry)
    ensures e.id == "summary_" + NatToString(nowMs) && e.timestamp == isoTime
    ensures Truthy(page.title) ==> e.title == page.title.value
    ensures !Truthy(page.title) ==> e.title == "Untitled Page"
    ensures !Truthy(page.url) ==> e.url == ""
    ensures e.summary == data.tldr && e.keyPoints == data.keyPoints
  {
    HistoryEntry("summary_" + NatToString(nowMs), isoTime, OrElse(page.title, "Untitled Page"),
                 OrElse(page.url, ""), data.tldr, data.keyPoints)
  }

  /** `addToSummaryHistory`: the new entry first, the previous entries
      after it in order, at most twenty. */
  function AddToSummaryHistory(stored: StoredHistory, data: SummaryData, page: PageInfo, nowMs: nat, isoTime: string): (r: seq<HistoryEntry>)
    ensures |r| == if |Existing(stored)| < MaxHistoryItems then |Existing(stored)| + 1 else MaxHistoryItems
    ensures r[0] == NewEntry(data, page, nowMs, isoTime)
    ensures forall i :: 1 <= i < |r| ==> r[i] == Existing(stored)[i - 1]
  {
    PrependCapped(Existing(stored), NewEntry(data, page, nowMs, isoTime), MaxHistoryItems)
  }

  /** A corrupted stored value is replaced, not extended. */
  lemma CorruptHistoryRestarts(data: SummaryData, page: PageInfo, nowMs: nat, isoTime: string)
    ensures AddToSummaryHistory(NotAList, data, page, nowMs, isoTime) == [NewEntry(data, page, nowMs, isoTime)]
    ensures AddToSummaryHistory(Absent, data, page, nowMs, isoTime) == [NewEntry(data, page, nowMs, isoTime)]
  {
  }

  // ---------------------------------------------------------------------
  // summarizeAPI
  // ---------------------------------------------------------------------

  /** The body of a response: a summary, or JSON that failed to parse. */
  datatype Body = Parsed(data: SummaryData) | Unparsable(message: string)

  /** What `fetch` produced: a response with its status, or a rejection. */
  datatype FetchOutcome = Responded(status: nat, body: Body) | NetworkFailure(message: string)

  /** The message sent back to the popup. `isExpiredToken` and
      `isUsageLimit` are false when the reply leaves them out. */
  datatype Reply = Reply(success: bool, summaryData: Option<SummaryData>, error: string,
                         isExpiredToken: bool, isUsageLimit: bool)

  /** One `summarizeAPI` message: whether `fetch` was called, the reply,
      and the history afterwards. */
  datatype ApiStep = ApiStep(fetched: bool, reply: Reply, history: StoredHistory)

  predicate IsOk(status: nat) {
    200 <= status <= 299
  }

  const UsageLimitMessage: string := "You've reached your daily free summary limit. Please upgrade for unlimited use."
  const ExpiredMessage: string := "Authentication failed. Please log in again on tildra.xyz."

  /** The catch block for a non-OK status, which the script first turns
      into the error "API error <status>" and then reads back. */
  function StatusFailure(status: nat): (r: Reply)
    ensures !r.success && r.summaryData.None?
    ensures r.isUsageLimit <==> status == 429
    ensures r.isExpiredToken <==> status == 401 || status == 403
    ensures status !in {401, 403, 429} ==> r.error == (if status == 0 then "API error 0" else "API error (" + NatToString(status) + ")")
  {
    if status == 429 then Reply(false, None, UsageLimitMessage, false, true)
    else if status == 401 || status == 403 then Reply(false, None, ExpiredMessage, true, false)
    else if status == 0 then Reply(false, None, "API error " + NatToString(status), false, false)
    else Reply(false, None, "API error (" + NatToString(status) + ")", false, false)
  }

  /** The catch block for an error that is not a status failure: a rejected
      fetch or a body that is not JSON. A message that starts with
      "API error" is reported as it is; reading a status out of it with
      `/API error (\d+)/` is not modelled, since only the thrown status
      error carries one. */
  function OtherFailure(message: string): (r: Reply)
    ensures !r.success && !r.isUsageLimit && !r.isExpiredToken
    ensures !StartsWith(message, "API error") ==> r.error == "Network or script error: " + message
  {
    if StartsWith(message, "API error") then Reply(false, None, message, false, false)
    else Reply(false, None, "Network or script error: " + message, false, false)
  }

  /** The `summarizeAPI` handler. */
  function SummarizeApi(token: Option<string>, outcome: FetchOutcome, stored: StoredHistory,
                        tab: Option<PageInfo>, nowMs: nat, isoTime: string): (r: ApiStep)
    ensures !Truthy(token) ==>
              r == ApiStep(false, Reply(false, None, "Authentication token missing", false, false), stored)
    ensures Truthy(token) ==> r.fetched
    ensures r.reply.success <==> Truthy(token) && outcome.Responded? && IsOk(outcome.status) && outcome.body.Parsed?
    ensures r.reply.success ==>
              && r.reply.summaryData == Some(outcome.body.data)
              && r.history == Entries(AddToSummaryHistory(stored, outcome.body.data, tab.GetOr(PageInfo(None, None)), nowMs, isoTime))
    ensures !r.reply.success ==> r.history == stored
  {
    if !Truthy(token) then ApiStep(false, Reply(false, None, "Authentication token missing", false, false), stored)
    else match outcome
      case NetworkFailure(message) => ApiStep(true, OtherFailure(message), stored)
      case Responded(status, body) =>
        if !IsOk(status) then ApiStep(true, StatusFailure(status), stored)
        else match body
          case Unparsable(message) => ApiStep(true, OtherFailure(message), stored)
          case Parsed(data) =>
            var page := tab.GetOr(PageInfo(None, None));
            ApiStep(true, Reply(true, Some(data), "", false, false),
                    Entries(AddToSummaryHistory(stored, data, page, nowMs, isoTime)))
  }

  /** The reply never claims both an expired session and an exhausted
      quota, and each flag answers exactly one kind of status. */
  lemma FlagsExclusive(token: Option<string>, outcome: FetchOutcome, stored: StoredHistory,
                       tab: Option<PageInfo>, nowMs: nat, isoTime: string)
    ensures var r := SummarizeApi(token, outcome, stored, tab, nowMs, isoTime).reply;
            && !(r.isExpiredToken && r.isUsageLimit)
            && (r.isUsageLimit <==> Truthy(token) && outcome.Responded? && outcome.status == 429)
            && (r.isExpiredToken <==> Truthy(token) && outcome.Responded? && outcome.status in {401, 403})
  {
  }
}

=== FILE: goals.dfy ===
/** The goal tracker of the analytics dashboard
    (web/components/analytics/goal-tracker.tsx): a goal's progress in
    percent, its status band, the metric that feeds each goal type, how
    goal values are shown, and the split into active and completed goals.
    Goal values are integers: the form parses them with `parseInt` and the
    metrics arrive rounded. */
module Goals {
  import opened Text

  datatype GoalType = DailySummaries | WeeklyTimeSaved | MonthlySummaries | ReadingEfficiency | OtherType

  datatype Goal = Goal(id: string, goalType: GoalType, target: int, current: int, isActive: bool)

  /** The dashboard metrics a goal can track. */
  datatype Metrics = Metrics(totalSummaries: nat, weeklyTimeSaved: int, averageReadingTimeReduction: int)

  // ---------------------------------------------------------------------
  // Progress and status
  // ---------------------------------------------------------------------

  /** `getGoalProgress`: `Math.round(min(current / target * 100, 100))`,
      and 0 for a target that is not positive. */
  function Progress(current: int, target: int): (p: int)
    ensures target <= 0 ==> p == 0
    ensures p <= 100
    ensures target > 0 && current >= target ==> p == 100
    ensures target > 0 && current < target ==> 2 * p * target - target <= 200 * current < 2 * p * target + target
  {
    if target <= 0 then 0
    else if 100 * current >= 100 * target then 100
    else
      RoundedBounds(current, target);
      (200 * current + target) / (2 * target)
  }

  /** The quotient `Progress` rounds to lies within half a step of the
      exact percentage, and below 100 when `current < target`. */
  lemma RoundedBounds(current: int, target: int)
    requires 0 < target && current < target
    ensures var q := (200 * current + target) / (2 * target);
            2 * q * target - target <= 200 * current < 2 * q * target + target && q <= 100
  {
    var d := 2 * target;
    var a := 200 * current + target;
    var q := a / d;
    assert d * q <= a < d * q + d;
    assert d * q == 2 * q * target;
    ProductNonneg(q - 101, d);
  }

  /** More done never means less progress. */
  lemma ProgressMonotone(c1: int, c2: int, target: int)
    requires c1 <= c2
    ensures Progress(c1, target) <= Progress(c2, target)
  {
    if target > 0 && c2 < target {
      var p1 := Progress(c1, target);
      var p2 := Progress(c2, target);
      assert 2 * p1 * target - target < 2 * p2 * target + target;
      assert (p1 - p2) * (2 * target) == 2 * p1 * target - 2 * p2 * target;
      BelowOneFactor(p1 - p2, 2 * target);
    }
  }

  /** A product with a non-negative factor `b` is non-negative when `a` is. */
  lemma ProductNonneg(a: int, b: int)
    requires b >= 0
    ensures a >= 0 ==> a * b >= 0
  {
  }

  /** `k * t < t` with `t > 0` forces `k < 1`. */
  lemma BelowOneFactor(k: int, t: int)
    requires t > 0 && k * t < t
    ensures k < 1
  {
    ProductNonneg(k - 1, t);
  }

  datatype Status = Completed | OnTrack | Behind | NeedsAttention

  /** `getGoalStatus`: the band of the progress. */
  function StatusOf(progress: int): (s: Status)
    ensures s == Completed <==> progress >= 100
    ensures s == OnTrack <==> 80 <= progress < 100
    ensures s == Behind <==> 50 <= progress < 80
    ensures s == NeedsAttention <==> progress < 50
  {
    if progress >= 100 then Completed
    else if progress >= 80 then OnTrack
    else if progress >= 50 then Behind
    else NeedsAttention
  }

  /** Because progress is rounded, a goal counts as completed from 99.5%
      of its target on. */
  lemma CompletedFromNinetyNineAndAHalf(current: int, target: int)
    requires target > 0
    ensures StatusOf(Progress(current, target)) == Completed <==> 200 * current >= 199 * target
  {
    var p := Progress(current, target);
    if current < target && p < 100 {
      ProductNonneg(99 - p, target);
    }
  }

  // ---------------------------------------------------------------------
  // Current values and formatting
  // ---------------------------------------------------------------------

  /** `getCurrentValue`: the metric behind each goal type. */
  function CurrentValue(t: GoalType, m: Metrics): (v: int)
    ensures t == DailySummaries ==> 30 * v <= m.totalSummaries < 30 * v + 30
    ensures t == WeeklyTimeSaved ==> v == m.weeklyTimeSaved
    ensures t == MonthlySummaries ==> v == m.totalSummaries
    ensures t == ReadingEfficiency ==> v == m.averageReadingTimeReduction
    ensures t == OtherType ==> v == 0
  {
    match t
    case DailySummaries => m.totalSummaries / 30
    case WeeklyTimeSaved => m.weeklyTimeSaved
    case MonthlySummaries => m.totalSummaries
    case ReadingEfficiency => m.averageReadingTimeReduction
    case OtherType => 0
  }

  function Unit(t: GoalType): string {
    match t
    case DailySummaries => "summaries"
    case WeeklyTimeSaved => "minutes"
    case MonthlySummaries => "summaries"
    case ReadingEfficiency => "%"
    case OtherType => ""
  }

  /** The hours and minutes a weekly-time value is shown as. */
  datatype Duration = Duration(hours: int, minutes: int)

  /** `Math.floor(value / 60)` and `value % 60`, where JavaScript's `%`
      gives the remainder the sign of the dividend. */
  function Split60(value: int): (d: Duration)
    ensures value >= 0 ==> d.hours * 60 + d.minutes == value && 0 <= d.minutes < 60 && d.hours >= 0
    ensures value < 0 ==> d.hours < 0 && -60 < d.minutes <= 0
  {
    Duration(value / 60, if value >= 0 then value % 60 else -((-value) % 60))
  }

  /** `formatGoalValue`: minutes as "Hh Mm" (or "Mm" under an hour) for
      weekly time saved, otherwise the number followed by its unit. */
  function FormatGoalValue(value: int, t: GoalType): (r: string)
    ensures t == WeeklyTimeSaved && Split60(value).hours > 0 ==>
              r == IntToString(Split60(value).hours) + "h " + IntToString(Split60(value).minutes) + "m"
    ensures t == WeeklyTimeSaved && Split60(value).hours <= 0 ==> r == IntToString(Split60(value).minutes) + "m"
    ensures t != WeeklyTimeSaved ==> r == IntToString(value) + Unit(t)
  {
    if t == WeeklyTimeSaved then
      var d := Split60(value);
      if d.hours > 0 then IntToString(d.hours) + "h " + IntToString(d.minutes) + "m"
      else IntToString(d.minutes) + "m"
    else IntToString(value) + Unit(t)
  }

  /** Under an hour the weekly value is just its minutes. */
  lemma UnderAnHour(value: int)
    requires 0 <= value < 60
    ensures FormatGoalValue(value, WeeklyTimeSaved) == NatToString(value) + "m"
  {
  }

  // ---------------------------------------------------------------------
  // Active and completed goals
  // ---------------------------------------------------------------------

  function Filter(goals: seq<Goal>, p: Goal -> bool): (r: seq<Goal>)
    ensures |r| <= |goals|
    ensures forall g :: g in r <==> g in goals && p(g)
  {
    if goals == [] then [] else (if p(goals[0]) then [goals[0]] else []) + Filter(goals[1..], p)
  }

  /** Filtering works piecewise, so it keeps the goals in their order. */
  lemma {:induction false} FilterConcat(a: seq<Goal>, b: seq<Goal>, p: Goal -> bool)
    ensures Filter(a + b, p) == Filter(a, p) + Filter(b, p)
  {
    if a == [] {
      assert a + b == b;
    } else {
      assert (a + b)[1..] == a[1..] + b;
      FilterConcat(a[1..], b, p);
    }
  }

  predicate IsCompleted(g: Goal) {
    !g.isActive && Progress(g.current, g.target) >= 100
  }

  function ActiveGoals(goals: seq<Goal>): (r: seq<Goal>)
    ensures forall g :: g in r <==> g in goals && g.isActive
  {
    Filter(goals, (g: Goal) => g.isActive)
  }

  function CompletedGoals(goals: seq<Goal>): (r: seq<Goal>)
    ensures forall g :: g in r <==> g in goals && IsCompleted(g)
  {
    Filter(goals, IsCompleted)
  }

  /** No goal is listed both as active and as completed, and an inactive
      goal that has not reached its target is in neither list. */
  lemma ActiveCompletedDisjoint(goals: seq<Goal>, g: Goal)
    ensures !(g in ActiveGoals(goals) && g in CompletedGoals(goals))
    ensures g in goals && !g.isActive && g.target > 0 && 200 * g.current < 199 * g.target ==>
              g !in ActiveGoals(goals) && g !in CompletedGoals(goals)
  {
    if g.target > 0 {
      CompletedFromNinetyNineAndAHalf(g.current, g.target);
    }
  }
}

=== FILE: histories.dfy ===
/** The newest-first, bounded summary history the extension scripts keep
    in local storage: a new entry goes in front and the list is cut to a
    fixed length. */
module Histories {
  import opened Text

  /** `[x, ...xs].slice(0, cap)` / `xs.unshift(x)` followed by truncation. */
  function PrependCapped<T>(xs: seq<T>, x: T, cap: nat): (r: seq<T>)
    requires cap >= 1
    ensures |r| == if |xs| + 1 <= cap then |xs| + 1 else cap
    ensures r[0] == x
    ensures forall i :: 1 <= i < |r| ==> r[i] == xs[i - 1]
  {
    var all := [x] + xs;
    if |all| <= cap then all else all[..cap]
  }

  /** The history after adding `items` one by one, oldest first. */
  function AddAll<T>(xs: seq<T>, items: seq<T>, cap: nat): (r: seq<T>)
    requires cap >= 1
    decreases |items|
  {
    if items == [] then xs else AddAll(PrependCapped(xs, items[0], cap), items[1..], cap)
  }

  function Rev<T>(xs: seq<T>): (r: seq<T>)
    ensures |r| == |xs|
    ensures forall i :: 0 <= i < |xs| ==> r[i] == xs[|xs| - 1 - i]
  {
    if xs == [] then [] else Rev(xs[1..]) + [xs[0]]
  }

  /** Cutting the list after every insertion loses nothing that a single
      cut at the end would keep: the stored history is always the newest
      `cap` entries, newest first, of everything ever added. */
  lemma {:induction false} AddAllKeepsNewest<T>(xs: seq<T>, items: seq<T>, cap: nat)
    requires cap >= 1 && |xs| <= cap
    ensures AddAll(xs, items, cap) == Take(Rev(items) + xs, cap)
    decreases |items|
  {
    if items != [] {
      var ys := PrependCapped(xs, items[0], cap);
      AddAllKeepsNewest(ys, items[1..], cap);
      var a := Rev(items[1..]) + ys;
      var b := Rev(items) + xs;
      assert Rev(items) == Rev(items[1..]) + [items[0]];
      var n := if |b| <= cap then |b| else cap;
      assert |Take(a, cap)| == n;
      forall i | 0 <= i < n
        ensures Take(a, cap)[i] == Take(b, cap)[i]
      {
        var k := |Rev(items[1..])|;
        if i < k {
          assert a[i] == b[i];
        } else if i == k {
          assert a[i] == ys[0] == items[0] == b[i];
        } else {
          assert a[i] == ys[i - k] == xs[i - k - 1] == b[i];
        }
      }
    }
  }
}

=== FILE: insights.dfy ===
/** The personalized-insights card of the analytics dashboard
    (web/components/analytics/personalized-insights.tsx): the insights
    generated from the week's metrics, the time format they use, and the
    automatic rotation through the insights shown. Timers and rendering
    are left out; a tick of the 8-second interval is one step. */
module Insights {
  import opened Options
  import opened Text
  import Goals

  datatype InsightType = TimeSaved | ProductivityTrend | GoalProgress | EfficiencyTip | Milestone
  datatype Trend = Up | Down | Stable
  datatype Priority = High | Medium | Low

  datatype Insight = Insight(kind: InsightType, title: string, value: int, trend: Option<Trend>, priority: Priority)

  /** The metrics the card reads. */
  datatype Metrics = Metrics(weeklyTimeSaved: int, totalSummaries: nat, streakDays: nat, productivityScore: int)

  /** `formatTime`: the same hours-and-minutes text as a weekly goal. */
  function FormatTime(minutes: int): (r: string)
    ensures minutes >= 60 ==> r == NatToString(minutes / 60) + "h " + NatToString(minutes % 60) + "m"
    ensures 0 <= minutes < 60 ==> r == NatToString(minutes) + "m"
  {
    var d := Goals.Split60(minutes);
    if d.hours > 0 then IntToString(d.hours) + "h " + IntToString(d.minutes) + "m"
    else IntToString(d.minutes) + "m"
  }

  /** The card and the goal tracker show minutes alike. */
  lemma FormatTimeMatchesGoals(minutes: int)
    ensures FormatTime(minutes) == Goals.FormatGoalValue(minutes, Goals.WeeklyTimeSaved)
  {
  }

  function TimeTrend(weeklyTime: int): Trend {
    if weeklyTime > 120 then Up else if weeklyTime > 60 then Stable else Down
  }

  /** The insight every week starts with. */
  function TimeSavedInsight(weeklyTime: int): (r: Insight)
    ensures r.kind == TimeSaved && r.value == weeklyTime
    ensures r.trend == Some(Up) <==> weeklyTime > 120
    ensures r.trend == Some(Stable) <==> 60 < weeklyTime <= 120
    ensures r.trend == Some(Down) <==> weeklyTime <= 60
    ensures r.priority == (if weeklyTime > 120 then Low else Medium)
  {
    Insight(TimeSaved, "You've saved " + FormatTime(weeklyTime) + " this week!", weeklyTime,
            Some(TimeTrend(weeklyTime)),
            if weeklyTime > 120 then Low else Medium)
  }

  function StreakInsight(streak: nat): Insight {
    Insight(Milestone, "\U{1F525} " + NatToString(streak) + "-day streak! You're on fire!", streak, None, High)
  }

  function ScoreInsights(score: int): seq<Insight> {
    if score >= 80 then [Insight(ProductivityTrend, "Outstanding productivity level!", score, Some(Up), Low)]
    else if score < 40 then [Insight(EfficiencyTip, "Let's boost your productivity!", score, Some(Down), High)]
    else []
  }

  function LibraryInsight(total: nat): Insight {
    Insight(Milestone, NatToString(total) + " summaries milestone reached!", total, None, Medium)
  }

  predicate HasKind(r: seq<Insight>, kind: InsightType, priority: Priority) {
    exists i :: 0 <= i < |r| && r[i].kind == kind && r[i].priority == priority
  }

  /** `generateWeeklyInsights`: the time-saved insight, then a streak
      milestone, a score insight and a library milestone when earned. */
  function WeeklyInsights(m: Metrics): (r: seq<Insight>)
    ensures 1 <= |r| <= 4
    ensures r[0] == TimeSavedInsight(m.weeklyTimeSaved)
    ensures |r| == 1 + (if m.streakDays >= 7 then 1 else 0)
                     + (if m.productivityScore >= 80 || m.productivityScore < 40 then 1 else 0)
                     + (if m.totalSummaries >= 50 then 1 else 0)
  {
    [TimeSavedInsight(m.weeklyTimeSaved)] + StreakPart(m.streakDays) + ScoreInsights(m.productivityScore)
      + LibraryPart(m.totalSummaries)
  }

  function StreakPart(streak: nat): seq<Insight> {
    if streak >= 7 then [StreakInsight(streak)] else []
  }

  function LibraryPart(total: nat): seq<Insight> {
    if total >= 50 then [LibraryInsight(total)] else []
  }

  lemma HasKindConcat(a: seq<Insight>, b: seq<Insight>, kind: InsightType, priority: Priority)
    ensures HasKind(a + b, kind, priority) <==> HasKind(a, kind, priority) || HasKind(b, kind, priority)
  {
    if HasKind(a + b, kind, priority) {
      var i :| 0 <= i < |a + b| && (a + b)[i].kind == kind && (a + b)[i].priority == priority;
      if i >= |a| {
        assert b[i - |a|] == (a + b)[i];
      }
    }
    if HasKind(b, kind, priority) {
      var i :| 0 <= i < |b| && b[i].kind == kind && b[i].priority == priority;
      assert (a + b)[|a| + i] == b[i];
    }
    if HasKind(a, kind, priority) {
      var i :| 0 <= i < |a| && a[i].kind == kind && a[i].priority == priority;
      assert (a + b)[i] == a[i];
    }
  }

  lemma HasKindOne(x: Insight, kind: InsightType, priority: Priority)
    ensures HasKind([x], kind, priority) <==> x.kind == kind && x.priority == priority
  {
    if x.kind == kind && x.priority == priority {
      assert [x][0] == x;
    }
  }

  /** Past the first, an insight of a kind other than time saved comes
      from one of the three optional parts. */
  lemma OptionalParts(m: Metrics, kind: InsightType, priority: Priority)
    requires kind != TimeSaved
    ensures HasKind(WeeklyInsights(m), kind, priority) <==>
              HasKind(StreakPart(m.streakDays), kind, priority)
              || HasKind(ScoreInsights(m.productivityScore), kind, priority)
              || HasKind(LibraryPart(m.totalSummaries), kind, priority)
  {
    var a := [TimeSavedInsight(m.weeklyTimeSaved)];
    var b := StreakPart(m.streakDays);
    var c := ScoreInsights(m.productivityScore);
    var d := LibraryPart(m.totalSummaries);
    HasKindConcat(a + b + c, d, kind, priority);
    HasKindConcat(a + b, c, kind, priority);
    HasKindConcat(a, b, kind, priority);
    HasKindOne(a[0], kind, priority);
  }

  /** Each optional insight appears exactly when its condition holds. */
  lemma WeeklyInsightsWhen(m: Metrics)
    ensures HasKind(WeeklyInsights(m), Milestone, High) <==> m.streakDays >= 7
    ensures HasKind(WeeklyInsights(m), Milestone, Medium) <==> m.totalSummaries >= 50
    ensures HasKind(WeeklyInsights(m), ProductivityTrend, Low) <==> m.productivityScore >= 80
    ensures HasKind(WeeklyInsights(m), EfficiencyTip, High) <==> m.productivityScore < 40
  {
    StreakWhen(m);
    LibraryWhen(m);
    ScoreWhen(m);
  }

  lemma StreakWhen(m: Metrics)
    ensures HasKind(WeeklyInsights(m), Milestone, High) <==> m.streakDays >= 7
  {
    OptionalParts(m, Milestone, High);
    if m.streakDays >= 7 {
      HasKindOne(StreakInsight(m.streakDays), Milestone, High);
    }
    if m.totalSummaries >= 50 {
      HasKindOne(LibraryInsight(m.totalSummaries), Milestone, High);
    }
    ScoreParts(m.productivityScore, Milestone, High);
  }

  lemma LibraryWhen(m: Metrics)
    ensures HasKind(WeeklyInsights(m), Milestone, Medium) <==> m.totalSummaries >= 50
  {
    OptionalParts(m, Milestone, Medium);
    if m.streakDays >= 7 {
      HasKindOne(StreakInsight(m.streakDays), Milestone, Medium);
    }
    if m.totalSummaries >= 50 {
      HasKindOne(LibraryInsight(m.totalSummaries), Milestone, Medium);
    }
    ScoreParts(m.productivityScore, Milestone, Medium);
  }

  lemma ScoreWhen(m: Metrics)
    ensures HasKind(WeeklyInsights(m), ProductivityTrend, Low) <==> m.productivityScore >= 80
    ensures HasKind(WeeklyInsights(m), EfficiencyTip, High) <==> m.productivityScore < 40
  {
    OptionalParts(m, ProductivityTrend, Low);
    OptionalParts(m, EfficiencyTip, High);
    if m.streakDays >= 7 {
      HasKindOne(StreakInsight(m.streakDays), ProductivityTrend, Low);
      HasKindOne(StreakInsight(m.streakDays), EfficiencyTip, High);
    }
    if m.totalSummaries >= 50 {
      HasKindOne(LibraryInsight(m.totalSummaries), ProductivityTrend, Low);
      HasKindOne(LibraryInsight(m.totalSummaries), EfficiencyTip, High);
    }
    ScoreParts(m.productivityScore, ProductivityTrend, Low);
    ScoreParts(m.productivityScore, EfficiencyTip, High);
  }

  /** What kinds the score part can hold. */
  lemma ScoreParts(score: int, kind: InsightType, priority: Priority)
    ensures HasKind(ScoreInsights(score), kind, priority) <==>
              (score >= 80 && kind == ProductivityTrend && priority == Low)
              || (score < 40 && kind == EfficiencyTip && priority == High)
  {
    var c := ScoreInsights(score);
    if c != [] {
      HasKindOne(c[0], kind, priority);
    }
  }

  // ---------------------------------------------------------------------
  // Rotation
  // ---------------------------------------------------------------------

  /** The insights shown: the ones supplied, then the generated ones. */
  function AllInsights(supplied: seq<Insight>, m: Metrics): (r: seq<Insight>)
    ensures |r| == |supplied| + |WeeklyInsights(m)| && |r| >= 1
  {
    supplied + WeeklyInsights(m)
  }

  /** `allInsights[currentInsightIndex] || allInsights[0]`. */
  function Current(all: seq<Insight>, index: nat): (r: Insight)
    requires all != []
    ensures index < |all| ==> r == all[index]
    ensures index >= |all| ==> r == all[0]
  {
    if index < |all| then all[index] else all[0]
  }

  /** One tick of the interval as written: it steps modulo the number of
      SUPPLIED insights and runs only when there are two or more. */
  function TickAsWritten(index: nat, supplied: nat, autoRotating: bool): (r: nat)
    ensures !autoRotating || supplied <= 1 ==> r == index
    ensures autoRotating && supplied > 1 ==> r < supplied
  {
    if !autoRotating || supplied <= 1 then index else (index + 1) % supplied
  }

  /** One tick as intended: modulo the number of insights shown. */
  function Tick(index: nat, shown: nat, autoRotating: bool): (r: nat)
    ensures !autoRotating || shown <= 1 ==> r == index
    ensures autoRotating && shown > 1 ==> r < shown && r == (index + 1) % shown
    ensures autoRotating && shown > 1 && index + 1 < shown ==> r == index + 1
    ensures autoRotating && shown > 1 && index + 1 == shown ==> r == 0
  {
    if !autoRotating || shown <= 1 then index else (index + 1) % shown
  }

  function TicksAsWritten(index: nat, supplied: nat, k: nat): (r: nat)
    decreases k
  {
    if k == 0 then index else TicksAsWritten(TickAsWritten(index, supplied, true), supplied, k - 1)
  }

  function Ticks(index: nat, shown: nat, k: nat): (r: nat)
    decreases k
  {
    if k == 0 then index else Ticks(Tick(index, shown, true), shown, k - 1)
  }

  /** As written, rotation from the first insight never reaches a generated
      one: the index stays below the number supplied, or stays at 0 when
      fewer than two are supplied. */
  lemma {:induction false} RotationMissesGenerated(supplied: seq<Insight>, m: Metrics, start: nat, k: nat)
    requires start == 0 || start < |supplied|
    ensures var i := TicksAsWritten(start, |supplied|, k);
            (|supplied| <= 1 ==> i == start) && (|supplied| > 1 ==> i < |supplied|)
    ensures var i := TicksAsWritten(start, |supplied|, k);
            i < |AllInsights(supplied, m)| && (i == 0 || i < |supplied|)
    decreases k
  {
    if k > 0 {
      RotationMissesGenerated(supplied, m, TickAsWritten(start, |supplied|, true), k - 1);
    }
  }

  /** With no insights supplied, the generated ones never rotate, however
      many there are. */
  lemma NoSuppliedNoRotation(m: Metrics, k: nat)
    requires m.streakDays >= 7
    ensures |AllInsights([], m)| >= 2
    ensures TicksAsWritten(0, 0, k) == 0
  {
    RotationMissesGenerated([], m, 0, k);
  }

  /** As intended, `k` ticks from the first insight show insight `k`,
      and the rotation is back at the first after one tick per insight. */
  lemma {:induction false} RotationVisitsAll(shown: nat, k: nat)
    requires shown > 1 && k <= shown
    ensures k < shown ==> Ticks(0, shown, k) == k
    ensures k == shown ==> Ticks(0, shown, k) == 0
    decreases k
  {
    if k > 0 {
      TicksShift(0, shown, k);
      RotationVisitsAll(shown, k - 1);
      assert Ticks(0, shown, k - 1) == k - 1;
    }
  }

  /** The last tick can be taken last instead of first. */
  lemma {:induction false} TicksShift(index: nat, shown: nat, k: nat)
    requires shown > 1 && k > 0
    ensures Ticks(index, shown, k) == Tick(Ticks(index, shown, k - 1), shown, true)
    decreases k
  {
    if k > 1 {
      TicksShift(Tick(index, shown, true), shown, k - 1);
    }
  }

  /** Every insight is reached: insight `j` is on show after `j` ticks. */
  lemma EveryInsightShown(supplied: seq<Insight>, m: Metrics, j: nat)
    requires j < |AllInsights(supplied, m)| && |AllInsights(supplied, m)| > 1
    ensures Current(AllInsights(supplied, m), Ticks(0, |AllInsights(supplied, m)|, j)) == AllInsights(supplied, m)[j]
  {
    RotationVisitsAll(|AllInsights(supplied, m)|, j);
  }
}

=== FILE: jobs.dfy ===
/** Job-page detection (api/services/job_detection.py): choosing a
    platform detector from the URL's host, the per-platform URL checks and
    placeholders, the keyword-threshold universal detector, and the
    extraction of skills, requirements, responsibilities and ATS keywords.
    HTML parsing and regular-expression matching are inputs: a `Page` holds
    the text of each element a selector finds, and an `Extraction` holds
    what the pattern searches return for the posting's description. */
module Jobs {
  import opened Options
  import opened Text

  /** The posting fields the detectors set; the optional metadata fields
      that no detector fills (salary, employment type, …) are omitted. */
  datatype JobPosting = JobPosting(
    title: string,
    company: string,
    location: Option<string>,
    description: string,
    requirements: seq<string>,
    responsibilities: seq<string>,
    skills: seq<string>,
    benefits: seq<string>,
    url: string,
    sourcePlatform: string,
    rawData: map<string, string>)

  /** A posting built with only the named fields; the list fields and
      `raw_data` start empty (`__post_init__`). */
  function NewPosting(title: string, company: string, url: string, platform: string): (j: JobPosting)
    ensures j.title == title && j.company == company && j.url == url && j.sourcePlatform == platform
    ensures j.requirements == [] && j.responsibilities == [] && j.skills == [] && j.benefits == []
    ensures j.rawData == map[] && j.description == "" && j.location == None
  {
    JobPosting(title, company, None, "", [], [], [], [], url, platform, map[])
  }

  // ---------------------------------------------------------------------
  // Host extraction and dispatch
  // ---------------------------------------------------------------------

  predicate IsSchemeChar(c: char) {
    ('a' <= c <= 'z') || ('A' <= c <= 'Z') || ('0' <= c <= '9') || c == '+' || c == '-' || c == '.'
  }

  predicate IsAsciiLetter(c: char) {
    ('a' <= c <= 'z') || ('A' <= c <= 'Z')
  }

  /** Index of the first occurrence of `c`, or `|s|`. */
  function IndexOf(s: string, c: char): (r: nat)
    ensures r <= |s|
    ensures r < |s| ==> s[r] == c
    ensures forall i :: 0 <= i < r ==> s[i] != c
  {
    if s == [] then 0 else if s[0] == c then 0 else 1 + IndexOf(s[1..], c)
  }

  /** The longest prefix free of the characters in `stops`. */
  function TakeUntil(s: string, stops: set<char>): (r: string)
    ensures |r| <= |s| && r == s[..|r|]
    ensures forall i :: 0 <= i < |r| ==> r[i] !in stops
    ensures |r| < |s| ==> s[|r|] in stops
  {
    if s == [] || s[0] in stops then [] else [s[0]] + TakeUntil(s[1..], stops)
  }

  /** `urlsplit(url).netloc`: after a scheme (a letter followed by scheme
      characters up to the first ':'), a leading "//" introduces the
      network location, which ends at the first '/', '?' or '#'. */
  function Netloc(url: string): (r: string)
    ensures '/' !in r && '?' !in r && '#' !in r
  {
    var i := IndexOf(url, ':');
    var rest := if 0 < i < |url| && IsAsciiLetter(url[0]) && (forall k :: 0 <= k < i ==> IsSchemeChar(url[k]))
                then url[i + 1..] else url;
    if StartsWith(rest, "//") then
      var n := TakeUntil(rest[2..], {'/', '?', '#'});
      assert forall k :: 0 <= k < |n| ==> n[k] != '/';
      n
    else ""
  }

  datatype Platform = LinkedIn | Indeed | Glassdoor | Greenhouse | Lever | Ashby | Angel | StackOverflow | GoogleJobs

  /** The detector table, in declaration order. */
  const PlatformKeys: seq<(string, Platform)> := [
    ("linkedin.com", LinkedIn), ("indeed.com", Indeed), ("glassdoor.com", Glassdoor),
    ("boards.greenhouse.io", Greenhouse), ("jobs.lever.co", Lever), ("jobs.ashbyhq.com", Ashby),
    ("angel.co", Angel), ("stackoverflow.com/jobs", StackOverflow), ("jobs.google.com", GoogleJobs)]

  /** The first table entry whose key occurs in the lowercased host;
      `None` sends the page to the universal detector. */
  function ChoosePlatform(table: seq<(string, Platform)>, url: string): (r: Option<Platform>)
    ensures r.Some? <==> exists i :: 0 <= i < |table| && Contains(Lower(Netloc(url)), table[i].0)
    ensures r.Some? ==> exists i :: 0 <= i < |table| && Contains(Lower(Netloc(url)), table[i].0) && table[i].1 == r.value
                                    && forall j :: 0 <= j < i ==> !Contains(Lower(Netloc(url)), table[j].0)
  {
    var host := Lower(Netloc(url));
    var i := FirstWhere(table, (e: (string, Platform)) => Contains(host, e.0));
    if i.Some? then Some(table[i.value].1) else None
  }

  /** A key holding a character the host lacks cannot occur in it. */
  lemma AbsentCharNoMatch(host: string, key: string, k: nat)
    requires k < |key| && key[k] !in host
    ensures !Contains(host, key)
  {
    forall i | 0 <= i <= |host| - |key|
      ensures !OccursAt(host, key, i)
    {
      assert host[i + k] in host;
      assert host[i..i + |key|][k] == host[i + k];
    }
  }

  /** A key with a '/' can never occur in a host. */
  lemma SlashKeyNeverMatches(url: string, key: string)
    requires '/' in key
    ensures !Contains(Lower(Netloc(url)), key)
  {
    var host := Lower(Netloc(url));
    var k :| 0 <= k < |key| && key[k] == '/';
    assert '/' !in host;
    AbsentCharNoMatch(host, key, k);
  }

  /** As declared, the Stack Overflow detector is unreachable: its key
      contains a path and the dispatch only looks at the host. */
  lemma StackOverflowUnreachable(url: string)
    ensures ChoosePlatform(PlatformKeys, url) != Some(StackOverflow)
  {
    SlashKeyNeverMatches(url, "stackoverflow.com/jobs");
    assert forall i :: 0 <= i < |PlatformKeys| && PlatformKeys[i].1 == StackOverflow ==> i == 7;
  }

  /** The table with the Stack Overflow key reduced to its host, which the
      detector's own check on the full URL evidently relies on. */
  const FixedPlatformKeys: seq<(string, Platform)> := PlatformKeys[7 := ("stackoverflow.com", StackOverflow)]

  /** The dispatch picks the entry at `i` when its key is the first to
      occur in the host. */
  lemma ChooseFirstMatch(table: seq<(string, Platform)>, url: string, i: nat)
    requires i < |table| && Contains(Lower(Netloc(url)), table[i].0)
    requires forall j :: 0 <= j < i ==> !Contains(Lower(Netloc(url)), table[j].0)
    ensures ChoosePlatform(table, url) == Some(table[i].1)
  {
    var r := ChoosePlatform(table, url);
    var k :| 0 <= k < |table| && Contains(Lower(Netloc(url)), table[k].0) && table[k].1 == r.value
             && forall j :: 0 <= j < k ==> !Contains(Lower(Netloc(url)), table[j].0);
    assert k == i;
  }

  /** With the corrected key, a host on stackoverflow.com that no earlier
      key claims reaches the Stack Overflow detector, which the declared
      table never does (`StackOverflowUnreachable`). */
  lemma FixedStackOverflowReachable(url: string)
    requires Contains(Lower(Netloc(url)), "stackoverflow.com")
    requires forall j :: 0 <= j < 7 ==> !Contains(Lower(Netloc(url)), PlatformKeys[j].0)
    ensures ChoosePlatform(FixedPlatformKeys, url) == Some(StackOverflow)
  {
    assert forall j :: 0 <= j < 7 ==> FixedPlatformKeys[j] == PlatformKeys[j];
    ChooseFirstMatch(FixedPlatformKeys, url, 7);
  }

  // ---------------------------------------------------------------------
  // Pages and extraction inputs
  // ---------------------------------------------------------------------

  /** A parsed page: its whole text, and for each selector the page
      matches, the stripped text of the first element it finds. */
  datatype Page = Page(text: string, elements: map<string, string>)

  /** What the pattern searches return on the posting's description: every
      skill-pattern match, and the captured requirements and
      responsibilities sections when those searches match. */
  datatype Extraction = Extraction(skillMatches: seq<string>, requirementsSection: Option<string>,
                                   responsibilitiesSection: Option<string>)

  /** The text of the first selector that the page matches, or `default`. */
  function FirstFound(page: Page, selectors: seq<string>, default: string): (r: string)
    ensures (forall s :: s in selectors ==> s !in page.elements) ==> r == default
    ensures r == default || exists s :: s in selectors && s in page.elements && page.elements[s] == r
  {
    if selectors == [] then default
    else if selectors[0] in page.elements then page.elements[selectors[0]]
    else FirstFound(page, selectors[1..], default)
  }

  /** The text of the first selector that the page matches with a length
      strictly between `lo` and `hi`; matched elements of other lengths are
      skipped. */
  function FirstFitting(page: Page, selectors: seq<string>, lo: int, hi: int, default: string): (r: string)
    ensures r == default || (lo < |r| < hi && exists s :: s in selectors && s in page.elements && page.elements[s] == r)
    ensures (forall i :: 0 <= i < |selectors| ==> !Fits(page, selectors[i], lo, hi)) ==> r == default
    ensures forall i :: 0 <= i < |selectors| && Fits(page, selectors[i], lo, hi)
                        && (forall j :: 0 <= j < i ==> !Fits(page, selectors[j], lo, hi)) ==>
              r == page.elements[selectors[i]]
  {
    if selectors == [] then default
    else
      var s := selectors[0];
      if Fits(page, s, lo, hi) then page.elements[s]
      else
        var r := FirstFitting(page, selectors[1..], lo, hi, default);
        assert forall i :: 1 <= i < |selectors| ==> selectors[i] == selectors[1..][i - 1];
        r
  }

  /** The page matches selector `s` with a text strictly between `lo` and
      `hi` characters long. */
  predicate Fits(page: Page, s: string, lo: int, hi: int) {
    s in page.elements && lo < |page.elements[s]| < hi
  }

  const TitleSelectors: seq<string> := ["h1", ".job-title", ".position-title", ".role-title", "title"]
  const CompanySelectors: seq<string> := [".company-name", ".employer", ".organization", ".company"]

  function UniversalTitle(page: Page): (r: string)
    ensures r == "Unknown Position" || 5 < |r| < 100
  {
    FirstFitting(page, TitleSelectors, 5, 100, "Unknown Position")
  }

  function UniversalCompany(page: Page): (r: string)
    ensures r == "Unknown Company" || 2 < |r| < 50
  {
    FirstFitting(page, CompanySelectors, 2, 50, "Unknown Company")
  }

  /** The characters requirement and responsibility sections are split at. */
  const ItemSeparators: set<char> := {'•', '-', '*', '\n'}

  /** Every piece, stripped. */
  function TrimAll(pieces: seq<string>): (r: seq<string>)
    ensures |r| == |pieces| && forall i :: 0 <= i < |pieces| ==> r[i] == Trim(pieces[i])
  {
    seq(|pieces|, i requires 0 <= i < |pieces| => Trim(pieces[i]))
  }

  /** The stripped pieces longer than ten characters, in order. */
  function LongOnes(ts: seq<string>): (r: seq<string>)
    ensures forall x :: x in r ==> |x| > 10 && x in ts
  {
    if ts == [] then []
    else (if |ts[0]| > 10 then [ts[0]] else []) + LongOnes(ts[1..])
  }

  /** Nothing long is dropped. */
  lemma {:induction false} LongOnesKeepsLong(ts: seq<string>)
    ensures forall i :: 0 <= i < |ts| && |ts[i]| > 10 ==> ts[i] in LongOnes(ts)
  {
    if ts != [] {
      LongOnesKeepsLong(ts[1..]);
      forall i | 1 <= i < |ts| && |ts[i]| > 10
        ensures ts[i] in LongOnes(ts)
      {
        assert ts[i] == ts[1..][i - 1];
      }
    }
  }

  /** A requirement or responsibility section split at the item
      separators: the stripped pieces longer than ten characters. */
  function Items(section: string): (r: seq<string>)
    ensures forall x :: x in r ==> |x| > 10 && Trim(x) == x
  {
    var pieces := SplitAny(section, ItemSeparators);
    var ts := TrimAll(pieces);
    forall i | 0 <= i < |ts|
      ensures Trim(ts[i]) == ts[i]
    {
      TrimIdempotent(pieces[i]);
    }
    LongOnes(ts)
  }

  /** Every item is a stripped piece of the section, and every stripped
      piece longer than ten characters is an item. */
  lemma ItemsExact(section: string)
    ensures forall x :: x in Items(section) ==> x in TrimAll(SplitAny(section, ItemSeparators))
    ensures var ts := TrimAll(SplitAny(section, ItemSeparators));
            forall i :: 0 <= i < |ts| && |ts[i]| > 10 ==> ts[i] in Items(section)
  {
    LongOnesKeepsLong(TrimAll(SplitAny(section, ItemSeparators)));
  }

  /** `_extract_skills_and_requirements`: nothing happens for an empty
      description; otherwise the pattern matches are added to the skills
      and duplicates dropped, and each matched section replaces its list. */
  function ExtractDetails(job: JobPosting, ex: Extraction): (r: JobPosting)
    ensures job.description == "" ==> r == job
    ensures job.description != "" ==> forall x :: x in r.skills <==> x in job.skills || x in ex.skillMatches
    ensures job.description != "" ==> forall i, j :: 0 <= i < j < |r.skills| ==> r.skills[i] != r.skills[j]
    ensures job.description != "" && ex.requirementsSection.Some? ==>
              r.requirements == Items(ex.requirementsSection.value)
              && forall x :: x in r.requirements ==> |x| > 10 && Trim(x) == x
    ensures job.description != "" && ex.responsibilitiesSection.Some? ==>
              r.responsibilities == Items(ex.responsibilitiesSection.value)
              && forall x :: x in r.responsibilities ==> |x| > 10 && Trim(x) == x
    ensures job.description != "" && ex.requirementsSection.None? ==> r.requirements == job.requirements
    ensures job.description != "" && ex.responsibilitiesSection.None? ==> r.responsibilities == job.responsibilities
    ensures r.(skills := job.skills, requirements := job.requirements, responsibilities := job.responsibilities) == job
  {
    if job.description == "" then job
    else
      job.(skills := Dedup(job.skills + ex.skillMatches),
           requirements := SectionItems(job.requirements, ex.requirementsSection),
           responsibilities := SectionItems(job.responsibilities, ex.responsibilitiesSection))
  }

  /** A list after extraction: the items of the matched section, or the
      list as it was when the section was not found. */
  function SectionItems(before: seq<string>, section: Option<string>): (r: seq<string>)
    ensures section.None? ==> r == before
    ensures section.Some? ==> r == Items(section.value) && forall x :: x in r ==> |x| > 10 && Trim(x) == x
  {
    if section.Some? then Items(section.value) else before
  }

  // ---------------------------------------------------------------------
  // Detectors
  // ---------------------------------------------------------------------

  /** `re.search(r'/jobs/view/\d+', url)`. */
  predicate IsLinkedInJobUrl(url: string) {
    exists i | 0 <= i <= |url| - 12 :: OccursAt(url, "/jobs/view/", i) && IsDigit(url[i + 11])
  }

  function DetectLinkedIn(url: string, content: Option<string>, page: Page, ex: Extraction): (r: Option<JobPosting>)
    ensures !IsLinkedInJobUrl(url) ==> r == None
    ensures IsLinkedInJobUrl(url) && !Truthy(content) ==> r == Some(NewPosting("LinkedIn Job", "Unknown Company", url, "LinkedIn"))
    ensures r.Some? ==> r.value.sourcePlatform == "LinkedIn" && r.value.url == url
  {
    if !IsLinkedInJobUrl(url) then None
    else if !Truthy(content) then Some(NewPosting("LinkedIn Job", "Unknown Company", url, "LinkedIn"))
    else
      var title := FirstFound(page, ["h1.t-24", "h1"], "Unknown Position");
      var company := FirstFound(page, ["a.ember-view", "span.topcard__flavor"], "Unknown Company");
      var desc := FirstFound(page, ["div.description__text"], "");
      var location := if "span.topcard__flavor--bullet" in page.elements
                      then Some(page.elements["span.topcard__flavor--bullet"]) else None;
      Some(ExtractDetails(NewPosting(title, company, url, "LinkedIn").(location := location, description := desc), ex))
  }

  /** `re.search(r'/viewjob\?jk=|/jobs/', url)`. */
  predicate IsIndeedJobUrl(url: string) {
    Contains(url, "/viewjob?jk=") || Contains(url, "/jobs/")
  }

  function DetectIndeed(url: string, content: Option<string>, page: Page, ex: Extraction): (r: Option<JobPosting>)
    ensures !IsIndeedJobUrl(url) ==> r == None
    ensures IsIndeedJobUrl(url) && !Truthy(content) ==> r == Some(NewPosting("Indeed Job", "Unknown Company", url, "Indeed"))
    ensures r.Some? ==> r.value.sourcePlatform == "Indeed" && r.value.url == url
  {
    if !IsIndeedJobUrl(url) then None
    else if !Truthy(content) then Some(NewPosting("Indeed Job", "Unknown Company", url, "Indeed"))
    else
      var title := FirstFound(page, ["h1[data-testid=jobsearch-JobInfoHeader-title]", "h1"], "Unknown Position");
      var company := FirstFound(page, ["span[data-testid=jobsearch-JobInfoHeader-companyName]"], "Unknown Company");
      var desc := FirstFound(page, ["div#jobDescriptionText"], "");
      Some(ExtractDetails(NewPosting(title, company, url, "Indeed").(description := desc), ex))
  }

  function DetectGreenhouse(url: string, content: Option<string>, page: Page, ex: Extraction): (r: Option<JobPosting>)
    ensures !Contains(url, "boards.greenhouse.io") ==> r == None
    ensures Contains(url, "boards.greenhouse.io") && !Truthy(content) ==>
              r == Some(NewPosting("Greenhouse Job", "Unknown Company", url, "Greenhouse"))
    ensures r.Some? ==> r.value.sourcePlatform == "Greenhouse" && r.value.url == url
  {
    if !Contains(url, "boards.greenhouse.io") then None
    else if !Truthy(content) then Some(NewPosting("Greenhouse Job", "Unknown Company", url, "Greenhouse"))
    else
      var title := FirstFound(page, ["h1.app-title"], "Unknown Position");
      var company := FirstFound(page, ["span.company-name"], "Unknown Company");
      var desc := FirstFound(page, ["div#content"], "");
      Some(ExtractDetails(NewPosting(title, company, url, "Greenhouse").(description := desc), ex))
  }

  /** The detectors that only check the URL and return a placeholder:
      the substring each requires, and the title and platform they report. */
  function PlaceholderTerms(p: Platform): (string, string, string)
    requires p !in {LinkedIn, Indeed, Greenhouse}
  {
    match p
    case Glassdoor => ("/Job/", "Glassdoor Job", "Glassdoor")
    case Lever => ("jobs.lever.co", "Lever Job", "Lever")
    case Ashby => ("jobs.ashbyhq.com", "Ashby Job", "Ashby")
    case Angel => ("angel.co", "AngelList Job", "AngelList")
    case StackOverflow => ("stackoverflow.com/jobs", "Stack Overflow Job", "Stack Overflow")
    case GoogleJobs => ("jobs.google.com", "Google Jobs Listing", "Google Jobs")
  }

  function DetectPlaceholder(p: Platform, url: string): (r: Option<JobPosting>)
    requires p !in {LinkedIn, Indeed, Greenhouse}
    ensures r.Some? <==> Contains(url, PlaceholderTerms(p).0)
    ensures r.Some? ==> r.value == NewPosting(PlaceholderTerms(p).1, "Unknown Company", url, PlaceholderTerms(p).2)
  {
    var (needle, title, platform) := PlaceholderTerms(p);
    if Contains(url, needle) then Some(NewPosting(title, "Unknown Company", url, platform)) else None
  }

  const JobIndicators: seq<string> := [
    "job description", "responsibilities", "requirements", "qualifications",
    "apply now", "job posting", "position", "role", "career", "employment",
    "hiring", "recruiter", "hr", "human resources", "talent acquisition"]

  /** How many of `words` occur in `text`. */
  function CountOccurring(words: seq<string>, text: string): (n: nat)
    ensures n <= |words|
    ensures n == 0 <==> forall i :: 0 <= i < |words| ==> !Contains(text, words[i])
    ensures n == |words| <==> forall i :: 0 <= i < |words| ==> Contains(text, words[i])
  {
    if words == [] then 0
    else
      var rest := CountOccurring(words[1..], text);
      assert forall i :: 1 <= i < |words| ==> words[i] == words[1..][i - 1];
      (if Contains(text, words[0]) then 1 else 0) + rest
  }

  /** More text never lowers the count: a page that keeps every indicator
      of another page is detected whenever that one is. */
  lemma {:induction false} CountMonotone(words: seq<string>, t1: string, t2: string)
    requires forall w :: w in words && Contains(t1, w) ==> Contains(t2, w)
    ensures CountOccurring(words, t1) <= CountOccurring(words, t2)
  {
    if words != [] {
      CountMonotone(words[1..], t1, t2);
    }
  }

  /** `_universal_detect`: needs content and at least three of the job
      indicators in the lowercased page text. */
  function DetectUniversal(url: string, content: Option<string>, page: Page, ex: Extraction): (r: Option<JobPosting>)
    ensures !Truthy(content) ==> r == None
    ensures Truthy(content) ==> (r.Some? <==> CountOccurring(JobIndicators, Lower(page.text)) >= 3)
    ensures r.Some? ==> r.value.sourcePlatform == "Universal"
                        && (r.value.title == "Unknown Position" || 5 < |r.value.title| < 100)
                        && (r.value.company == "Unknown Company" || 2 < |r.value.company| < 50)
                        && r.value.description == Take(page.text, 2000)
  {
    if !Truthy(content) then None
    else if CountOccurring(JobIndicators, Lower(page.text)) < 3 then None
    else
      var job := NewPosting(UniversalTitle(page), UniversalCompany(page), url, "Universal")
                   .(description := Take(page.text, 2000));
      Some(ExtractDetails(job, ex))
  }

  /** `detect_job_page`. */
  function DetectJobPage(url: string, content: Option<string>, page: Page, ex: Extraction): (r: Option<JobPosting>)
    ensures ChoosePlatform(PlatformKeys, url).None? ==> r == DetectUniversal(url, content, page, ex)
    ensures ChoosePlatform(PlatformKeys, url) == Some(LinkedIn) ==> r == DetectLinkedIn(url, content, page, ex)
    ensures ChoosePlatform(PlatformKeys, url) == Some(Indeed) ==> r == DetectIndeed(url, content, page, ex)
    ensures ChoosePlatform(PlatformKeys, url) == Some(Greenhouse) ==> r == DetectGreenhouse(url, content, page, ex)
    ensures var c := ChoosePlatform(PlatformKeys, url);
            c.Some? && c.value !in {LinkedIn, Indeed, Greenhouse} ==> r == DetectPlaceholder(c.value, url)
    ensures r.Some? ==> r.value.url == url
  {
    match ChoosePlatform(PlatformKeys, url)
    case None => DetectUniversal(url, content, page, ex)
    case Some(LinkedIn) => DetectLinkedIn(url, content, page, ex)
    case Some(Indeed) => DetectIndeed(url, content, page, ex)
    case Some(Greenhouse) => DetectGreenhouse(url, content, page, ex)
    case Some(p) => DetectPlaceholder(p, url)
  }

  // ---------------------------------------------------------------------
  // ATS keywords
  // ---------------------------------------------------------------------

  const ImportantKeywords: seq<string> := [
    "experience", "years", "bachelor", "master", "degree", "certification",
    "leadership", "management", "team", "project", "development", "design",
    "analysis", "strategy", "communication", "collaboration", "problem solving"]

  /** The text the keywords are looked for in. */
  function KeywordText(job: JobPosting): string {
    job.title + " " + job.description + " " + Join(job.requirements, " ") + " " + Join(job.responsibilities, " ")
  }

  function KeywordsIn(words: seq<string>, text: string): (r: seq<string>)
    ensures forall w :: w in r <==> w in words && Contains(Lower(text), Lower(w))
  {
    if words == [] then []
    else (if Contains(Lower(text), Lower(words[0])) then [words[0]] else []) + KeywordsIn(words[1..], text)
  }

  /** `extract_job_keywords`: nothing for an empty description, otherwise
      the fixed keywords found in the combined text and all skills, without
      duplicates. */
  function ExtractJobKeywords(job: JobPosting): (r: seq<string>)
    ensures job.description == "" ==> r == []
    ensures job.description != "" ==> forall w :: w in r <==>
              w in job.skills || (w in ImportantKeywords && Contains(Lower(KeywordText(job)), Lower(w)))
    ensures forall i, j :: 0 <= i < j < |r| ==> r[i] != r[j]
  {
    if job.description == "" then []
    else Dedup(KeywordsIn(ImportantKeywords, KeywordText(job)) + job.skills)
  }

  /** Every posting skill is among the keywords of a posting with a
      description, whatever its text says. */
  lemma SkillsAreKeywords(job: JobPosting, ex: Extraction)
    requires job.description != ""
    ensures forall s :: s in ex.skillMatches ==> s in ExtractJobKeywords(ExtractDetails(job, ex))
  {
  }
}

=== FILE: metrics.dfy ===
/** The analytics metrics route (web/app/api/analytics/metrics/route.ts):
    the estimated time a summary saves, the rolling weekly and monthly
    totals, the day streak, the categories by domain, the productivity
    score and the daily and monthly chart data. Timestamps are
    milliseconds; a calendar day is `t / DayMs` (the server's time zone
    taken as UTC). The database query, URL parsing and the month calendar
    are inputs. */
module Metrics {
  import opened Options
  import opened Text

  const MinuteMs: int := 60000
  const DayMs: int := 86400000

  /** A stored summary, as the route reads it. `host` is what
      `new URL(url).hostname` gives, None when the URL does not parse. */
  datatype Summary = Summary(title: Option<string>, url: Option<string>, host: Option<string>,
                             tldr: string, keyPoints: Option<seq<string>>, createdAt: int)

  // ---------------------------------------------------------------------
  // Time saved
  // ---------------------------------------------------------------------

  /** The estimated length of the original: the title's length plus 500
      when there is a URL, or 500 without a title. */
  function OriginalLength(s: Summary): nat {
    if Truthy(s.title) then |s.title.value| + (if Truthy(s.url) then 500 else 0) else 500
  }

  /** The TL;DR's length plus that of the key points joined by spaces. */
  function SummaryLength(s: Summary): nat {
    |s.tldr| + (if s.keyPoints.Some? then |Join(s.keyPoints.value, " ")| else 0)
  }

  function Reduction(s: Summary): nat {
    if OriginalLength(s) > SummaryLength(s) then OriginalLength(s) - SummaryLength(s) else 0
  }

  /** `calculateTimeSaved`: the reduction read at 250 a minute, and never
      less than two minutes. */
  function TimeSaved(s: Summary): (r: real)
    ensures r >= 2.0
    ensures r > 2.0 <==> Reduction(s) >= 9
    ensures r > 2.0 ==> r * 250.0 == Reduction(s) as real * 60.0
  {
    var minutes := Reduction(s) as real / 250.0 * 60.0;
    if minutes > 2.0 then minutes else 2.0
  }

  /** A longer summary of the same page never saves more time. */
  lemma LongerSummarySavesLess(a: Summary, b: Summary)
    requires a.title == b.title && a.url == b.url
    requires SummaryLength(a) <= SummaryLength(b)
    ensures TimeSaved(b) <= TimeSaved(a)
  {
    assert Reduction(b) <= Reduction(a);
  }

  function TotalTime(ss: seq<Summary>): (r: real)
    ensures r >= 2.0 * |ss| as real
  {
    if ss == [] then 0.0 else TimeSaved(ss[0]) + TotalTime(ss[1..])
  }

  lemma TotalTimeCons(x: Summary, ss: seq<Summary>)
    ensures TotalTime([x] + ss) == TimeSaved(x) + TotalTime(ss)
  {
    assert ([x] + ss)[1..] == ss;
  }

  /** `Math.round`: the nearest integer, halves rounded up. */
  function Round(x: real): (r: int)
    ensures r as real - 0.5 <= x < r as real + 0.5
  {
    (x + 0.5).Floor
  }

  lemma RoundMonotone(x: real, y: real)
    requires x <= y
    ensures Round(x) <= Round(y)
  {
  }

  // ---------------------------------------------------------------------
  // Windows of time
  // ---------------------------------------------------------------------

  /** The summaries made from `lo` (inclusive) to `hi` (exclusive), in
      their order. */
  function Window(ss: seq<Summary>, lo: int, hi: int): (r: seq<Summary>)
    ensures |r| <= |ss|
  {
    if ss == [] then []
    else if lo <= ss[0].createdAt < hi then [ss[0]] + Window(ss[1..], lo, hi)
    else Window(ss[1..], lo, hi)
  }

  /** A window holds exactly the summaries made within it. */
  lemma {:induction false} WindowMembers(ss: seq<Summary>, lo: int, hi: int)
    ensures forall s :: s in Window(ss, lo, hi) <==> s in ss && lo <= s.createdAt < hi
  {
    if ss != [] {
      WindowMembers(ss[1..], lo, hi);
      assert forall s :: s in ss <==> s == ss[0] || s in ss[1..];
    }
  }

  /** The summaries made at `from` or later. */
  function Since(ss: seq<Summary>, from: int): (r: seq<Summary>)
    ensures |r| <= |ss|
    ensures forall s :: s in r <==> s in ss && from <= s.createdAt
  {
    if ss == [] then []
    else if from <= ss[0].createdAt then [ss[0]] + Since(ss[1..], from)
    else Since(ss[1..], from)
  }

  /** A later start never gives more time saved. */
  lemma {:induction false} SinceShrinks(ss: seq<Summary>, a: int, b: int)
    requires b <= a
    ensures TotalTime(Since(ss, a)) <= TotalTime(Since(ss, b)) <= TotalTime(ss)
    ensures |Since(ss, a)| <= |Since(ss, b)|
  {
    if ss != [] {
      SinceShrinks(ss[1..], a, b);
      var x := ss[0];
      TotalTimeCons(x, Since(ss[1..], a));
      TotalTimeCons(x, Since(ss[1..], b));
      assert TotalTime(ss) == TimeSaved(x) + TotalTime(ss[1..]);
    }
  }

  /** Windows that meet add up, both in count and in time saved. */
  lemma {:induction false} WindowSplit(ss: seq<Summary>, a: int, b: int, c: int)
    requires a <= b <= c
    ensures |Window(ss, a, c)| == |Window(ss, a, b)| + |Window(ss, b, c)|
    ensures TotalTime(Window(ss, a, c)) == TotalTime(Window(ss, a, b)) + TotalTime(Window(ss, b, c))
  {
    if ss != [] {
      WindowSplit(ss[1..], a, b, c);
      var x := ss[0];
      TotalTimeCons(x, Window(ss[1..], a, c));
      TotalTimeCons(x, Window(ss[1..], a, b));
      TotalTimeCons(x, Window(ss[1..], b, c));
    }
  }

  // ---------------------------------------------------------------------
  // Streak
  // ---------------------------------------------------------------------

  /** The calendar day of a timestamp. */
  function DayOf(t: int): int {
    t / DayMs
  }

  predicate Descending(s: seq<int>) {
    forall i, j :: 0 <= i < j < |s| ==> s[i] > s[j]
  }

  /** Adds a day to a strictly descending list of days unless present. */
  function InsertDay(s: seq<int>, x: int): (r: seq<int>)
    requires Descending(s)
    ensures Descending(r)
    ensures forall y :: y in r <==> y in s || y == x
  {
    if s == [] then [x]
    else if x > s[0] then [x] + s
    else if x == s[0] then s
    else
      var tail := s[1..];
      assert forall i :: 0 <= i < |tail| ==> tail[i] == s[i + 1] && s[0] > tail[i];
      assert s == [s[0]] + tail;
      var rest := InsertDay(tail, x);
      forall i | 0 <= i < |rest|
        ensures rest[i] < s[0]
      {
        assert rest[i] in rest;
        if rest[i] != x {
          var j :| 0 <= j < |tail| && tail[j] == rest[i];
        }
      }
      DescendingCons(s[0], rest);
      [s[0]] + rest
  }

  lemma DescendingCons(h: int, rest: seq<int>)
    requires Descending(rest) && forall i :: 0 <= i < |rest| ==> rest[i] < h
    ensures Descending([h] + rest)
  {
  }

  /** `[...new Set(days)].sort(descending)`. */
  function SortDays(days: seq<int>): (r: seq<int>)
    ensures Descending(r)
    ensures forall y :: y in r <==> y in days
  {
    if days == [] then []
    else InsertDay(SortDays(days[..|days| - 1]), days[|days| - 1])
  }

  function DaysOf(ss: seq<Summary>): (r: seq<int>)
    ensures |r| == |ss| && forall i :: 0 <= i < |ss| ==> r[i] == DayOf(ss[i].createdAt)
  {
    seq(|ss|, i requires 0 <= i < |ss| => DayOf(ss[i].createdAt))
  }

  /** Some summary was made on calendar day `d`. */
  predicate ActiveDay(ss: seq<Summary>, d: int) {
    exists s :: s in ss && DayOf(s.createdAt) == d
  }

  lemma DaysActive(ss: seq<Summary>)
    ensures forall d :: d in SortDays(DaysOf(ss)) <==> ActiveDay(ss, d)
  {
    var days := DaysOf(ss);
    forall d | ActiveDay(ss, d)
      ensures d in days
    {
      var s :| s in ss && DayOf(s.createdAt) == d;
      var k :| 0 <= k < |ss| && ss[k] == s;
      assert days[k] == d;
    }
    forall d | d in days
      ensures ActiveDay(ss, d)
    {
      var k :| 0 <= k < |ss| && days[k] == d;
      assert ss[k] in ss;
    }
  }

  /** When no day is after today and the run stops after `k` days, the
      day `today - k`, if active, is the next in the sorted list. */
  lemma NextDayInPlace(sorted: seq<int>, today: int, k: nat)
    requires Descending(sorted) && k <= |sorted|
    requires forall j :: 0 <= j < k ==> sorted[j] == today - j
    requires forall d :: d in sorted ==> d <= today
    requires today - k in sorted
    ensures k < |sorted| && sorted[k] == today - k
  {
    var m :| 0 <= m < |sorted| && sorted[m] == today - k;
    assert forall j :: 0 <= j < k ==> sorted[j] > today - k;
    assert k <= m;
    assert sorted[k] >= sorted[m];
    if k > 0 {
      assert sorted[k - 1] == today - k + 1;
    } else {
      assert sorted[0] in sorted;
    }
  }

  /** Why the loop's count is the run of days ending today: a streak of
      `k` means today and the `k - 1` days before it are active, and the
      day before those is not (unless a day after today is active, when
      the streak is 0). */
  lemma StreakRun(sorted: seq<int>, today: int, k: nat)
    requires Descending(sorted) && k <= |sorted|
    requires forall j :: 0 <= j < k ==> sorted[j] == today - j
    requires k == |sorted| || sorted[k] != today - k
    ensures forall d :: today - k < d <= today ==> d in sorted
    ensures (forall d :: d in sorted ==> d <= today) ==> today - k !in sorted
    ensures (exists d :: d in sorted && d > today) ==> k == 0
  {
    forall d | today - k < d <= today
      ensures d in sorted
    {
      assert sorted[today - d] == d;
    }
    if forall d :: d in sorted ==> d <= today {
      if today - k in sorted {
        NextDayInPlace(sorted, today, k);
      }
    }
    if exists d :: d in sorted && d > today {
      var d :| d in sorted && d > today;
      assert sorted[0] >= d;
    }
  }

  /** The streak loop: the distinct days sorted newest first, counted
      while the i-th is `i` days before today. */
  method StreakDays(ss: seq<Summary>, now: int) returns (streak: nat)
    ensures forall d :: DayOf(now) - streak < d <= DayOf(now) ==> ActiveDay(ss, d)
    ensures (forall d :: ActiveDay(ss, d) ==> d <= DayOf(now)) ==> !ActiveDay(ss, DayOf(now) - streak)
    ensures (exists d :: ActiveDay(ss, d) && d > DayOf(now)) ==> streak == 0
  {
    var sorted := SortDays(DaysOf(ss));
    var today := DayOf(now);
    streak := 0;
    var i := 0;
    while i < |sorted|
      invariant 0 <= i <= |sorted| && streak == i
      invariant forall j :: 0 <= j < i ==> sorted[j] == today - j
    {
      // The day of `now - i` days is `today - i`.
      if sorted[i] == today - i {
        streak := streak + 1;
        i := i + 1;
      } else {
        break;
      }
    }
    StreakRun(sorted, today, streak);
    DaysActive(ss);
  }

  // ---------------------------------------------------------------------
  // Categories
  // ---------------------------------------------------------------------

  datatype Category = General | Technical | Articles | News | Research | Video | Web

  /** The name the route reports for a category. */
  function CategoryName(c: Category): string {
    match c
    case General => "general"
    case Technical => "technical"
    case Articles => "articles"
    case News => "news"
    case Research => "research"
    case Video => "video"
    case Web => "web"
  }

  /** A summary whose URL is set and whose host parsed. */
  predicate HasHost(s: Summary) {
    Truthy(s.url) && s.host.Some?
  }

  predicate TechnicalHost(h: string) { Contains(h, "github") }
  predicate ArticleHost(h: string) { Contains(h, "medium") || Contains(h, "blog") }
  predicate NewsHost(h: string) { Contains(h, "news") || Contains(h, "cnn") || Contains(h, "bbc") }
  predicate ResearchHost(h: string) { Contains(h, "wiki") }
  predicate VideoHost(h: string) { Contains(h, "youtube") || Contains(h, "video") }

  /** The category of a summary: from its URL's host, the first rule that
      matches winning; 'general' without a URL or when it does not parse;
      'web' when no rule matches. */
  function CategoryOf(s: Summary): (c: Category)
    ensures c == General <==> !HasHost(s)
    ensures c == Technical <==> HasHost(s) && TechnicalHost(s.host.value)
    ensures c == Articles <==> HasHost(s) && !TechnicalHost(s.host.value) && ArticleHost(s.host.value)
    ensures c == News <==> HasHost(s) && !TechnicalHost(s.host.value) && !ArticleHost(s.host.value)
                           && NewsHost(s.host.value)
    ensures c == Research <==> HasHost(s) && !TechnicalHost(s.host.value) && !ArticleHost(s.host.value)
                               && !NewsHost(s.host.value) && ResearchHost(s.host.value)
    ensures c == Video <==> HasHost(s) && !TechnicalHost(s.host.value) && !ArticleHost(s.host.value)
                            && !NewsHost(s.host.value) && !ResearchHost(s.host.value) && VideoHost(s.host.value)
    ensures c == Web <==> HasHost(s) && !TechnicalHost(s.host.value) && !ArticleHost(s.host.value)
                          && !NewsHost(s.host.value) && !ResearchHost(s.host.value) && !VideoHost(s.host.value)
  {
    if !HasHost(s) then General
    else
      var h := s.host.value;
      if TechnicalHost(h) then Technical
      else if ArticleHost(h) then Articles
      else if NewsHost(h) then News
      else if ResearchHost(h) then Research
      else if VideoHost(h) then Video
      else Web
  }

  /** The rules are tried in order: a host that names both GitHub and a
      blog is technical, one that names a blog and news is an article. */
  lemma FirstRuleWins(s: Summary, a: string, b: string)
    requires Truthy(s.url) && s.host == Some(a + "github" + b + "blog")
    ensures CategoryOf(s) == Technical
  {
    ContainsSelf("github");
    ContainsInfix(a, "github", b + "blog", "github");
    assert a + "github" + (b + "blog") == a + "github" + b + "blog";
  }

  /** How many summaries fall in a category. */
  function CountCat(ss: seq<Summary>, c: Category): (n: nat)
    ensures n <= |ss|
  {
    if ss == [] then 0
    else CountCat(ss[..|ss| - 1], c) + (if CategoryOf(ss[|ss| - 1]) == c then 1 else 0)
  }

  datatype Stat = Stat(category: Category, count: nat, timeSaved: real)

  predicate DistinctCategories(stats: seq<Stat>) {
    forall i, j :: 0 <= i < j < |stats| ==> stats[i].category != stats[j].category
  }

  /** `categoryMap[category].count++`, adding the entry on first sight. */
  function Bump(stats: seq<Stat>, c: Category, t: real): (r: seq<Stat>)
    requires DistinctCategories(stats)
    ensures DistinctCategories(r)
    ensures |r| == |stats| || |r| == |stats| + 1
    ensures forall i :: 0 <= i < |stats| ==> r[i].category == stats[i].category
    ensures forall i :: 0 <= i < |stats| ==> r[i].count == stats[i].count + (if stats[i].category == c then 1 else 0)
    ensures |r| == |stats| + 1 <==> forall i :: 0 <= i < |stats| ==> stats[i].category != c
    ensures |r| == |stats| + 1 ==> r[|stats|] == Stat(c, 1, t)
  {
    if stats == [] then [Stat(c, 1, t)]
    else if stats[0].category == c then
      [stats[0].(count := stats[0].count + 1, timeSaved := stats[0].timeSaved + t)] + stats[1..]
    else [stats[0]] + Bump(stats[1..], c, t)
  }

  /** The category map, in the order categories are first seen: one entry
      per category present, holding how many summaries it has. */
  function Tally(ss: seq<Summary>): (r: seq<Stat>)
    ensures DistinctCategories(r)
  {
    if ss == [] then []
    else
      var last := ss[|ss| - 1];
      Bump(Tally(ss[..|ss| - 1]), CategoryOf(last), TimeSaved(last))
  }

  predicate Listed(stats: seq<Stat>, c: Category) {
    exists i :: 0 <= i < |stats| && stats[i].category == c
  }

  /** The map holds one entry per category present, with its count. */
  lemma {:induction false} TallyCounts(ss: seq<Summary>)
    ensures forall i :: 0 <= i < |Tally(ss)| ==> Tally(ss)[i].count == CountCat(ss, Tally(ss)[i].category) >= 1
    ensures forall c :: CountCat(ss, c) > 0 <==> Listed(Tally(ss), c)
  {
    if ss != [] {
      var pre := ss[..|ss| - 1];
      var c0 := CategoryOf(ss[|ss| - 1]);
      TallyCounts(pre);
      var prev := Tally(pre);
      var r := Tally(ss);
      assert r == Bump(prev, c0, TimeSaved(ss[|ss| - 1]));
      forall i | 0 <= i < |r|
        ensures r[i].count == CountCat(ss, r[i].category) >= 1
      {
        if i < |prev| {
          assert r[i].category == prev[i].category;
        } else {
          assert !Listed(prev, c0);
        }
      }
      forall c
        ensures CountCat(ss, c) > 0 <==> Listed(r, c)
      {
        if Listed(prev, c) {
          var i :| 0 <= i < |prev| && prev[i].category == c;
          assert r[i].category == c;
        }
        if c == c0 && !Listed(prev, c) {
          assert r[|prev|].category == c;
        }
        if Listed(r, c) {
          var i :| 0 <= i < |r| && r[i].category == c;
          if i < |prev| {
            assert prev[i].category == c;
          }
        }
      }
    }
  }

  function SumCounts(stats: seq<Stat>): nat {
    if stats == [] then 0 else stats[0].count + SumCounts(stats[1..])
  }

  lemma {:induction false} BumpAddsOne(stats: seq<Stat>, c: Category, t: real)
    requires DistinctCategories(stats)
    ensures SumCounts(Bump(stats, c, t)) == SumCounts(stats) + 1
  {
    if stats != [] && stats[0].category != c {
      BumpAddsOne(stats[1..], c, t);
    }
  }

  /** Every summary is counted in exactly one category. */
  lemma {:induction false} TallyCountsAll(ss: seq<Summary>)
    ensures SumCounts(Tally(ss)) == |ss|
  {
    if ss != [] {
      var last := ss[|ss| - 1];
      TallyCountsAll(ss[..|ss| - 1]);
      BumpAddsOne(Tally(ss[..|ss| - 1]), CategoryOf(last), TimeSaved(last));
    }
  }

  predicate ByCount(s: seq<Stat>) {
    forall i, j :: 0 <= i < j < |s| ==> s[i].count >= s[j].count
  }

  /** Places `x` after every entry with at least its count. */
  function InsertByCount(sorted: seq<Stat>, x: Stat): (r: seq<Stat>)
    requires ByCount(sorted)
    ensures ByCount(r)
    ensures multiset(r) == multiset(sorted) + multiset{x}
    ensures forall y :: y in r ==> y in sorted || y == x
  {
    if sorted == [] then [x]
    else
      var n := |sorted| - 1;
      if sorted[n].count >= x.count then
        ByCountAppend(sorted, x);
        sorted + [x]
      else
        var front := InsertByCount(sorted[..n], x);
        assert sorted == sorted[..n] + [sorted[n]];
        forall i | 0 <= i < |front|
          ensures front[i].count >= sorted[n].count
        {
          assert front[i] in front;
          if front[i] != x {
            assert front[i] in sorted[..n];
            var j :| 0 <= j < n && sorted[..n][j] == front[i];
            assert sorted[j] == front[i];
          }
        }
        ByCountAppend(front, sorted[n]);
        front + [sorted[n]]
  }

  lemma ByCountAppend(s: seq<Stat>, z: Stat)
    requires ByCount(s)
    requires forall i :: 0 <= i < |s| ==> s[i].count >= z.count
    ensures ByCount(s + [z])
  {
  }

  /** `.sort((a, b) => b.count - a.count)`. */
  function SortByCount(s: seq<Stat>): (r: seq<Stat>)
    ensures ByCount(r)
    ensures multiset(r) == multiset(s)
  {
    if s == [] then []
    else
      var n := |s| - 1;
      assert s == s[..n] + [s[n]];
      InsertByCount(SortByCount(s[..n]), s[n])
  }

  lemma {:induction false} SumCountsAppend(a: seq<Stat>, z: Stat)
    ensures SumCounts(a + [z]) == SumCounts(a) + z.count
  {
    if a != [] {
      SumCountsAppend(a[1..], z);
      assert (a + [z])[1..] == a[1..] + [z];
    }
  }

  lemma {:induction false} InsertKeepsSum(sorted: seq<Stat>, x: Stat)
    requires ByCount(sorted)
    ensures SumCounts(InsertByCount(sorted, x)) == SumCounts(sorted) + x.count
  {
    if sorted != [] {
      var n := |sorted| - 1;
      assert sorted == sorted[..n] + [sorted[n]];
      SumCountsAppend(sorted[..n], sorted[n]);
      if sorted[n].count >= x.count {
        SumCountsAppend(sorted, x);
      } else {
        InsertKeepsSum(sorted[..n], x);
        SumCountsAppend(InsertByCount(sorted[..n], x), sorted[n]);
      }
    }
  }

  /** Sorting neither adds nor drops a summary from the counts. */
  lemma {:induction false} SortKeepsSum(s: seq<Stat>)
    ensures SumCounts(SortByCount(s)) == SumCounts(s)
  {
    if s != [] {
      var n := |s| - 1;
      assert s == s[..n] + [s[n]];
      SortKeepsSum(s[..n]);
      InsertKeepsSum(SortByCount(s[..n]), s[n]);
      SumCountsAppend(s[..n], s[n]);
    }
  }

  /** `topCategories`: the categories present, most summaries first, each
      with its count. */
  function TopCategories(ss: seq<Summary>): (r: seq<Stat>)
    ensures ByCount(r)
    ensures multiset(r) == multiset(Tally(ss))
  {
    SortByCount(Tally(ss))
  }

  lemma SameMembers(a: seq<Stat>, b: seq<Stat>)
    requires multiset(a) == multiset(b)
    ensures forall y :: y in a <==> y in b
  {
    forall y
      ensures y in a <==> y in b
    {
      assert y in a <==> y in multiset(a);
      assert y in b <==> y in multiset(b);
    }
  }

  /** Sorting keeps each category's count and loses none, so the counts
      add up to the number of summaries. */
  lemma TopCategoriesCounts(ss: seq<Summary>)
    ensures forall i :: 0 <= i < |TopCategories(ss)| ==>
              TopCategories(ss)[i].count == CountCat(ss, TopCategories(ss)[i].category) >= 1
    ensures forall c :: CountCat(ss, c) > 0 <==> Listed(TopCategories(ss), c)
    ensures SumCounts(TopCategories(ss)) == |ss|
  {
    TallyCountsAll(ss);
    SortKeepsSum(Tally(ss));
    TopCategoriesExact(ss);
    TopCategoriesListed(ss);
  }

  lemma TopCategoriesExact(ss: seq<Summary>)
    ensures forall i :: 0 <= i < |TopCategories(ss)| ==>
              TopCategories(ss)[i].count == CountCat(ss, TopCategories(ss)[i].category) >= 1
  {
    var t := Tally(ss);
    var r := TopCategories(ss);
    TallyCounts(ss);
    SameMembers(r, t);
    forall i | 0 <= i < |r|
      ensures r[i].count == CountCat(ss, r[i].category) >= 1
    {
      assert r[i] in t;
    }
  }

  lemma TopCategoriesListed(ss: seq<Summary>)
    ensures forall c :: CountCat(ss, c) > 0 <==> Listed(TopCategories(ss), c)
  {
    var t := Tally(ss);
    var r := TopCategories(ss);
    TallyCounts(ss);
    SameMembers(r, t);
    ListedSameMembers(t, r);
  }

  /** Lists with the same members list the same categories. */
  lemma ListedSameMembers(a: seq<Stat>, b: seq<Stat>)
    requires forall y :: y in a <==> y in b
    ensures forall c :: Listed(a, c) <==> Listed(b, c)
  {
    forall c
      ensures Listed(a, c) <==> Listed(b, c)
    {
      if Listed(a, c) {
        var j :| 0 <= j < |a| && a[j].category == c;
        assert a[j] in b;
      }
      if Listed(b, c) {
        var i :| 0 <= i < |b| && b[i].category == c;
        assert b[i] in a;
      }
    }
  }

  // ---------------------------------------------------------------------
  // Productivity score
  // ---------------------------------------------------------------------

  function Min(a: int, b: int): int {
    if a < b then a else b
  }

  /** Consistency (10 a streak day, up to 40), activity (10 a summary this
      week, up to 40) and diversity (5 a category, up to 20), capped at 100. */
  function ProductivityScore(streak: nat, recent: nat, categories: nat): (r: nat)
    ensures r <= 100
    ensures r == Min(streak * 10, 40) + Min(recent * 10, 40) + Min(categories * 5, 20)
  {
    Min(Min(streak * 10, 40) + Min(recent * 10, 40) + Min(categories * 5, 20), 100)
  }

  /** The score is full exactly when each part is. */
  lemma FullScore(streak: nat, recent: nat, categories: nat)
    ensures ProductivityScore(streak, recent, categories) == 100 <==> streak >= 4 && recent >= 4 && categories >= 4
  {
  }

  // ---------------------------------------------------------------------
  // Chart data
  // ---------------------------------------------------------------------

  /** A chart point: how many summaries, their time saved, and the words
      reduced (300 a summary, so 300 on average). */
  datatype Bar = Bar(summaries: nat, timeSaved: real, avgWordsReduced: real)

  function BarOf(w: seq<Summary>): (b: Bar)
    ensures b.summaries == |w| && b.timeSaved == TotalTime(w)
  {
    Bar(|w|, TotalTime(w), if |w| > 0 then 300.0 else 0.0)
  }

  function DayStart(d: int): int {
    d * DayMs
  }

  lemma DayStartSteps(d: int, k: nat)
    ensures DayStart(d) <= DayStart(d + k)
    ensures DayStart(d + k) + DayMs == DayStart(d + k + 1)
  {
    assert DayStart(d + k) == DayStart(d) + k * DayMs;
  }

  /** The bar for calendar day `d`: its midnight to the next. */
  function DayBar(ss: seq<Summary>, d: int): Bar {
    BarOf(Window(ss, DayStart(d), DayStart(d) + DayMs))
  }

  /** The bars of `k` days from day `first` on, oldest first. */
  function DayBars(ss: seq<Summary>, first: int, k: nat): (r: seq<Bar>)
    ensures |r| == k
  {
    if k == 0 then [] else DayBars(ss, first, k - 1) + [DayBar(ss, first + k - 1)]
  }

  function BarsCount(bars: seq<Bar>): nat {
    if bars == [] then 0 else BarsCount(bars[..|bars| - 1]) + bars[|bars| - 1].summaries
  }

  /** `weeklyData`: today and the six days before it. */
  function WeeklyData(ss: seq<Summary>, now: int): (r: seq<Bar>)
    ensures |r| == 7
    ensures forall j :: 0 <= j < 7 ==> r[j] == DayBar(ss, DayOf(now) - 6 + j)
  {
    var r := DayBars(ss, DayOf(now) - 6, 7);
    DayBarsAt(ss, DayOf(now) - 6, 7);
    r
  }

  lemma {:induction false} DayBarsAt(ss: seq<Summary>, first: int, k: nat)
    ensures forall j :: 0 <= j < k ==> DayBars(ss, first, k)[j] == DayBar(ss, first + j)
  {
    if k > 0 {
      DayBarsAt(ss, first, k - 1);
    }
  }

  lemma EmptyWindow(ss: seq<Summary>, a: int)
    ensures Window(ss, a, a) == []
  {
  }

  /** The daily bars add up to the summaries of those days. */
  lemma {:induction false} DayBarsAddUp(ss: seq<Summary>, first: int, k: nat)
    ensures BarsCount(DayBars(ss, first, k)) == |Window(ss, DayStart(first), DayStart(first + k))|
  {
    if k == 0 {
      EmptyWindow(ss, DayStart(first));
      assert first + k == first;
    } else {
      DayBarsAddUp(ss, first, k - 1);
      DayBarsLast(ss, first, k);
      var a, b, c := DayStart(first), DayStart(first + (k - 1)), DayStart(first + k);
      DayStartSteps(first, k - 1);
      WindowSplit(ss, a, b, c);
    }
  }

  /** The last of `k` day bars counts the summaries of its day. */
  lemma DayBarsLast(ss: seq<Summary>, first: int, k: nat)
    requires k > 0
    ensures BarsCount(DayBars(ss, first, k))
              == BarsCount(DayBars(ss, first, k - 1)) + |Window(ss, DayStart(first + (k - 1)), DayStart(first + k))|
  {
    var bars := DayBars(ss, first, k);
    assert bars[..k - 1] == DayBars(ss, first, k - 1);
    assert bars[k - 1] == DayBar(ss, first + k - 1);
    assert BarsCount(bars) == BarsCount(bars[..k - 1]) + bars[k - 1].summaries;
    var b, c := DayStart(first + (k - 1)), DayStart(first + k);
    DayStartSteps(first, k - 1);
    assert b + DayMs == c;
    assert DayBar(ss, first + k - 1) == BarOf(Window(ss, b, b + DayMs));
  }

  /** The week's bars count every summary from midnight six days ago on,
      up to the end of today. */
  lemma WeekBarsAddUp(ss: seq<Summary>, now: int)
    ensures BarsCount(WeeklyData(ss, now)) == |Window(ss, DayStart(DayOf(now) - 6), DayStart(DayOf(now) + 1))|
  {
    DayBarsAddUp(ss, DayOf(now) - 6, 7);
  }

  /** A calendar month: its first midnight and its number of days. */
  datatype Month = Month(start: int, days: nat)

  /** Months that follow one another without gap. */
  predicate Consecutive(months: seq<Month>) {
    (forall i :: 0 <= i < |months| ==> months[i].days >= 1)
    && forall i :: 0 <= i < |months| - 1 ==> months[i + 1].start == End(months[i])
  }

  function End(m: Month): int {
    m.start + m.days * DayMs
  }

  /** As written, a month runs from its first midnight to the midnight
      that STARTS its last day (`new Date(y, m + 1, 0)`), inclusive. */
  predicate InMonthAsWritten(t: int, m: Month) {
    m.start <= t <= m.start + (m.days - 1) * DayMs
  }

  /** The bars of the months as written: each counts the summaries from its
      first midnight up to and including the midnight that starts its last
      day. */
  function MonthBarsAsWritten(ss: seq<Summary>, months: seq<Month>): (r: seq<Bar>)
    ensures |r| == |months|
    ensures forall i :: 0 <= i < |months| ==>
              r[i].summaries == |MonthWindowAsWritten(ss, months[i])|
              && r[i].timeSaved == TotalTime(MonthWindowAsWritten(ss, months[i]))
  {
    if months == [] then []
    else [BarOf(MonthWindowAsWritten(ss, months[0]))] + MonthBarsAsWritten(ss, months[1..])
  }

  function MonthWindowAsWritten(ss: seq<Summary>, m: Month): (r: seq<Summary>)
    ensures forall s :: s in r <==> s in ss && InMonthAsWritten(s.createdAt, m)
  {
    if ss == [] then []
    else (if InMonthAsWritten(ss[0].createdAt, m) then [ss[0]] else []) + MonthWindowAsWritten(ss[1..], m)
  }

  /** A summary made after midnight on a month's last day falls in no
      month as written: not in its own, and not in the next. */
  lemma LastDayLost(m: Month, next: Month, s: Summary)
    requires Consecutive([m, next])
    requires s.createdAt == m.start + (m.days - 1) * DayMs + 12 * 60 * MinuteMs
    ensures !InMonthAsWritten(s.createdAt, m) && !InMonthAsWritten(s.createdAt, next)
    ensures m.start <= s.createdAt < End(m)
    ensures forall ss :: s in ss ==> s !in MonthWindowAsWritten(ss, m) && s !in MonthWindowAsWritten(ss, next)
  {
    assert [m, next][1].start == End([m, next][0]);
  }

  /** The bar of a month: from its first midnight to the next month's. */
  function MonthBars(ss: seq<Summary>, months: seq<Month>): (r: seq<Bar>)
    ensures |r| == |months|
    ensures forall i :: 0 <= i < |months| ==> r[i] == BarOf(Window(ss, months[i].start, End(months[i])))
  {
    if months == [] then []
    else
      var rest := MonthBars(ss, months[1..]);
      [BarOf(Window(ss, months[0].start, End(months[0])))] + rest
  }

  function BarsCountFront(bars: seq<Bar>): nat {
    if bars == [] then 0 else bars[0].summaries + BarsCountFront(bars[1..])
  }

  /** With the corrected month end, consecutive months count every
      summary of the period exactly once. */
  lemma {:induction false} MonthBarsAddUp(ss: seq<Summary>, months: seq<Month>)
    requires Consecutive(months) && months != []
    ensures BarsCountFront(MonthBars(ss, months)) == |Window(ss, months[0].start, End(months[|months| - 1]))|
  {
    var m := months[0];
    if |months| == 1 {
      assert MonthBars(ss, months) == [BarOf(Window(ss, m.start, End(m)))];
    } else {
      var rest := months[1..];
      var last := End(months[|months| - 1]);
      ConsecutiveTail(months);
      MonthBarsAddUp(ss, rest);
      assert rest[0].start == End(m);
      assert rest[|rest| - 1] == months[|months| - 1];
      assert m.start <= End(m);
      EndAfterStart(rest);
      WindowSplit(ss, m.start, End(m), last);
      var bars := MonthBars(ss, months);
      assert bars == [BarOf(Window(ss, m.start, End(m)))] + MonthBars(ss, rest);
      assert bars[1..] == MonthBars(ss, rest);
      assert BarsCountFront(bars) == bars[0].summaries + BarsCountFront(bars[1..]);
    }
  }

  lemma ConsecutiveTail(months: seq<Month>)
    requires Consecutive(months) && |months| > 1
    ensures Consecutive(months[1..])
  {
    var rest := months[1..];
    forall i | 0 <= i < |rest| - 1
      ensures rest[i + 1].start == End(rest[i])
    {
      assert rest[i] == months[i + 1];
    }
  }

  /** The last month of a consecutive run ends after the first starts. */
  lemma {:induction false} EndAfterStart(months: seq<Month>)
    requires Consecutive(months) && months != []
    ensures months[0].start <= End(months[|months| - 1])
  {
    if |months| > 1 {
      var rest := months[1..];
      ConsecutiveTail(months);
      EndAfterStart(rest);
    }
  }

  // ---------------------------------------------------------------------
  // The route
  // ---------------------------------------------------------------------

  datatype Report = Report(totalTimeSaved: int, totalSummaries: nat, averageReadingTimeReduction: nat,
                           weeklyTimeSaved: int, monthlyTimeSaved: int, productivityScore: nat,
                           streakDays: nat, topCategories: seq<Stat>,
                           weeklyData: seq<Bar>, monthlyData: seq<Bar>)

  datatype Response = Unauthorized | Ok(report: Report)

  /** `GET`: 401 without a signed-in user; zeros for a user with no
      summaries; otherwise the metrics of `ss`, the user's summaries.
      `months` are the six calendar months ending with the current one. */
  method GetMetrics(userId: Option<string>, ss: seq<Summary>, now: int, months: seq<Month>) returns (r: Response)
    requires |months| == 6
    ensures !Truthy(userId) <==> r == Unauthorized
    ensures Truthy(userId) && ss == [] ==> r == Ok(Report(0, 0, 0, 0, 0, 0, 0, [], [], []))
    ensures r.Ok? && ss != [] ==>
              && r.report.totalSummaries == |ss|
              && r.report.totalTimeSaved >= 2 * |ss|
              && r.report.weeklyTimeSaved <= r.report.monthlyTimeSaved <= r.report.totalTimeSaved
              && r.report.productivityScore <= 100
              && r.report.averageReadingTimeReduction == 75 + 2 * |ss|
              && SumCounts(r.report.topCategories) == |ss|
              && (forall d :: DayOf(now) - r.report.streakDays < d <= DayOf(now) ==> ActiveDay(ss, d))
              && |r.report.weeklyData| == 7 && |r.report.monthlyData| == 6
    ensures r.Ok? && (forall d :: ActiveDay(ss, d) ==> d <= DayOf(now)) ==>
              !ActiveDay(ss, DayOf(now) - r.report.streakDays)
    ensures r.Ok? && (exists d :: ActiveDay(ss, d) && d > DayOf(now)) ==> r.report.streakDays == 0
    ensures r.Ok? && ss != [] ==>
              && r.report.totalTimeSaved == Round(TotalTime(ss))
              && r.report.weeklyTimeSaved == Round(TotalTime(Since(ss, now - 7 * DayMs)))
              && r.report.monthlyTimeSaved == Round(TotalTime(Since(ss, now - 30 * DayMs)))
              && r.report.topCategories == TopCategories(ss)
              && r.report.productivityScore
                   == ProductivityScore(r.report.streakDays, |Since(ss, now - 7 * DayMs)|, |TopCategories(ss)|)
              && r.report.weeklyData == WeeklyData(ss, now)
              && r.report.monthlyData == MonthBarsAsWritten(ss, months)
  {
    if !Truthy(userId) {
      return Unauthorized;
    }
    if ss == [] {
      return Ok(Report(0, 0, 0, 0, 0, 0, 0, [], [], []));
    }
    var weekAgo := now - 7 * DayMs;
    var monthAgo := now - 30 * DayMs;
    var total := TotalTime(ss);
    var weekly := TotalTime(Since(ss, weekAgo));
    var monthly := TotalTime(Since(ss, monthAgo));
    SinceShrinks(ss, weekAgo, monthAgo);
    RoundMonotone(weekly, monthly);
    RoundMonotone(monthly, total);
    var streak := StreakDays(ss, now);
    var top := TopCategories(ss);
    TallyCountsAll(ss);
    SortKeepsSum(Tally(ss));
    var recent := |Since(ss, weekAgo)|;
    var score := ProductivityScore(streak, recent, |top|);
    var monthlyData := MonthBarsAsWritten(ss, months);
    r := Ok(Report(Round(total), |ss|, 75 + 2 * |ss|, Round(weekly), Round(monthly), score,
                   streak, top, WeeklyData(ss, now), monthlyData));
  }
}

=== FILE: options.dfy ===
/** Optional values: the model's stand-in for Python's `None`, JavaScript's
    `null`/`undefined`, and for fields that a JSON payload may leave out. */
module Options {

  datatype Option<+T> = None | Some(value: T) {

    /** The value, or `default` when absent (`x if x is not None else d`). */
    function GetOr(default: T): T {
      match this
      case Some(v) => v
      case None => default
    }

    /** This value when present, else `other` (`x if x is not None else y`). */
    function Or(other: Option<T>): Option<T> {
      if this.Some? then this else other
    }
  }

  /** Truthiness of an optional string in both Python and JavaScript:
      absent and empty are falsy, everything else is truthy. */
  predicate Truthy(s: Option<string>) {
    s.Some? && s.value != ""
  }

  /** `s || d` / `s or d` for an optional string. */
  function OrElse(s: Option<string>, d: string): (r: string)
    ensures Truthy(s) ==> r == s.value
    ensures !Truthy(s) ==> r == d
  {
    if Truthy(s) then s.value else d
  }

  /** Index of the first element satisfying `p`. */
  function FirstWhere<T>(xs: seq<T>, p: T -> bool): (r: Option<nat>)
    ensures r.Some? ==> r.value < |xs| && p(xs[r.value]) && forall j :: 0 <= j < r.value ==> !p(xs[j])
    ensures r.None? ==> forall j :: 0 <= j < |xs| ==> !p(xs[j])
  {
    if xs == [] then None
    else if p(xs[0]) then Some(0)
    else match FirstWhere(xs[1..], p)
      case None => None
      case Some(i) => Some(i + 1)
  }
}

=== FILE: pkg_background.dfy ===
/** The packaged extension's background script
    (extension-package/background.js): the 32-bit hash that identifies a
    summarization request, the map of requests in flight that lets
    identical requests share one call, and `fetchFromApi`'s token and
    status rules. Cookies, timers and the network are inputs. */
module PkgBackground {
  import opened Options
  import opened Text

  // ---------------------------------------------------------------------
  // Request hash
  // ---------------------------------------------------------------------

  const Two31: int := 0x8000_0000
  const Two32: int := 0x1_0000_0000

  predicate IsInt32(x: int) {
    -Two31 <= x < Two31
  }

  /** ECMAScript ToInt32: the integer congruent to `x` modulo 2^32 in
      [-2^31, 2^31). */
  function ToInt32(x: int): (r: int)
    ensures IsInt32(r)
    ensures (r - x) % Two32 == 0
  {
    (x + Two31) % Two32 - Two31
  }

  /** One round of the loop: `hash = ((hash << 5) - hash) + char`, then
      `hash & hash`, which truncates to 32 bits. */
  function HashStep(h: int, c: char): (r: int)
    requires IsInt32(h)
    ensures IsInt32(r)
  {
    ToInt32(ToInt32(h * 32) - h + c as int)
  }

  /** The hash of a string, left to right from 0. */
  function HashOf(s: string): (r: int)
    ensures IsInt32(r)
  {
    if s == [] then 0 else HashStep(HashOf(s[..|s| - 1]), s[|s| - 1])
  }

  /** The round is the classic `h * 31 + c` in 32-bit arithmetic. */
  lemma HashStepIsTimes31(h: int, c: char)
    requires IsInt32(h)
    ensures HashStep(h, c) == ToInt32(31 * h + c as int)
  {
    var a := ToInt32(h * 32);
    assert (a - h * 32) % Two32 == 0;
    var x := a - h + c as int;
    var y := 31 * h + c as int;
    assert x - y == a - h * 32;
    ModShift(x, y);
  }

  /** Values congruent modulo 2^32 truncate alike. */
  lemma ModShift(x: int, y: int)
    requires (x - y) % Two32 == 0
    ensures ToInt32(x) == ToInt32(y)
  {
    var k := (x - y) / Two32;
    assert x == y + k * Two32;
    assert (x + Two31) % Two32 == (y + Two31 + k * Two32) % Two32;
    ModPeriodic(y + Two31, k);
  }

  lemma ModPeriodic(a: int, k: int)
    ensures (a + k * Two32) % Two32 == a % Two32
  {
  }

  /** The string that is hashed: at most 1000 characters of content, then
      the url and title, joined by '|', with missing values empty. */
  function HashInput(content: Option<string>, url: Option<string>, title: Option<string>): (r: string)
    ensures r == Take(content.GetOr(""), 1000) + "|" + OrElse(url, "") + "|" + OrElse(title, "")
  {
    Take(content.GetOr(""), 1000) + "|" + OrElse(url, "") + "|" + OrElse(title, "")
  }

  function Abs(x: int): nat {
    if x < 0 then -x else x
  }

  /** `generateRequestHash`: the decimal digits of the absolute value of
      the 32-bit hash of the combined input. */
  method GenerateRequestHash(content: Option<string>, url: Option<string>, title: Option<string>) returns (r: string)
    ensures r == NatToString(Abs(HashOf(HashInput(content, url, title))))
    ensures forall i :: 0 <= i < |r| ==> IsDigit(r[i])
    ensures DecimalValue(r) <= Two31
  {
    var combined := HashInput(content, url, title);
    var h := 0;
    var i := 0;
    while i < |combined|
      invariant 0 <= i <= |combined|
      invariant h == HashOf(combined[..i])
    {
      assert combined[..i + 1][..i] == combined[..i];
      h := HashStep(h, combined[i]);
      i := i + 1;
    }
    assert combined[..i] == combined;
    r := NatToString(Abs(h));
  }

  // ---------------------------------------------------------------------
  // Requests in flight
  // ---------------------------------------------------------------------

  /** Request hash to the number of the call whose promise it maps to. */
  type PendingMap = map<string, nat>

  /** The outcome of `handleSummarizationRequest` up to its first await:
      the new map, the call whose promise the caller receives, and whether
      a new call to the API started. */
  datatype Admission = Admission(pending: PendingMap, call: nat, started: bool)

  /** A request whose hash is pending joins that call; otherwise call
      number `next` starts and is registered. */
  function Admit(pending: PendingMap, hash: string, next: nat): (r: Admission)
    ensures hash in pending ==> r == Admission(pending, pending[hash], false)
    ensures hash !in pending ==> r == Admission(pending[hash := next], next, true)
  {
    if hash in pending then Admission(pending, pending[hash], false)
    else Admission(pending[hash := next], next, true)
  }

  /** The `finally` clause: a settled call leaves the map. */
  function Settle(pending: PendingMap, hash: string): (r: PendingMap)
    ensures hash !in r
    ensures forall k :: k != hash ==> (k in r <==> k in pending) && (k in r ==> r[k] == pending[k])
  {
    pending - {hash}
  }

  datatype Event = Request(hash: string, next: nat) | Settled(hash: string)

  /** Runs events in order; returns the final map and how many calls
      started. */
  function Run(pending: PendingMap, events: seq<Event>): (r: (PendingMap, nat))
    decreases |events|
  {
    if events == [] then (pending, 0)
    else match events[0]
      case Request(hash, next) =>
        var a := Admit(pending, hash, next);
        var rest := Run(a.pending, events[1..]);
        (rest.0, rest.1 + if a.started then 1 else 0)
      case Settled(hash) => Run(Settle(pending, hash), events[1..])
  }

  /** While a request with some hash is pending, any number of further
      requests with that hash start no call. */
  lemma {:induction false} DuplicatesShareCall(pending: PendingMap, events: seq<Event>, hash: string)
    requires hash in pending
    requires forall i :: 0 <= i < |events| ==> events[i].Request? && events[i].hash == hash
    ensures Run(pending, events) == (pending, 0)
    decreases |events|
  {
    if events != [] {
      assert events[0].Request? && events[0].hash == hash;
      DuplicatesShareCall(pending, events[1..], hash);
    }
  }

  /** A burst of identical requests starts exactly one call, and once it
      settles the next identical request starts a new one. */
  lemma BurstStartsOneCall(pending: PendingMap, events: seq<Event>, hash: string, next: nat)
    requires hash !in pending
    requires forall i :: 0 <= i < |events| ==> events[i].Request? && events[i].hash == hash
    ensures Run(pending, [Request(hash, next)] + events) == (pending[hash := next], 1)
    ensures Admit(Settle(pending[hash := next], hash), hash, next + 1).started
  {
    var all := [Request(hash, next)] + events;
    assert all[1..] == events;
    DuplicatesShareCall(pending[hash := next], events, hash);
  }

  // ---------------------------------------------------------------------
  // fetchFromApi
  // ---------------------------------------------------------------------

  datatype SummaryData = SummaryData(tldr: string, keyPoints: seq<string>)

  /** A JSON body: its `detail` field and, on success, the summary. */
  datatype Json = Json(detail: Option<string>, data: SummaryData)

  /** What `fetch` produced: a response (with its JSON body, or the parse
      error), an abort by the 35-second timer, or another rejection. */
  datatype Outcome =
    | Answered(status: nat, body: Option<Json>, parseError: string)
    | TimedOut
    | Rejected(message: string)

  datatype FetchResult = Data(data: SummaryData) | Failure(message: string)

  /** What `fetchFromApi` did: whether it sent the request, the
      Authorization header it attached, and the result. */
  datatype FetchStep = FetchStep(sent: bool, authorization: Option<string>, result: FetchResult)

  /** The token actually used: the one provided, else the session cookie. */
  function EffectiveToken(provided: Option<string>, cookie: Option<string>): (r: Option<string>)
    ensures Truthy(provided) ==> r == provided
    ensures !Truthy(provided) ==> r == cookie
  {
    if Truthy(provided) then provided else cookie
  }

  /** The message for a non-OK status. */
  function StatusMessage(status: nat, body: Option<Json>): (m: string)
    ensures status == 401 ==> m == "Authentication failed. Please log in again."
    ensures status == 429 ==> m == "Daily summary limit reached!"
    ensures status != 401 && status != 429 && body.Some? && Truthy(body.value.detail) ==> m == body.value.detail.value
    ensures status != 401 && status != 429 && !(body.Some? && Truthy(body.value.detail)) ==> m == "API error " + NatToString(status)
  {
    if status == 401 then "Authentication failed. Please log in again."
    else if status == 429 then "Daily summary limit reached!"
    else if body.Some? && Truthy(body.value.detail) then body.value.detail.value
    else "API error " + NatToString(status)
  }

  /** `fetchFromApi(url, 'POST', body, providedToken)`. */
  function FetchFromApi(url: string, provided: Option<string>, cookie: Option<string>, outcome: Outcome): (r: FetchStep)
    ensures var token := EffectiveToken(provided, cookie);
            && (!Truthy(token) && Contains(url, "/summarize") ==>
                  r == FetchStep(false, None, Failure("Authentication required. Please log in on Tildra.")))
            && (r.sent ==> (r.authorization.Some? <==> Truthy(token)))
            && (r.authorization.Some? ==> token.Some? && r.authorization.value == "Bearer " + token.value)
    ensures r.sent <==> Truthy(EffectiveToken(provided, cookie)) || !Contains(url, "/summarize")
    ensures r.result.Data? <==> r.sent && outcome.Answered? && 200 <= outcome.status <= 299 && outcome.body.Some?
    ensures r.result.Data? ==> r.result.data == outcome.body.value.data
    ensures r.sent && outcome.Rejected? ==> r.result == Failure(outcome.message)
    ensures r.sent && outcome.Answered? && 200 <= outcome.status <= 299 && outcome.body.None? ==>
              r.result == Failure(outcome.parseError)
    ensures r.sent && outcome.TimedOut? ==> r.result == Failure("Request timed out after 35 seconds. Please try again.")
    ensures r.sent && outcome.Answered? && !(200 <= outcome.status <= 299) ==>
              r.result == Failure(StatusMessage(outcome.status, outcome.body))
  {
    var token := EffectiveToken(provided, cookie);
    if !Truthy(token) && Contains(url, "/summarize") then
      FetchStep(false, None, Failure("Authentication required. Please log in on Tildra."))
    else
      var auth := if Truthy(token) then Some("Bearer " + token.value) else None;
      var result := match outcome
        case TimedOut => Failure("Request timed out after 35 seconds. Please try again.")
        case Rejected(message) => Failure(message)
        case Answered(status, body, parseError) =>
          if !(200 <= status <= 299) then Failure(StatusMessage(status, body))
          else if body.Some? then Data(body.value.data)
          else Failure(parseError);
      FetchStep(true, auth, result)
  }

  const SummarizeUrl: string := "https://tildra.fly.dev/summarize"

  /** The reply to `summarizeAPI` once the shared call settles; an empty
      error message is replaced by a generic one. */
  datatype Reply = Reply(success: bool, summaryData: Option<SummaryData>, error: string)

  function ReplyFor(tabId: Option<int>, result: FetchResult): (r: Reply)
    ensures tabId.None? || tabId == Some(0) ==> r == Reply(false, None, "Tab ID missing.")
    ensures tabId.Some? && tabId != Some(0) ==> (r.success <==> result.Data?)
    ensures tabId.Some? && tabId != Some(0) && result.Failure? ==> r.error != ""
    ensures tabId.Some? && tabId != Some(0) && result.Data? ==> r == Reply(true, Some(result.data), "")
    ensures tabId.Some? && tabId != Some(0) && result.Failure? ==>
              r == Reply(false, None, if result.message == "" then "API call failed" else result.message)
  {
    if tabId.None? || tabId == Some(0) then Reply(false, None, "Tab ID missing.")
    else match result
      case Data(d) => Reply(true, Some(d), "")
      case Failure(m) => Reply(false, None, if m == "" then "API call failed" else m)
  }

  /** Without any token the summarize endpoint is never contacted. */
  lemma NoTokenNoRequest(provided: Option<string>, cookie: Option<string>, outcome: Outcome)
    requires !Truthy(provided) && !Truthy(cookie)
    ensures !FetchFromApi(SummarizeUrl, provided, cookie, outcome).sent
  {
    assert SummarizeUrl == "https://tildra.fly.dev" + "/summarize" + "";
    ContainsSelf("/summarize");
    ContainsInfix("https://tildra.fly.dev", "/summarize", "", "/summarize");
  }
}

=== FILE: pkg_popup.dfy ===
/** The packaged extension's popup (extension-package/popup.js): the
    content the injected extractor returns, the checks before the text is
    sent, its truncation by summary length, the word count shown with a
    summary, and the 100-entry history. Tabs, scripting, storage and the
    page's DOM are inputs. */
module PkgPopup {
  import opened Options
  import opened Text
  import opened Histories
  import opened Popup

  // ---------------------------------------------------------------------
  // Content extraction (`getArticleContent`, injected into the page)
  // ---------------------------------------------------------------------

  const ReadabilityCap: nat := 10000
  const FallbackCap: nat := 8000
  const SelectorMinLength: nat := 200

  /** What Readability did with the page: returned an article text (None
      when it returned nothing or an empty text), or threw. */
  datatype ParseOutcome = Parsed(text: Option<string>) | Threw(message: string)

  /** The page as the extractor sees it: whether the Readability library
      loaded, what parsing gave, the `innerText` of the first element
      matching each of 'main', 'article', '[role="main"]', '.content' and
      '.post-content' (None when nothing matches), and the body's text. */
  datatype Page = Page(readabilityLoaded: bool, parse: ParseOutcome,
                       selectorTexts: seq<Option<string>>, body: Option<string>)

  /** The extractor's reply: an error message (or none) and the content. */
  datatype Extraction = Extraction(error: Option<string>, content: Option<string>)

  /** The text of the first selector whose untrimmed text is longer than
      200 characters, trimmed. */
  function FirstLongSelector(texts: seq<Option<string>>): (r: Option<string>)
    ensures r.Some? ==> exists i :: 0 <= i < |texts| && texts[i].Some? && |texts[i].value| > SelectorMinLength && r.value == Trim(texts[i].value)
    ensures r.None? ==> forall i :: 0 <= i < |texts| ==> texts[i].None? || |texts[i].value| <= SelectorMinLength
  {
    if texts == [] then None
    else if texts[0].Some? && |texts[0].value| > SelectorMinLength then Some(Trim(texts[0].value))
    else
      var rest := FirstLongSelector(texts[1..]);
      assert forall i :: 1 <= i < |texts| ==> texts[i] == texts[1..][i - 1];
      rest
  }

  function BodyText(page: Page): (r: string)
    ensures page.body.None? ==> r == ""
    ensures page.body.Some? ==> r == Trim(page.body.value)
  {
    if page.body.Some? then Trim(page.body.value) else ""
  }

  /** Where the fallback text comes from: a long selector's text when it
      is not empty after trimming, else the body's. */
  function FallbackSource(page: Page): (r: string)
    ensures var chosen := FirstLongSelector(page.selectorTexts);
            r == if chosen.Some? && chosen.value != "" then chosen.value else BodyText(page)
  {
    var chosen := FirstLongSelector(page.selectorTexts);
    if chosen.Some? && chosen.value != "" then chosen.value else BodyText(page)
  }

  /** The content used when Readability does not deliver, capped at 8000
      characters. */
  function FallbackContent(page: Page): (r: string)
    ensures |r| <= FallbackCap && |r| <= |FallbackSource(page)|
    ensures r == FallbackSource(page)[..|r|]
    ensures |FallbackSource(page)| <= FallbackCap ==> r == FallbackSource(page)
  {
    Take(FallbackSource(page), FallbackCap)
  }

  /** `getArticleContent`. */
  function ExtractContent(page: Page): (r: Extraction)
    ensures !page.readabilityLoaded ==> r == Extraction(Some("Readability library could not be loaded/injected."), None)
    ensures r.error.None? <==> page.readabilityLoaded && page.parse.Parsed? && Truthy(page.parse.text)
    ensures r.error.None? ==>
              r.content.Some? && |r.content.value| <= ReadabilityCap
              && |r.content.value| <= |Trim(page.parse.text.value)|
              && r.content.value == Trim(page.parse.text.value)[..|r.content.value|]
    ensures page.readabilityLoaded && page.parse.Parsed? && !Truthy(page.parse.text) ==>
              r == Extraction(Some("Readability could not parse effectively."), Some(FallbackContent(page)))
    ensures page.readabilityLoaded && page.parse.Threw? ==>
              r == Extraction(Some("Readability parsing failed: " + page.parse.message), Some(Take(BodyText(page), FallbackCap)))
  {
    if !page.readabilityLoaded then Extraction(Some("Readability library could not be loaded/injected."), None)
    else match page.parse
      case Threw(message) =>
        Extraction(Some("Readability parsing failed: " + message), Some(Take(BodyText(page), FallbackCap)))
      case Parsed(text) =>
        if Truthy(text) then Extraction(None, Some(Take(Trim(text.value), ReadabilityCap)))
        else Extraction(Some("Readability could not parse effectively."), Some(FallbackContent(page)))
  }

  // ---------------------------------------------------------------------
  // The summarize button, up to the message to the background script
  // ---------------------------------------------------------------------

  datatype SummaryLength = Brief | Standard | Detailed

  /** The characters of page text sent for each summary length. */
  function SendLimit(length: SummaryLength): (n: nat)
    ensures n <= FallbackCap
  {
    match length
    case Brief => 4000
    case Standard => 6000
    case Detailed => 8000
  }

  /** The text actually sent: a prefix of the article within the limit. */
  function Truncate(articleText: string, length: SummaryLength): (r: string)
    ensures |r| <= SendLimit(length) && |r| <= |articleText|
    ensures r == articleText[..|r|]
    ensures |articleText| <= SendLimit(length) ==> r == articleText
  {
    Take(articleText, SendLimit(length))
  }

  /** Shorter summaries never receive more text. */
  lemma TruncationMonotone(articleText: string)
    ensures |Truncate(articleText, Brief)| <= |Truncate(articleText, Standard)| <= |Truncate(articleText, Detailed)|
    ensures Truncate(articleText, Brief) == Truncate(articleText, Standard)[..|Truncate(articleText, Brief)|]
  {
  }

  datatype Tab = Tab(id: int, url: Option<string>, title: Option<string>)

  /** What the injection produced. */
  datatype Injection = NoResults | InjectionError(message: string) | Injected(extraction: Extraction)

  /** The click either stops with an error or sends `summarizeAPI`. */
  datatype Click = Refused(message: string) | Sent(textContent: string, title: string, token: string)

  const ProtectedPageMessage: string :=
    "Cannot summarize this page. Please navigate to a regular webpage (news article, blog post, etc.) and try again."

  /** The click handler's checks, in order, and the message it sends. */
  function SummarizeClick(tab: Option<Tab>, token: Option<string>, injection: Injection, length: SummaryLength): (r: Click)
    ensures tab.None? || tab.value.id == 0 ==> r == Refused("Could not get current tab info.")
    ensures r.Sent? ==>
              && tab.Some? && tab.value.id != 0
              && !IsProtectedPage(tab.value.url)
              && Truthy(token) && r.token == token.value
              && injection.Injected? && injection.extraction.error.None?
              && injection.extraction.content.Some?
              && |Trim(injection.extraction.content.value)| >= MinContentLength
              && r.textContent == Truncate(injection.extraction.content.value, length)
              && r.title == OrElse(tab.value.title, "Untitled Page")
    ensures (tab.Some? && tab.value.id != 0 && !IsProtectedPage(tab.value.url) && Truthy(token)
             && injection.Injected? && injection.extraction.error.None?
             && ContentError(injection.extraction.content).None?) ==> r.Sent?
  {
    if tab.None? || tab.value.id == 0 then Refused("Could not get current tab info.")
    else if IsProtectedPage(tab.value.url) then
      Refused(ProtectedPageMessage)
    else if !Truthy(token) then Refused("Please log in to tildra.xyz first.")
    else match injection
      case NoResults => Refused("No injection results received")
      case InjectionError(message) => Refused(message)
      case Injected(extraction) =>
        if extraction.error.Some? then Refused(extraction.error.value)
        else match ContentError(extraction.content)
          case Some(message) => Refused(message)
          case None => Sent(Truncate(extraction.content.value, length), OrElse(tab.value.title, "Untitled Page"), token.value)
  }

  /** The extractor attaches an error to its fallback content, and the
      click handler stops on any error: fallback content is never sent. */
  lemma FallbackNeverSent(tab: Option<Tab>, token: Option<string>, page: Page, length: SummaryLength)
    requires !(page.readabilityLoaded && page.parse.Parsed? && Truthy(page.parse.text))
    ensures SummarizeClick(tab, token, Injected(ExtractContent(page)), length).Refused?
  {
  }

  /** Whatever the page, at most 8000 characters leave the popup. */
  lemma SentTextBounded(tab: Option<Tab>, token: Option<string>, page: Page, length: SummaryLength)
    ensures var c := SummarizeClick(tab, token, Injected(ExtractContent(page)), length);
            c.Sent? ==> |c.textContent| <= FallbackCap && MinContentLength <= |ExtractContent(page).content.value| <= ReadabilityCap
  {
    var c := SummarizeClick(tab, token, Injected(ExtractContent(page)), length);
    if c.Sent? {
      var content := ExtractContent(page).content.value;
      assert |Trim(content)| <= |content|;
    }
  }

  // ---------------------------------------------------------------------
  // Word count and history
  // ---------------------------------------------------------------------

  /** The "~N words" label: the space-separated pieces of the TL;DR and
      of every key point. */
  function WordCount(tldr: string, points: seq<string>): (n: nat)
    ensures n >= 1 + |points|
    ensures n == CountChar(tldr, ' ') + 1 + PointWords(points)
  {
    Words(tldr) + PointWords(points)
  }

  /** The reading-time label and the word-count label agree: the minutes
      shown are the words shown at 200 a minute, rounded up. */
  lemma ReadingTimeMatchesWordCount(tldr: string, points: seq<string>)
    ensures WordCount(tldr, points) <= ReadingTime(tldr, points) * WordsPerMinute
    ensures ReadingTime(tldr, points) == 1 || (ReadingTime(tldr, points) - 1) * WordsPerMinute < WordCount(tldr, points)
  {
  }

  const MaxPackageHistory: nat := 100

  datatype HistoryItem = HistoryItem(id: string, title: string, summary: string, keyPoints: seq<string>,
                                     url: Option<string>, timestamp: string)

  /** The item saved after a successful summary: the title falls back to
      the URL, then to 'Untitled'. */
  function NewItem(id: string, tab: Tab, tldr: string, points: seq<string>, isoTime: string): (r: HistoryItem)
    ensures Truthy(tab.title) ==> r.title == tab.title.value
    ensures !Truthy(tab.title) && Truthy(tab.url) ==> r.title == tab.url.value
    ensures !Truthy(tab.title) && !Truthy(tab.url) ==> r.title == "Untitled"
    ensures r.summary == tldr && r.keyPoints == points && r.url == tab.url && r.id == id
  {
    HistoryItem(id, OrElse(tab.title, OrElse(tab.url, "Untitled")), tldr, points, tab.url, isoTime)
  }

  /** `[newHistoryItem, ...existingHistory].slice(0, 100)`. */
  function SaveToHistory(existing: seq<HistoryItem>, item: HistoryItem): (r: seq<HistoryItem>)
    ensures |r| == if |existing| < MaxPackageHistory then |existing| + 1 else MaxPackageHistory
    ensures r[0] == item
    ensures forall i :: 1 <= i < |r| ==> r[i] == existing[i - 1]
  {
    PrependCapped(existing, item, MaxPackageHistory)
  }

  /** After any run of summaries the history holds the newest hundred,
      newest first. */
  lemma HistoryKeepsNewest(existing: seq<HistoryItem>, items: seq<HistoryItem>)
    requires |existing| <= MaxPackageHistory
    ensures AddAll(existing, items, MaxPackageHistory) == Take(Rev(items) + existing, MaxPackageHistory)
    ensures |AddAll(existing, items, MaxPackageHistory)| <= MaxPackageHistory
  {
    AddAllKeepsNewest(existing, items, MaxPackageHistory);
  }
}

=== FILE: popup.dfy ===
/** The extension popup (extension/popup.js): which pages it refuses to
    summarize, the reading-time estimate, the minimum-content check, the
    relative dates in the history list, deleting entries and exporting
    the history as text. Tabs, storage and the DOM are inputs. */
module Popup {
  import opened Options
  import opened Text
  import opened ExtBackground

  // ---------------------------------------------------------------------
  // Protected pages
  // ---------------------------------------------------------------------

  /** The URL prefixes of pages a content script cannot run on. */
  const ProtectedSchemes: seq<string> := [
    "chrome://", "chrome-extension://", "chrome-search://", "chrome-devtools://",
    "moz-extension://", "about:", "edge://", "opera://", "brave://", "file:///"]

  /** `isProtectedPage`: a missing or empty URL, or one with a protected
      prefix. */
  predicate IsProtectedPage(url: Option<string>) {
    !Truthy(url) || exists i :: 0 <= i < |ProtectedSchemes| && StartsWith(url.value, ProtectedSchemes[i])
  }

  /** No protected prefix starts with 'h', so every http and https page
      may be summarized. */
  lemma WebPagesNotProtected(url: string)
    requires |url| > 0 && url[0] == 'h'
    ensures !IsProtectedPage(Some(url))
  {
    forall i | 0 <= i < |ProtectedSchemes|
      ensures !StartsWith(url, ProtectedSchemes[i])
    {
      assert ProtectedSchemes[i][0] != 'h';
    }
  }

  /** A protected prefix is enough, whatever follows it. */
  lemma ProtectedByPrefix(url: string, i: nat)
    requires i < |ProtectedSchemes| && StartsWith(url, ProtectedSchemes[i])
    ensures IsProtectedPage(Some(url))
  {
    assert ProtectedSchemes[i] != [];
    assert url != [];
  }

  // ---------------------------------------------------------------------
  // Reading time
  // ---------------------------------------------------------------------

  const WordsPerMinute: nat := 200

  /** `text.split(' ').length`: runs of spaces and empty text still count
      as words. */
  function Words(s: string): (n: nat)
    ensures n == CountChar(s, ' ') + 1
  {
    SplitCount(s, ' ');
    |Split(s, ' ')|
  }

  function PointWords(points: seq<string>): (n: nat)
    ensures n >= |points|
  {
    if points == [] then 0 else Words(points[0]) + PointWords(points[1..])
  }

  /** `calculateReadingTime`: whole minutes at 200 words a minute, rounded
      up, at least one. */
  function ReadingTime(tldr: string, points: seq<string>): (r: nat)
    ensures var words := Words(tldr) + PointWords(points);
            && r >= 1
            && words <= r * WordsPerMinute
            && (r == 1 || (r - 1) * WordsPerMinute < words)
  {
    var words := Words(tldr) + PointWords(points);
    Max(1, (words + WordsPerMinute - 1) / WordsPerMinute)
  }

  function Max(a: nat, b: nat): nat {
    if a < b then b else a
  }

  /** Each key point adds at least a word, so many points take longer. */
  lemma {:induction false} ReadingTimeGrowsWithPoints(tldr: string, points: seq<string>)
    requires |points| >= WordsPerMinute
    ensures ReadingTime(tldr, points) >= 2
  {
    assert Words(tldr) + PointWords(points) > WordsPerMinute;
  }

  // ---------------------------------------------------------------------
  // Minimum content
  // ---------------------------------------------------------------------

  const MinContentLength: nat := 50

  /** The check before any message goes to the background script: the
      error to show, or none. */
  function ContentError(articleText: Option<string>): (r: Option<string>)
    ensures r.None? <==> articleText.Some? && |Trim(articleText.value)| >= MinContentLength
    ensures r.Some? ==> r.value == "Not enough content found to summarize."
  {
    if !Truthy(articleText) || |Trim(articleText.value)| < MinContentLength then
      Some("Not enough content found to summarize.")
    else None
  }

  /** Text shorter than the minimum is refused whatever its spacing. */
  lemma ShortTextRefused(articleText: string)
    requires |articleText| < MinContentLength
    ensures ContentError(Some(articleText)).Some?
  {
  }

  // ---------------------------------------------------------------------
  // Relative dates
  // ---------------------------------------------------------------------

  const MinuteMs: int := 60_000
  const HourMs: int := 3_600_000
  const DayMs: int := 86_400_000

  datatype Unit = Minutes | Hours | Days

  /** What `formatDate` shows: a count with a unit, or the locale date. */
  datatype Ago = Ago(n: int, unit: Unit) | LocaleDate

  /** The choice `formatDate` makes for an age in milliseconds (negative
      for dates in the future), with the floors of `Math.floor`. */
  function Classify(diffMs: int): (r: Ago)
    ensures r.Ago? && r.unit == Minutes <==> diffMs < HourMs
    ensures r.Ago? && r.unit == Hours <==> HourMs <= diffMs < DayMs
    ensures r.Ago? && r.unit == Days <==> DayMs <= diffMs < 7 * DayMs
    ensures r.LocaleDate? <==> diffMs >= 7 * DayMs
    ensures r.Ago? && r.unit == Minutes ==> r.n < 60 && r.n * MinuteMs <= diffMs < (r.n + 1) * MinuteMs
    ensures r.Ago? && r.unit == Hours ==> 1 <= r.n < 24 && r.n * HourMs <= diffMs < (r.n + 1) * HourMs
    ensures r.Ago? && r.unit == Days ==> 1 <= r.n < 7 && r.n * DayMs <= diffMs < (r.n + 1) * DayMs
  {
    var mins := diffMs / MinuteMs;
    var hours := diffMs / HourMs;
    var days := diffMs / DayMs;
    if mins < 60 then Ago(mins, Minutes)
    else if hours < 24 then Ago(hours, Hours)
    else if days < 7 then Ago(days, Days)
    else LocaleDate
  }

  function Suffix(u: Unit): string {
    match u
    case Minutes => "m ago"
    case Hours => "h ago"
    case Days => "d ago"
  }

  /** `formatDate`, given the age and the locale's rendering of the date. */
  function FormatDate(diffMs: int, localeDate: string): (r: string)
    ensures Classify(diffMs).LocaleDate? ==> r == localeDate
    ensures Classify(diffMs).Ago? ==> r == IntToString(Classify(diffMs).n) + Suffix(Classify(diffMs).unit)
  {
    match Classify(diffMs)
    case LocaleDate => localeDate
    case Ago(n, unit) => IntToString(n) + Suffix(unit)
  }

  /** A summary made within the last minute shows "0m ago". */
  lemma JustNow(diffMs: int, localeDate: string)
    requires 0 <= diffMs < MinuteMs
    ensures FormatDate(diffMs, localeDate) == "0m ago"
  {
    assert Classify(diffMs) == Ago(0, Minutes);
  }

  // ---------------------------------------------------------------------
  // Delete and export
  // ---------------------------------------------------------------------

  /** The delete button: every entry whose id differs from `id`, in
      order. */
  function DeleteEntry(history: seq<HistoryEntry>, id: string): (r: seq<HistoryEntry>)
    ensures |r| <= |history|
    ensures forall e :: e in r <==> e in history && e.id != id
  {
    if history == [] then []
    else if history[0].id != id then [history[0]] + DeleteEntry(history[1..], id)
    else DeleteEntry(history[1..], id)
  }

  /** Deletion works piecewise, so the survivors keep their order. */
  lemma {:induction false} DeleteConcat(a: seq<HistoryEntry>, b: seq<HistoryEntry>, id: string)
    ensures DeleteEntry(a + b, id) == DeleteEntry(a, id) + DeleteEntry(b, id)
    decreases |a|
  {
    if a != [] {
      assert (a + b)[1..] == a[1..] + b;
      DeleteConcat(a[1..], b, id);
    } else {
      assert a + b == b;
    }
  }

  /** An id that is not in the list deletes nothing, and deleting twice
      is deleting once. */
  lemma {:induction false} DeleteAbsentAndTwice(history: seq<HistoryEntry>, id: string)
    ensures (forall i :: 0 <= i < |history| ==> history[i].id != id) ==> DeleteEntry(history, id) == history
    ensures DeleteEntry(DeleteEntry(history, id), id) == DeleteEntry(history, id)
    decreases |history|
  {
    if history != [] {
      DeleteAbsentAndTwice(history[1..], id);
      if history[0].id != id {
        var rest := DeleteEntry(history[1..], id);
        assert ([history[0]] + rest)[0] == history[0];
        assert ([history[0]] + rest)[1..] == rest;
      }
    }
  }

  /** The `- point` lines of one entry. */
  function PointLines(points: seq<string>): (r: string)
    ensures points == [] ==> r == ""
  {
    if points == [] then "" else "- " + points[0] + "\n" + PointLines(points[1..])
  }

  /** One exported entry: the labelled fields, the points, a separator. */
  function EntryBlock(e: HistoryEntry): (r: string)
    ensures StartsWith(r, "Title: " + e.title + "\nDate: " + e.timestamp + "\nURL: " + e.url + "\n")
    ensures |r| >= 6 && r[|r| - 6..] == "\n---\n\n"
  {
    "Title: " + e.title + "\nDate: " + e.timestamp + "\nURL: " + e.url + "\nTL;DR: " + e.summary
      + "\nKey Points:\n" + PointLines(e.keyPoints) + "\n---\n\n"
  }

  /** The entries' blocks in history order. */
  function Blocks(history: seq<HistoryEntry>): (r: seq<string>)
    ensures |r| == |history|
    ensures forall i :: 0 <= i < |history| ==> r[i] == EntryBlock(history[i])
  {
    seq(|history|, i requires 0 <= i < |history| => EntryBlock(history[i]))
  }

  /** Strings joined end to end, left to right. */
  function Flatten(parts: seq<string>): (r: string)
    ensures parts == [] ==> r == ""
  {
    if parts == [] then "" else Flatten(parts[..|parts| - 1]) + parts[|parts| - 1]
  }

  lemma {:induction false} FlattenConcat(a: seq<string>, b: seq<string>)
    ensures Flatten(a + b) == Flatten(a) + Flatten(b)
    decreases |b|
  {
    if b == [] {
      assert a + b == a;
    } else {
      var c := a + b;
      var init := b[..|b| - 1];
      assert c[..|c| - 1] == a + init;
      assert c[|c| - 1] == b[|b| - 1];
      FlattenConcat(a, init);
    }
  }

  /** The exported file. */
  function ExportText(history: seq<HistoryEntry>): (r: string)
    ensures history == [] ==> r == ""
  {
    Flatten(Blocks(history))
  }

  /** Exporting two histories one after the other is exporting both. */
  lemma ExportConcat(a: seq<HistoryEntry>, b: seq<HistoryEntry>)
    ensures ExportText(a + b) == ExportText(a) + ExportText(b)
  {
    assert Blocks(a + b) == Blocks(a) + Blocks(b);
    FlattenConcat(Blocks(a), Blocks(b));
  }

  /** Every key point of every entry appears in the export on a line of
      its own, after "- ". */
  lemma ExportListsPoint(history: seq<HistoryEntry>, i: nat, k: nat)
    requires i < |history| && k < |history[i].keyPoints|
    ensures Contains(ExportText(history), "- " + history[i].keyPoints[k] + "\n")
  {
    var e := history[i];
    BlockListsPoint(e, k);
    ExportAround(history, i);
    ContainsInfix(ExportText(history[..i]), EntryBlock(e), ExportText(history[i + 1..]), "- " + e.keyPoints[k] + "\n");
  }

  lemma BlockListsPoint(e: HistoryEntry, k: nat)
    requires k < |e.keyPoints|
    ensures Contains(EntryBlock(e), "- " + e.keyPoints[k] + "\n")
  {
    PointLineIn(e.keyPoints, k);
    var pre := "Title: " + e.title + "\nDate: " + e.timestamp + "\nURL: " + e.url + "\nTL;DR: " + e.summary + "\nKey Points:\n";
    ContainsInfix(pre, PointLines(e.keyPoints), "\n---\n\n", "- " + e.keyPoints[k] + "\n");
  }

  /** The export is what comes before an entry, its block, and what comes
      after. */
  lemma ExportAround(history: seq<HistoryEntry>, i: nat)
    requires i < |history|
    ensures ExportText(history) == ExportText(history[..i]) + EntryBlock(history[i]) + ExportText(history[i + 1..])
  {
    var e := history[i];
    var pre, post := history[..i], history[i + 1..];
    assert history == (pre + [e]) + post;
    ExportConcat(pre + [e], post);
    ExportConcat(pre, [e]);
    ExportOne(e);
  }

  lemma ExportOne(e: HistoryEntry)
    ensures ExportText([e]) == EntryBlock(e)
  {
    assert Blocks([e]) == [EntryBlock(e)];
    assert Flatten([EntryBlock(e)]) == Flatten([]) + EntryBlock(e);
  }

  lemma {:induction false} PointLineIn(points: seq<string>, k: nat)
    requires k < |points|
    ensures Contains(PointLines(points), "- " + points[k] + "\n")
    decreases k
  {
    var line := "- " + points[0] + "\n";
    if k == 0 {
      ContainsSelf(line);
      ContainsInfix("", line, PointLines(points[1..]), line);
      assert "" + line + PointLines(points[1..]) == PointLines(points);
    } else {
      PointLineIn(points[1..], k - 1);
      ContainsInfix(line, PointLines(points[1..]), "", "- " + points[k] + "\n");
      assert line + PointLines(points[1..]) + "" == PointLines(points);
    }
  }

  /** The export button's loop, appending each entry's block to the text. */
  method BuildExport(history: seq<HistoryEntry>) returns (txt: string)
    ensures txt == ExportText(history)
  {
    txt := "";
    var i := 0;
    while i < |history|
      invariant 0 <= i <= |history|
      invariant txt == ExportText(history[..i])
    {
      var blocks := Blocks(history[..i + 1]);
      assert blocks[..i] == Blocks(history[..i]);
      assert blocks[i] == EntryBlock(history[i]);
      txt := txt + EntryBlock(history[i]);
      i := i + 1;
    }
    assert history[..i] == history;
  }
}

=== FILE: popup_simple.dfy ===
/** The simplified extension popup (extension/popup-simple.js): the
    button loading state, the 50-entry history, the direct call to the
    summarize endpoint with its status handling and the fallback parsing of
    a plain-text summary, the résumé tailoring hints and the résumé file
    check. Storage, the DOM and the network are inputs. */
module PopupSimple {
  import opened Options
  import opened Text
  import opened Histories

  // ---------------------------------------------------------------------
  // Button state
  // ---------------------------------------------------------------------

  /** A button: disabled flag, caption, the caption saved while loading
      (`dataset.originalText`) and its opacity. */
  datatype Button = Button(disabled: bool, text: string, originalText: Option<string>, opacity: string)

  /** `setButtonState(button, loading, text)`. */
  function SetButtonState(b: Button, loading: bool, caption: string): (r: Button)
    ensures loading ==> r.disabled && r.originalText == Some(b.text) && r.opacity == "0.7"
    ensures loading && caption != "" ==> r.text == caption
    ensures loading && caption == "" ==> r.text == "Processing..."
    ensures !loading ==> !r.disabled && r.originalText == b.originalText && r.opacity == "1"
    ensures !loading ==> r.text == OrElse(b.originalText, b.text)
  {
    if loading then Button(true, if caption != "" then caption else "Processing...", Some(b.text), "0.7")
    else Button(false, OrElse(b.originalText, b.text), b.originalText, "1")
  }

  /** Loading then unloading gives the caption back and re-enables the
      button, unless the caption was empty. */
  lemma LoadingRoundTrip(b: Button, caption: string)
    requires b.text != ""
    ensures var after := SetButtonState(SetButtonState(b, true, caption), false, "");
            after.text == b.text && !after.disabled && after.opacity == "1"
  {
  }

  /** Loading twice overwrites the saved caption with the loading caption, so
      unloading then shows the loading caption. */
  lemma DoubleLoadLosesLabel(b: Button, caption: string)
    requires caption != ""
    ensures SetButtonState(SetButtonState(SetButtonState(b, true, caption), true, caption), false, "").text == caption
  {
  }

  // ---------------------------------------------------------------------
  // History
  // ---------------------------------------------------------------------

  const MaxSimpleHistory: nat := 50

  /** `saveToHistory`: `unshift` then `splice(50)`. */
  function SaveToHistory<T>(history: seq<T>, item: T): (r: seq<T>)
    ensures |r| == if |history| < MaxSimpleHistory then |history| + 1 else MaxSimpleHistory
    ensures r[0] == item
    ensures forall i :: 1 <= i < |r| ==> r[i] == history[i - 1]
  {
    PrependCapped(history, item, MaxSimpleHistory)
  }

  /** Saved one at a time, the history is the newest fifty, newest first. */
  lemma SimpleHistoryKeepsNewest<T>(history: seq<T>, items: seq<T>)
    requires |history| <= MaxSimpleHistory
    ensures AddAll(history, items, MaxSimpleHistory) == Take(Rev(items) + history, MaxSimpleHistory)
  {
    AddAllKeepsNewest(history, items, MaxSimpleHistory);
  }

  // ---------------------------------------------------------------------
  // Fallback parsing of a plain-text summary
  // ---------------------------------------------------------------------

  /** The lines of a text that are not blank. */
  function NonBlank(lines: seq<string>): (r: seq<string>)
    ensures |r| <= |lines|
    ensures forall i :: 0 <= i < |r| ==> Trim(r[i]) != "" && r[i] in lines
  {
    if lines == [] then []
    else if Trim(lines[0]) != "" then [lines[0]] + NonBlank(lines[1..])
    else NonBlank(lines[1..])
  }

  function Lines(text: string): (r: seq<string>)
    ensures forall i :: 0 <= i < |r| ==> Trim(r[i]) != ""
  {
    NonBlank(Split(text, '\n'))
  }

  predicate IsTldrLine(line: string) {
    Contains(Lower(line), "tl;dr") || Contains(Lower(line), "summary:")
  }

  /** Length of the label `/^(tl;dr:?|summary:?)/i` matches, 0 if none. */
  function LabelLength(line: string): (k: nat)
    ensures k <= |line|
    ensures k > 0 ==> StartsWith(Lower(line), "tl;dr") || StartsWith(Lower(line), "summary")
  {
    if StartsWith(Lower(line), "tl;dr") then (if |line| > 5 && line[5] == ':' then 6 else 5)
    else if StartsWith(Lower(line), "summary") then (if |line| > 7 && line[7] == ':' then 8 else 7)
    else 0
  }

  /** `line.replace(/^(tl;dr:?|summary:?)\s*\/i, '')`. */
  function StripLabel(line: string): (r: string)
    ensures LabelLength(line) == 0 ==> r == line
    ensures LabelLength(line) > 0 ==> r == TrimStart(line[LabelLength(line)..])
  {
    var k := LabelLength(line);
    if k == 0 then line else TrimStart(line[k..])
  }

  /** The TL;DR: the first labelled line without its label, else the first
      line, else a placeholder. */
  function FallbackTldr(lines: seq<string>): (r: string)
    ensures lines == [] ==> r == "Summary unavailable"
    ensures var i := FirstWhere(lines, IsTldrLine);
            && (i.Some? && StripLabel(lines[i.value]) != "" ==> r == StripLabel(lines[i.value]))
            && (lines != [] && (i.None? || StripLabel(lines[i.value]) == "") ==> r == lines[0])
  {
    var i := FirstWhere(lines, IsTldrLine);
    if i.Some? && StripLabel(lines[i.value]) != "" then StripLabel(lines[i.value])
    else if lines != [] then lines[0]
    else "Summary unavailable"
  }

  /** The bullet "•" as the script's source spells it: its UTF-8 bytes read
      as Mac Roman. */
  const Bullet: string := "‚Ä¢"

  /** Number of leading digits. */
  function DigitRun(t: string): (n: nat)
    ensures n <= |t|
    ensures forall i :: 0 <= i < n ==> IsDigit(t[i])
    ensures n < |t| ==> !IsDigit(t[n])
  {
    if t != [] && IsDigit(t[0]) then 1 + DigitRun(t[1..]) else 0
  }

  /** `/^\d+\./`. */
  predicate Numbered(t: string) {
    var n := DigitRun(t);
    n >= 1 && n < |t| && t[n] == '.'
  }

  /** A key-point line: its trimmed text starts with the bullet, '-', '*',
      or a number and a dot. */
  predicate IsPointLine(line: string) {
    var t := Trim(line);
    StartsWith(t, Bullet) || StartsWith(t, "-") || StartsWith(t, "*") || Numbered(t)
  }

  /** The characters of `/^[‚Ä¢\-*\d\.]/`. */
  predicate InMarkerClass(c: char) {
    c == '‚' || c == 'Ä' || c == '¢' || c == '-' || c == '*' || IsDigit(c) || c == '.'
  }

  /** The marker removal as written: one character of the class from the
      start of the untrimmed line, then a trim. */
  function StripMarkerAsWritten(line: string): (r: string)
    ensures |r| <= |line|
  {
    Trim(if line != [] && InMarkerClass(line[0]) then line[1..] else line)
  }

  /** The length of the whole marker at the start of a trimmed line. */
  function MarkerLength(t: string): (n: nat)
    ensures n <= |t|
    ensures StartsWith(t, Bullet) ==> n == |Bullet|
  {
    if StartsWith(t, Bullet) then |Bullet|
    else if StartsWith(t, "-") || StartsWith(t, "*") then 1
    else if Numbered(t) then DigitRun(t) + 1
    else 0
  }

  /** The marker removal as intended: the whole marker and the whitespace
      after it. */
  function StripMarker(line: string): (r: string)
    ensures |r| <= |line|
  {
    var t := Trim(line);
    Trim(t[MarkerLength(t)..])
  }

  /** As written, "1. Point" becomes ". Point": only the digit goes. */
  lemma AsWrittenKeepsNumberDot(d: char, rest: string)
    requires IsDigit(d) && rest != [] && !IsSpace(rest[|rest| - 1])
    ensures StripMarkerAsWritten([d] + ". " + rest) == ". " + rest
  {
    var tail := ". " + rest;
    assert tail[0] == '.' && tail[|tail| - 1] == rest[|rest| - 1];
    assert [d] + ". " + rest == [d] + tail;
    AsWrittenDropsOne(d, tail);
  }

  /** As written, the bullet loses only its first character. */
  lemma AsWrittenKeepsBulletTail(rest: string)
    requires rest != [] && !IsSpace(rest[|rest| - 1])
    ensures StripMarkerAsWritten(Bullet + " " + rest) == "Ä¢ " + rest
  {
    var tail := "Ä¢ " + rest;
    assert tail[0] == 'Ä' && tail[|tail| - 1] == rest[|rest| - 1];
    assert Bullet + " " + rest == ['‚'] + tail;
    AsWrittenDropsOne('‚', tail);
  }

  /** One marker character goes, and nothing else when what follows has
      no whitespace at either end. */
  lemma AsWrittenDropsOne(c: char, tail: string)
    requires InMarkerClass(c) && tail != [] && !IsSpace(tail[0]) && !IsSpace(tail[|tail| - 1])
    ensures StripMarkerAsWritten([c] + tail) == tail
  {
    assert ([c] + tail)[1..] == tail;
    TrimUnchanged(tail);
  }

  /** The corrected removal takes the whole number and dot. */
  lemma StripMarkerDropsNumber(digits: string, rest: string)
    requires digits != [] && forall i :: 0 <= i < |digits| ==> IsDigit(digits[i])
    requires rest != [] && !IsSpace(rest[0]) && !IsSpace(rest[|rest| - 1])
    ensures IsPointLine(digits + ". " + rest)
    ensures StripMarker(digits + ". " + rest) == rest
  {
    var line := digits + ". " + rest;
    NumberedLineShape(digits, rest);
    NumberedLine(line, |digits|);
    SpaceThenTrimmed(rest);
  }

  lemma NumberedLineShape(digits: string, rest: string)
    requires digits != [] && forall i :: 0 <= i < |digits| ==> IsDigit(digits[i])
    requires rest != [] && !IsSpace(rest[|rest| - 1])
    ensures var line := digits + ". " + rest;
            && |digits| < |line| && line[|digits|] == '.' && !IsSpace(line[|line| - 1])
            && (forall i :: 0 <= i < |digits| ==> IsDigit(line[i]))
            && line[|digits| + 1..] == " " + rest
  {
    var line := digits + ". " + rest;
    assert line == digits + ("." + (" " + rest));
    assert line[|line| - 1] == rest[|rest| - 1];
    assert forall i :: 0 <= i < |digits| ==> line[i] == digits[i];
  }

  /** A line of `n` digits and a dot loses both. */
  lemma NumberedLine(line: string, n: nat)
    requires 1 <= n < |line| && line[n] == '.' && !IsSpace(line[|line| - 1])
    requires forall i :: 0 <= i < n ==> IsDigit(line[i])
    ensures IsPointLine(line)
    ensures StripMarker(line) == Trim(line[n + 1..])
  {
    DigitRunPrefix(line[..n], line[n..]);
    assert line[..n] + line[n..] == line;
    assert IsDigit(line[0]);
    FirstCharRules(line, Bullet);
    FirstCharRules(line, "-");
    FirstCharRules(line, "*");
    assert Numbered(line);
    StripTrimmedLine(line, n + 1);
  }

  /** The corrected removal takes the whole bullet. */
  lemma StripMarkerDropsBullet(rest: string)
    requires rest != [] && !IsSpace(rest[0]) && !IsSpace(rest[|rest| - 1])
    ensures IsPointLine(Bullet + " " + rest)
    ensures StripMarker(Bullet + " " + rest) == rest
  {
    var after := " " + rest;
    var line := Bullet + after;
    assert Bullet + " " + rest == line;
    assert line[0] == '‚' && line[|line| - 1] == rest[|rest| - 1];
    assert line[..|Bullet|] == Bullet;
    assert line[|Bullet|..] == after;
    SpaceThenTrimmed(rest);
    StripTrimmedLine(line, |Bullet|);
  }

  /** On a line without surrounding whitespace, a line whose marker is
      `n` characters long loses exactly those. */
  lemma StripTrimmedLine(line: string, n: nat)
    requires line != [] && !IsSpace(line[0]) && !IsSpace(line[|line| - 1])
    requires n == MarkerLength(line) && n > 0
    ensures IsPointLine(line)
    ensures StripMarker(line) == Trim(line[n..])
  {
    TrimUnchanged(line);
  }

  lemma FirstCharRules(s: string, p: string)
    requires s != [] && p != [] && s[0] != p[0]
    ensures !StartsWith(s, p)
  {
  }

  lemma SpaceThenTrimmed(rest: string)
    requires rest != [] && !IsSpace(rest[0]) && !IsSpace(rest[|rest| - 1])
    ensures Trim(" " + rest) == rest
  {
    var s := " " + rest;
    assert s[0] == ' ' && s[1..] == rest;
    assert TrimStart(s) == TrimStart(rest);
    TrimUnchanged(rest);
  }

  lemma {:induction false} DigitRunPrefix(digits: string, s: string)
    requires forall i :: 0 <= i < |digits| ==> IsDigit(digits[i])
    requires s != [] && !IsDigit(s[0])
    ensures DigitRun(digits + s) == |digits|
    decreases |digits|
  {
    if digits == [] {
      assert digits + s == s;
    } else {
      assert (digits + s)[1..] == digits[1..] + s;
      DigitRunPrefix(digits[1..], s);
    }
  }

  /** The key points as the script collects them: the marker lines, each
      with one marker character taken off its untrimmed text, empties
      dropped, in order. */
  function KeyPoints(lines: seq<string>): (r: seq<string>)
    ensures |r| <= |lines|
    ensures forall i :: 0 <= i < |r| ==> r[i] != ""
  {
    if lines == [] then []
    else if IsPointLine(lines[0]) && StripMarkerAsWritten(lines[0]) != "" then AddPoint(StripMarkerAsWritten(lines[0]), KeyPoints(lines[1..]))
    else KeyPoints(lines[1..])
  }

  /** A non-empty point in front of a list of non-empty points. */
  function AddPoint(point: string, points: seq<string>): (r: seq<string>)
    requires point != "" && forall i :: 0 <= i < |points| ==> points[i] != ""
    ensures |r| == |points| + 1 && r[0] == point && r[1..] == points
    ensures forall i :: 0 <= i < |r| ==> r[i] != ""
  {
    [point] + points
  }

  lemma KeyPointsCons(lines: seq<string>, point: string)
    requires lines != [] && IsPointLine(lines[0]) && StripMarkerAsWritten(lines[0]) == point && point != ""
    ensures KeyPoints(lines) == [point] + KeyPoints(lines[1..])
  {
  }

  /** As written, a single-digit numbered line keeps its dot: "1. Point"
      gives the point ". Point". */
  lemma NumberedPointKeepsDot(d: char, rest: string)
    requires IsDigit(d) && rest != [] && !IsSpace(rest[|rest| - 1])
    ensures KeyPoints([[d] + ". " + rest]) == [". " + rest]
  {
    var line := [d] + ". " + rest;
    assert line[1] == '.' && line[|line| - 1] == rest[|rest| - 1];
    assert DigitRun(line[1..]) == 0;
    TrimUnchanged(line);
    assert Numbered(line);
    AsWrittenKeepsNumberDot(d, rest);
    KeyPointsCons([line], ". " + rest);
  }

  /** As written, an indented marker line keeps its whole marker: the
      character class is tried against the untrimmed line, whose first
      character is a space. */
  lemma IndentedMarkerKept(indent: string, t: string)
    requires indent != [] && forall i :: 0 <= i < |indent| ==> IsSpace(indent[i])
    requires Bare(t) && t[0] == '-'
    ensures KeyPoints([indent + t]) == [t]
  {
    var line := indent + t;
    IndentedDashLine(indent, t);
    KeyPointsCons([line], t);
    assert [line][1..] == [];
  }

  lemma IndentedDashLine(indent: string, t: string)
    requires indent != [] && forall i :: 0 <= i < |indent| ==> IsSpace(indent[i])
    requires Bare(t) && t[0] == '-'
    ensures StripMarkerAsWritten(indent + t) == t
    ensures IsPointLine(indent + t)
  {
    IndentedTrim(indent, t);
    assert (indent + t)[0] == indent[0];
    assert StartsWith(Trim(indent + t), "-");
  }

  lemma IndentedTrim(indent: string, t: string)
    requires forall i :: 0 <= i < |indent| ==> IsSpace(indent[i])
    requires Bare(t)
    ensures Trim(indent + t) == t
  {
    TrimAfterSpaces(indent, t);
    TrimUnchanged(t);
  }

  /** As written, a list of bullet lines yields one point per line, in
      order, each still carrying the last two characters of the bullet. */
  lemma {:induction false} BulletListPointsAsWritten(rests: seq<string>)
    requires forall i :: 0 <= i < |rests| ==> Bare(rests[i])
    ensures KeyPoints(BulletLines(rests)) == BulletTails(rests)
  {
    if rests != [] {
      var lines := BulletLines(rests);
      BulletLineFirstAsWritten(lines, rests[0]);
      assert lines[1..] == BulletLines(rests[1..]);
      BulletListPointsAsWritten(rests[1..]);
    }
  }

  lemma BulletLineFirstAsWritten(lines: seq<string>, r0: string)
    requires lines != [] && lines[0] == Bullet + " " + r0 && Bare(r0)
    ensures KeyPoints(lines) == ["Ä¢ " + r0] + KeyPoints(lines[1..])
  {
    StripMarkerDropsBullet(r0);
    AsWrittenKeepsBulletTail(r0);
    KeyPointsCons(lines, "Ä¢ " + r0);
  }

  /** Each text behind the two bullet characters the as-written removal
      leaves. */
  function BulletTails(rests: seq<string>): (r: seq<string>)
    ensures |r| == |rests| && forall i :: 0 <= i < |rests| ==> r[i] == "Ä¢ " + rests[i]
  {
    if rests == [] then [] else ["Ä¢ " + rests[0]] + BulletTails(rests[1..])
  }

  /** The key points as intended: the whole marker and the whitespace
      around it taken off. */
  function KeyPointsFixed(lines: seq<string>): (r: seq<string>)
    ensures |r| <= |lines|
    ensures forall i :: 0 <= i < |r| ==> r[i] != ""
  {
    if lines == [] then []
    else if IsPointLine(lines[0]) && StripMarker(lines[0]) != "" then AddPoint(StripMarker(lines[0]), KeyPointsFixed(lines[1..]))
    else KeyPointsFixed(lines[1..])
  }

  lemma KeyPointsFixedCons(lines: seq<string>, point: string)
    requires lines != [] && IsPointLine(lines[0]) && StripMarker(lines[0]) == point && point != ""
    ensures KeyPointsFixed(lines) == [point] + KeyPointsFixed(lines[1..])
  {
  }

  /** With the corrected removal, a list of bullet lines yields exactly
      the texts after the bullets, in order. */
  lemma {:induction false} BulletListPoints(rests: seq<string>)
    requires forall i :: 0 <= i < |rests| ==> Bare(rests[i])
    ensures KeyPointsFixed(BulletLines(rests)) == rests
  {
    if rests != [] {
      var lines := BulletLines(rests);
      BulletLineFirst(lines, rests[0]);
      assert lines[1..] == BulletLines(rests[1..]);
      BulletListPoints(rests[1..]);
      assert rests == [rests[0]] + rests[1..];
    }
  }

  /** Each text as a bullet line. */
  function BulletLines(rests: seq<string>): (r: seq<string>)
    ensures |r| == |rests| && forall i :: 0 <= i < |rests| ==> r[i] == Bullet + " " + rests[i]
  {
    if rests == [] then [] else [Bullet + " " + rests[0]] + BulletLines(rests[1..])
  }

  lemma BulletLineFirst(lines: seq<string>, r0: string)
    requires lines != [] && lines[0] == Bullet + " " + r0 && Bare(r0)
    ensures KeyPointsFixed(lines) == [r0] + KeyPointsFixed(lines[1..])
  {
    StripMarkerDropsBullet(r0);
    KeyPointsFixedCons(lines, r0);
  }

  /** Not empty, and no whitespace at either end. */
  predicate Bare(s: string) {
    s != [] && !IsSpace(s[0]) && !IsSpace(s[|s| - 1])
  }

  /** Sentence pieces longer than 20 characters once trimmed. JavaScript
      splits at runs of '.', '!' and '?'; splitting at each one instead
      only adds empty pieces, which the length test drops. */
  function LongSentences(pieces: seq<string>): (r: seq<string>)
    ensures |r| <= |pieces|
    ensures forall i :: 0 <= i < |r| ==> |Trim(r[i])| > 20
  {
    if pieces == [] then []
    else if |Trim(pieces[0])| > 20 then [pieces[0]] + LongSentences(pieces[1..])
    else LongSentences(pieces[1..])
  }

  /** `sentences.slice(1, 4).map(s => s.trim())`, of the long pieces. */
  function SecondToFourth(long: seq<string>): (r: seq<string>)
    requires forall i :: 0 <= i < |long| ==> |Trim(long[i])| > 20
    ensures |r| <= 3
    ensures forall i :: 0 <= i < |r| ==> |r[i]| > 20
  {
    if |long| <= 1 then []
    else
      var end := if |long| < 4 then |long| else 4;
      seq(end - 1, i requires 0 <= i < end - 1 => Trim(long[i + 1]))
  }

  function SentencePoints(text: string): (r: seq<string>)
    ensures |r| <= 3
    ensures forall i :: 0 <= i < |r| ==> r[i] != ""
  {
    SecondToFourth(LongSentences(SplitAny(text, {'.', '!', '?'})))
  }

  datatype SimpleSummary = SimpleSummary(tldr: string, keyPoints: seq<string>)

  const DefaultPoint: string := "Summary processed successfully"

  /** The summary the script builds from a plain-text answer. */
  function ParseFallback(text: string): (r: SimpleSummary)
    ensures r.tldr == FallbackTldr(Lines(text))
    ensures r.keyPoints != []
    ensures KeyPoints(Lines(text)) != [] ==> r.keyPoints == KeyPoints(Lines(text))
    ensures KeyPoints(Lines(text)) == [] && |Lines(text)| <= 1 ==> r.keyPoints == [DefaultPoint]
    ensures KeyPoints(Lines(text)) == [] && |Lines(text)| > 1 ==>
              r.keyPoints == (if SentencePoints(text) != [] then SentencePoints(text) else [DefaultPoint])
    ensures forall i :: 0 <= i < |r.keyPoints| ==> r.keyPoints[i] != ""
  {
    var lines := Lines(text);
    var points := KeyPoints(lines);
    // The sentences are added only to an empty list of points.
    var all := if points != [] then points else if |lines| > 1 then SentencePoints(text) else [];
    SimpleSummary(FallbackTldr(lines), if all != [] then all else [DefaultPoint])
  }

  /** Text without a trimmed character has no line and gets the
      placeholders; any other text gets a TL;DR that is not blank. */
  lemma {:induction false} TldrNeverBlank(text: string)
    ensures Lines(text) == [] ==> ParseFallback(text) == SimpleSummary("Summary unavailable", [DefaultPoint])
    ensures Lines(text) != [] ==> Trim(ParseFallback(text).tldr) != ""
  {
    var lines := Lines(text);
    if lines != [] {
      var i := FirstWhere(lines, IsTldrLine);
      if i.Some? && StripLabel(lines[i.value]) != "" {
        var line := lines[i.value];
        var k := LabelLength(line);
        var t := StripLabel(line);
        if k == 0 {
          assert t == line;
        } else {
          NonSpaceStartNotBlank(t);
        }
      }
    }
  }

  lemma NonSpaceStartNotBlank(t: string)
    requires t != [] && !IsSpace(t[0])
    ensures Trim(t) != ""
  {
    assert TrimStart(t) == t;
  }

  // ---------------------------------------------------------------------
  // The direct call to the summarize endpoint
  // ---------------------------------------------------------------------

  /** The parts of the JSON answer the script reads; `summary`, `content`,
      `text` and `data.summary` are the alternative plain-text fields. */
  datatype Answer = Answer(tldr: Option<string>, keyPoints: Option<seq<string>>,
                           summary: Option<string>, content: Option<string>,
                           text: Option<string>, dataSummary: Option<string>, dump: string)

  datatype Outcome = Responded(status: nat, statusText: string, answer: Answer) | Aborted | Failed(message: string)

  datatype CallResult = Summarized(summary: SimpleSummary) | Error(message: string)

  /** The call's effect: the stored auth token afterwards, the bearer token
      the request carried (none when no truthy token was at hand), and its
      result. */
  datatype Call = Call(authToken: Option<string>, bearer: Option<string>, result: CallResult)

  const ExpiredMessage: string := "Authentication expired. Please visit https://www.tildra.xyz, sign in, and try again."
  const LimitMessage: string := "Daily summary limit reached! Upgrade for unlimited summaries or wait for reset tomorrow."

  /** The first truthy plain-text field. */
  function PlainSummary(a: Answer): (r: Option<string>)
    ensures r.Some? ==> r.value != ""
    ensures r.None? <==> !Truthy(a.summary) && !Truthy(a.content) && !Truthy(a.text) && !Truthy(a.dataSummary)
  {
    if Truthy(a.summary) then a.summary
    else if Truthy(a.content) then a.content
    else if Truthy(a.text) then a.text
    else if Truthy(a.dataSummary) then a.dataSummary
    else None
  }

  const NoSummaryMessage: string := "No summary returned from server. Response structure: "
  const TimeoutMessage: string := "Request timed out. Please try again."

  /** The token the call uses: a truthy token from a Tildra tab, which the
      script also stores, or else the stored one. */
  function FreshToken(authToken: Option<string>, tabToken: Option<string>): (t: Option<string>)
    ensures Truthy(tabToken) ==> t == tabToken
    ensures !Truthy(tabToken) ==> t == authToken
  {
    if Truthy(tabToken) then tabToken else authToken
  }

  /** `callSummarizeAPI`. `authToken` is the stored token and `tabToken` the
      first truthy token an open Tildra tab answered with, if any. */
  function CallSummarizeApi(authToken: Option<string>, tabToken: Option<string>, outcome: Outcome): (r: Call)
    ensures Truthy(tabToken) ==> r.bearer == tabToken
    ensures !Truthy(tabToken) && Truthy(authToken) ==> r.bearer == authToken
    ensures !Truthy(tabToken) && !Truthy(authToken) ==> r.bearer == None
    ensures outcome.Responded? && outcome.status == 401 ==> r.authToken == None && r.result == Error(ExpiredMessage)
    ensures !(outcome.Responded? && outcome.status == 401) && Truthy(tabToken) ==> r.authToken == tabToken
    ensures !(outcome.Responded? && outcome.status == 401) && !Truthy(tabToken) ==> r.authToken == authToken
    ensures outcome.Responded? && outcome.status == 429 ==> r.result == Error(LimitMessage)
    ensures outcome.Aborted? ==> r.result == Error(TimeoutMessage)
    ensures outcome.Responded? && !(200 <= outcome.status <= 299) && outcome.status != 401 && outcome.status != 429 ==>
              r.result == Error("API Error: " + NatToString(outcome.status) + " " + outcome.statusText)
    ensures r.result.Summarized? <==>
              outcome.Responded? && 200 <= outcome.status <= 299
              && ((Truthy(outcome.answer.tldr) && outcome.answer.keyPoints.Some?) || PlainSummary(outcome.answer).Some?)
    ensures r.result.Summarized? && Truthy(outcome.answer.tldr) && outcome.answer.keyPoints.Some? ==>
              r.result.summary == SimpleSummary(outcome.answer.tldr.value, outcome.answer.keyPoints.value)
    ensures r.result.Summarized? && !(Truthy(outcome.answer.tldr) && outcome.answer.keyPoints.Some?) ==>
              r.result.summary == ParseFallback(PlainSummary(outcome.answer).value)
    ensures outcome.Failed? ==> r.result == Error(outcome.message)
    ensures outcome.Responded? && 200 <= outcome.status <= 299
            && !(Truthy(outcome.answer.tldr) && outcome.answer.keyPoints.Some?) && PlainSummary(outcome.answer).None? ==>
              r.result == Error(NoSummaryMessage + outcome.answer.dump)
  {
    var token := FreshToken(authToken, tabToken);
    var bearer := if Truthy(token) then token else None;
    match outcome
    case Aborted => Call(token, bearer, Error(TimeoutMessage))
    case Failed(message) => Call(token, bearer, Error(message))
    case Responded(status, statusText, answer) =>
      if status == 401 then Call(None, bearer, Error(ExpiredMessage))
      else if status == 429 then Call(token, bearer, Error(LimitMessage))
      else if !(200 <= status <= 299) then
        Call(token, bearer, Error("API Error: " + NatToString(status) + " " + statusText))
      else if Truthy(answer.tldr) && answer.keyPoints.Some? then
        Call(token, bearer, Summarized(SimpleSummary(answer.tldr.value, answer.keyPoints.value)))
      else match PlainSummary(answer)
        case None => Call(token, bearer, Error(NoSummaryMessage + answer.dump))
        case Some(text) => Call(token, bearer, Summarized(ParseFallback(text)))
  }

  // ---------------------------------------------------------------------
  // Résumé tailoring hints
  // ---------------------------------------------------------------------

  predicate IsTechRequirement(req: string) {
    Contains(Lower(req), "experience") || Contains(Lower(req), "skill") || Contains(Lower(req), "knowledge")
  }

  const FixedPoints: seq<string> := [
    "Customize your summary to match this role's focus",
    "Use similar keywords and phrases from the job description",
    "Quantify achievements that relate to their requirements"]

  function SkillsPoint(skills: seq<string>): string
    requires skills != []
  {
    "Highlight experience with: " + Join(if |skills| <= 3 then skills else skills[..3], ", ")
  }

  /** `generateTailoringPoints`: a skills hint, a requirements hint, the
      three general hints, at most four in all. */
  function TailoringPoints(skills: seq<string>, requirements: seq<string>): (r: seq<string>)
    ensures 3 <= |r| <= 4
    ensures |r| == 3 <==> skills == [] && FirstWhere(requirements, IsTechRequirement).None?
    ensures skills != [] ==> r[0] == SkillsPoint(skills)
    ensures skills == [] && FirstWhere(requirements, IsTechRequirement).None? ==> r == FixedPoints
    ensures var tech := FirstWhere(requirements, IsTechRequirement);
            tech.Some? ==> "Emphasize relevant background in: " + requirements[tech.value] == r[if skills != [] then 1 else 0]
  {
    var first := if skills != [] then [SkillsPoint(skills)] else [];
    var tech := FirstWhere(requirements, IsTechRequirement);
    var second := if tech.Some? then ["Emphasize relevant background in: " + requirements[tech.value]] else [];
    var all := first + second + FixedPoints;
    all[..if |all| < 4 then |all| else 4]
  }

  /** The skills hint names at most three skills, the first three. */
  lemma SkillsPointNamesFirstThree(skills: seq<string>, i: nat)
    requires i < |skills| && i < 3
    ensures Contains(TailoringPoints(skills, [])[0], skills[i])
  {
    var shown := if |skills| <= 3 then skills else skills[..3];
    assert shown[i] == skills[i];
    JoinContains(shown, ", ", i);
    ContainsInfix("Highlight experience with: ", Join(shown, ", "), "", skills[i]);
    assert "Highlight experience with: " + Join(shown, ", ") + "" == SkillsPoint(skills);
  }

  // ---------------------------------------------------------------------
  // Résumé file check
  // ---------------------------------------------------------------------

  const MaxResumeBytes: nat := 5 * 1024 * 1024
  const AllowedTypes: seq<string> := [".pdf", ".doc", ".docx", ".txt"]

  /** `'.' + file.name.split('.').pop().toLowerCase()`. */
  function FileExtension(name: string): (r: string)
    ensures |r| >= 1 && r[0] == '.'
  {
    var pieces := Split(name, '.');
    "." + Lower(pieces[|pieces| - 1])
  }

  datatype FileCheck = TooLarge | InvalidType | Ready

  /** The file input's change handler: the size first, then the type. */
  function CheckResumeFile(name: string, size: nat): (r: FileCheck)
    ensures r.TooLarge? <==> size > MaxResumeBytes
    ensures r.Ready? <==> size <= MaxResumeBytes && FileExtension(name) in AllowedTypes
  {
    if size > MaxResumeBytes then TooLarge
    else if FileExtension(name) !in AllowedTypes then InvalidType
    else Ready
  }

  /** The extension is the lower-cased text after the last dot; a name
      without a dot is taken whole. */
  lemma ExtensionAfterLastDot(name: string, k: nat)
    requires k <= |name| && (k == 0 || name[k - 1] == '.') && '.' !in name[k..]
    ensures FileExtension(name) == "." + Lower(name[k..])
  {
    SplitLast(name, '.');
    var pieces := Split(name, '.');
    var last := pieces[|pieces| - 1];
    var j := |name| - |last|;
    assert forall i :: j <= i < |name| ==> name[i] == last[i - j];
    assert forall i :: k <= i < |name| ==> name[i] == name[k..][i - k];
    assert k <= j && j <= k;
  }

  /** A ".DOCX" extension in any case is taken. */
  lemma DocxAccepted(base: string, size: nat)
    requires size <= MaxResumeBytes
    ensures CheckResumeFile(base + ".DOCX", size) == Ready
  {
    var name := base + ".DOCX";
    assert name[|base| + 1..] == "DOCX";
    assert '.' !in "DOCX";
    ExtensionAfterLastDot(name, |base| + 1);
    LowerDocx();
    assert FileExtension(name) == ".docx";
    assert AllowedTypes[2] == ".docx";
    assert FileExtension(name) in AllowedTypes;
  }

  lemma LowerDocx()
    ensures Lower("DOCX") == "docx"
  {
    var l := Lower("DOCX");
    assert l[0] == 'd' && l[1] == 'o' && l[2] == 'c' && l[3] == 'x';
  }

  /** A name without a dot is read as its own extension, so a file named
      "pdf" passes the type test. */
  lemma DotlessNameAccepted(size: nat)
    requires size <= MaxResumeBytes
    ensures CheckResumeFile("pdf", size) == Ready
  {
    assert '.' !in "pdf";
    ExtensionAfterLastDot("pdf", 0);
    var l := Lower("pdf");
    assert l[0] == 'p' && l[1] == 'd' && l[2] == 'f';
    assert FileExtension("pdf") == ".pdf";
    assert AllowedTypes[0] == ".pdf";
    assert FileExtension("pdf") in AllowedTypes;
  }
}

=== FILE: provisioning.dfy ===
/** Clerk identity webhooks in the API (`clerk_webhook`, api/main.py):
    provisioning a row when a Clerk user is created, copying profile
    changes, and removing a user together with their summary history.
    The Svix signature check is an input. */
module Provisioning {
  import opened Options
  import opened Accounts

  /** One entry of `email_addresses`; a field is `None` when the entry
      leaves it out. `verification` is the entry's verification status. */
  datatype EmailEntry = EmailEntry(id: Option<string>, address: Option<string>, verification: Option<string>)

  /** A JSON object is truthy when it has at least one key. */
  predicate NonEmptyEntry(e: EmailEntry) {
    e.id.Some? || e.address.Some? || e.verification.Some?
  }

  /** The address the handler stores: the entry whose id equals the
      primary id (two absent ids match), else the first verified entry,
      else the first entry. */
  function ChooseEmail(entries: seq<EmailEntry>, primary: Option<string>): (r: Option<string>)
    ensures entries == [] ==> r == None
    ensures r.Some? ==> exists e :: e in entries && e.address == r
  {
    if entries == [] then None
    else
      var p := FirstWhere(entries, (e: EmailEntry) => e.id == primary);
      if p.Some? && NonEmptyEntry(entries[p.value]) then entries[p.value].address
      else
        var v := FirstWhere(entries, (e: EmailEntry) => e.verification == Some("verified"));
        if v.Some? then entries[v.value].address else entries[0].address
  }

  /** The primary entry wins whenever it exists and is not empty. */
  lemma ChoosePrimaryFirst(entries: seq<EmailEntry>, primary: Option<string>, i: nat)
    requires i < |entries| && entries[i].id == primary && NonEmptyEntry(entries[i])
    requires forall j :: 0 <= j < i ==> entries[j].id != primary
    ensures ChooseEmail(entries, primary) == entries[i].address
  {
    var p := FirstWhere(entries, (e: EmailEntry) => e.id == primary);
    assert p == Some(i);
  }

  /** With no primary match, the first verified entry wins, and with
      neither the first entry does. */
  lemma ChooseFallbacks(entries: seq<EmailEntry>, primary: Option<string>)
    requires entries != [] && forall j :: 0 <= j < |entries| ==> entries[j].id != primary
    ensures (exists j :: 0 <= j < |entries| && entries[j].verification == Some("verified")) ==>
              exists j :: 0 <= j < |entries| && entries[j].verification == Some("verified")
                          && ChooseEmail(entries, primary) == entries[j].address
                          && forall i :: 0 <= i < j ==> entries[i].verification != Some("verified")
    ensures (forall j :: 0 <= j < |entries| ==> entries[j].verification != Some("verified")) ==>
              ChooseEmail(entries, primary) == entries[0].address
  {
    var v := FirstWhere(entries, (e: EmailEntry) => e.verification == Some("verified"));
    if v.Some? {
      var j := v.value;
      assert entries[j].verification == Some("verified");
    }
  }

  /** The user object carried by `user.created` and `user.updated`. */
  datatype ClerkUser = ClerkUser(
    id: Option<string>,
    firstName: Option<string>,
    lastName: Option<string>,
    imageUrl: Option<string>,
    emails: seq<EmailEntry>,
    primaryEmailId: Option<string>)

  datatype ClerkEvent =
    | UserCreated(user: ClerkUser)
    | UserUpdated(user: ClerkUser)
    | UserDeleted(deletedId: Option<string>)
    | OtherClerkEvent(kind: string)

  /** What `Webhook.verify` did. */
  datatype Verification = VerifiedEvent(event: ClerkEvent) | VerificationRejected | VerificationCrashed

  /** `{"status": "ok" | "error", "message": …}` with HTTP 200, or an HTTP
      error. */
  datatype ClerkReply = Ok(message: string) | ErrorStatus(message: string) | HttpError(status: int, detail: string)

  /** The messages the handler answers with. */
  const MissingCreateDataMessage: string := "Missing required user data (clerkId or email) in user.created event."
  const AlreadyExistsMessage: string := "User already exists."
  const LinkedByEmailMessage: string := "Existing user by email linked to new Clerk ID."
  const CreatedMessage: string := "User created successfully."
  const MissingUpdateIdMessage: string := "Missing clerk_id in user.updated event."
  const NothingToUpdateMessage: string := "No fields to update."
  const UpdateTargetMissingMessage: string := "User not found for update."
  const UpdateFailedMessage: string := "Failed to process user.updated event."
  const UpdatedMessage: string := "User updated successfully."
  const MissingDeleteIdMessage: string := "Missing clerk_id in user.deleted event."
  const DeletedMessage: string := "User deleted successfully."
  const AlreadyDeletedMessage: string := "User not found, already deleted?"
  const SecretMissingMessage: string := "Webhook secret not configured on server."
  const SvixHeadersMissingMessage: string := "Missing Svix headers"
  const SignatureFailedMessage: string := "Webhook signature verification failed."
  const VerifyCrashedMessage: string := "Error verifying webhook."
  const UnhandledEventMessage: string := "Event received but no specific handler executed."

  /** The linked row when an unseen Clerk id arrives with a known email:
      the id and the profile fields (absent ones included) are replaced,
      everything else, billing included, is kept. */
  function Relink(u: User, id: ClerkId, data: ClerkUser): (v: User)
    ensures v.clerkId == id && v.firstName == data.firstName && v.lastName == data.lastName
    ensures v.profileImageUrl == data.imageUrl
    ensures v.(clerkId := u.clerkId, firstName := u.firstName, lastName := u.lastName,
               profileImageUrl := u.profileImageUrl) == u
  {
    u.(clerkId := id, firstName := data.firstName, lastName := data.lastName, profileImageUrl := data.imageUrl)
  }

  /** The address a `user.created` or `user.updated` event carries. */
  function EmailOf(data: ClerkUser): Option<string> {
    ChooseEmail(data.emails, data.primaryEmailId)
  }

  /** `user.created`: an error without an id or an address, a no-op for a
      known id, a relink of the row holding the address, or a new free row;
      nothing else is written. */
  function OnUserCreated(users: Users, data: ClerkUser, now: Time): (r: (Users, ClerkReply))
    requires Valid(users)
    ensures !Truthy(data.id) || !Truthy(EmailOf(data)) ==> r == (users, ErrorStatus(MissingCreateDataMessage))
    ensures Truthy(data.id) && Truthy(EmailOf(data)) && data.id.value in users ==> r == (users, Ok(AlreadyExistsMessage))
    ensures Truthy(data.id) && Truthy(EmailOf(data)) && data.id.value !in users
            && UserByEmail(users, EmailOf(data).value).Some? ==>
              r == ((users - {UserByEmail(users, EmailOf(data).value).value})
                      [data.id.value := Relink(users[UserByEmail(users, EmailOf(data).value).value], data.id.value, data)],
                    Ok(LinkedByEmailMessage))
    ensures Truthy(data.id) && Truthy(EmailOf(data)) && data.id.value !in users
            && UserByEmail(users, EmailOf(data).value).None? ==>
              r == (users[data.id.value := NewFreeUser(data.id.value, EmailOf(data).value, data.firstName,
                                                       data.lastName, data.imageUrl, now)],
                    Ok(CreatedMessage))
  {
    var email := ChooseEmail(data.emails, data.primaryEmailId);
    if !Truthy(data.id) || !Truthy(email) then
      (users, ErrorStatus(MissingCreateDataMessage))
    else
      var id := data.id.value;
      if id in users then (users, Ok(AlreadyExistsMessage))
      else match UserByEmail(users, email.value)
        case Some(prior) =>
          ((users - {prior})[id := Relink(users[prior], id, data)], Ok(LinkedByEmailMessage))
        case None =>
          (users[id := NewFreeUser(id, email.value, data.firstName, data.lastName, data.imageUrl, now)],
           Ok(CreatedMessage))
  }

  /** The fields a `user.updated` event writes: the present profile fields
      and the chosen email when it is non-empty. */
  function ProfilePatch(u: User, data: ClerkUser): (v: User)
    ensures v.firstName == (if data.firstName.Some? then data.firstName else u.firstName)
    ensures v.lastName == (if data.lastName.Some? then data.lastName else u.lastName)
    ensures v.profileImageUrl == (if data.imageUrl.Some? then data.imageUrl else u.profileImageUrl)
    ensures var e := ChooseEmail(data.emails, data.primaryEmailId);
            v.email == if Truthy(e) then e.value else u.email
    ensures v.(firstName := u.firstName, lastName := u.lastName, profileImageUrl := u.profileImageUrl,
               email := u.email) == u
  {
    var e := ChooseEmail(data.emails, data.primaryEmailId);
    u.(firstName := data.firstName.Or(u.firstName),
       lastName := data.lastName.Or(u.lastName),
       profileImageUrl := data.imageUrl.Or(u.profileImageUrl),
       email := if Truthy(e) then e.value else u.email)
  }

  predicate HasPatch(data: ClerkUser) {
    data.firstName.Some? || data.lastName.Some? || data.imageUrl.Some?
    || Truthy(ChooseEmail(data.emails, data.primaryEmailId))
  }

  /** `user.updated`. An email that belongs to another row violates the
      unique column and surfaces as a 500; an unknown id is answered ok with
      no write; otherwise the patched row is written. */
  function OnUserUpdated(users: Users, data: ClerkUser): (r: (Users, ClerkReply))
    requires Valid(users)
    ensures !Truthy(data.id) ==> r == (users, ErrorStatus(MissingUpdateIdMessage))
    ensures Truthy(data.id) && !HasPatch(data) ==> r == (users, Ok(NothingToUpdateMessage))
    ensures Truthy(data.id) && HasPatch(data) && data.id.value !in users ==> r == (users, Ok(UpdateTargetMissingMessage))
    ensures Truthy(data.id) && HasPatch(data) && data.id.value in users
            && UserByEmail(users, ProfilePatch(users[data.id.value], data).email).Some?
            && UserByEmail(users, ProfilePatch(users[data.id.value], data).email).value != data.id.value ==>
              r == (users, HttpError(500, UpdateFailedMessage))
    ensures Truthy(data.id) && HasPatch(data) && data.id.value in users
            && UserByEmail(users, ProfilePatch(users[data.id.value], data).email) in {None, Some(data.id.value)} ==>
              r == (users[data.id.value := ProfilePatch(users[data.id.value], data)], Ok(UpdatedMessage))
  {
    if !Truthy(data.id) then (users, ErrorStatus(MissingUpdateIdMessage))
    else if !HasPatch(data) then (users, Ok(NothingToUpdateMessage))
    else
      var id := data.id.value;
      if id !in users then (users, Ok(UpdateTargetMissingMessage))
      else
        var v := ProfilePatch(users[id], data);
        var owner := UserByEmail(users, v.email);
        if owner.Some? && owner.value != id then (users, HttpError(500, UpdateFailedMessage))
        else (users[id := v], Ok(UpdatedMessage))
  }

  /** `user.deleted`: the user's history goes first, then the row; a row
      that is already gone is not an error. */
  function OnUserDeleted(db: Db, id: Option<string>): (r: (Db, ClerkReply))
    ensures !Truthy(id) ==> r == (db, ErrorStatus(MissingDeleteIdMessage))
    ensures Truthy(id) ==> r.0.users == db.users - {id.value} && r.0.history == DeleteHistoryOf(db.history, id.value)
    ensures Truthy(id) && id.value in db.users ==> r.1 == Ok(DeletedMessage)
    ensures Truthy(id) && id.value !in db.users ==> r.1 == Ok(AlreadyDeletedMessage)
  {
    if !Truthy(id) then (db, ErrorStatus(MissingDeleteIdMessage))
    else
      var after := Db(db.users - {id.value}, DeleteHistoryOf(db.history, id.value));
      if id.value in db.users then (after, Ok(DeletedMessage))
      else (after, Ok(AlreadyDeletedMessage))
  }

  /** `clerk_webhook`. The three Svix headers are passed as read; an absent
      or empty one is refused before verification. */
  function ClerkWebhook(db: Db, secretConfigured: bool, svixId: Option<string>, svixTimestamp: Option<string>,
                        svixSignature: Option<string>, verification: Verification, now: Time): (r: (Db, ClerkReply))
    requires Valid(db.users)
    ensures !secretConfigured ==> r == (db, HttpError(500, SecretMissingMessage))
    ensures secretConfigured && !(Truthy(svixId) && Truthy(svixTimestamp) && Truthy(svixSignature)) ==>
              r == (db, HttpError(400, SvixHeadersMissingMessage))
    ensures verification.VerificationRejected? ==> r.0 == db && r.1.HttpError? && r.1.status in {400, 500}
    ensures verification.VerificationCrashed? ==> r.0 == db && r.1.HttpError? && r.1.status in {400, 500}
    ensures secretConfigured && Truthy(svixId) && Truthy(svixTimestamp) && Truthy(svixSignature)
            && verification.VerifiedEvent? ==>
              && (verification.event.UserCreated? ==>
                    r == (db.(users := OnUserCreated(db.users, verification.event.user, now).0),
                          OnUserCreated(db.users, verification.event.user, now).1))
              && (verification.event.UserUpdated? ==>
                    r == (db.(users := OnUserUpdated(db.users, verification.event.user).0),
                          OnUserUpdated(db.users, verification.event.user).1))
              && (verification.event.UserDeleted? ==> r == OnUserDeleted(db, verification.event.deletedId))
              && (verification.event.OtherClerkEvent? ==> r == (db, Ok(UnhandledEventMessage)))
  {
    if !secretConfigured then (db, HttpError(500, SecretMissingMessage))
    else if !(Truthy(svixId) && Truthy(svixTimestamp) && Truthy(svixSignature)) then
      (db, HttpError(400, SvixHeadersMissingMessage))
    else match verification
      case VerificationRejected => (db, HttpError(400, SignatureFailedMessage))
      case VerificationCrashed => (db, HttpError(500, VerifyCrashedMessage))
      case VerifiedEvent(event) =>
        match event
        case UserCreated(data) =>
          var created := OnUserCreated(db.users, data, now);
          (db.(users := created.0), created.1)
        case UserUpdated(data) =>
          var updated := OnUserUpdated(db.users, data);
          (db.(users := updated.0), updated.1)
        case UserDeleted(id) => OnUserDeleted(db, id)
        case OtherClerkEvent(_) => (db, Ok(UnhandledEventMessage))
  }

  // ---------------------------------------------------------------------
  // Properties
  // ---------------------------------------------------------------------

  /** `user.created` is a no-op for a known Clerk id; otherwise it links
      the row with the same email or creates a free row. */
  lemma CreatedOutcomes(users: Users, data: ClerkUser, now: Time)
    requires Valid(users)
    ensures var email := ChooseEmail(data.emails, data.primaryEmailId);
            var r := OnUserCreated(users, data, now);
            && (!Truthy(data.id) || !Truthy(email) || data.id.value in users ==> r.0 == users)
            && (Truthy(data.id) && Truthy(email) && data.id.value !in users ==>
                  var id := data.id.value;
                  && id in r.0 && r.0.Keys <= users.Keys + {id}
                  && (UserByEmail(users, email.value).None? ==>
                        r.0 == users[id := NewFreeUser(id, email.value, data.firstName, data.lastName, data.imageUrl, now)])
                  && (UserByEmail(users, email.value).Some? ==>
                        var prior := UserByEmail(users, email.value).value;
                        r.0 == (users - {prior})[id := Relink(users[prior], id, data)] && prior !in r.0))
  {
    var email := ChooseEmail(data.emails, data.primaryEmailId);
    if Truthy(data.id) && Truthy(email) && data.id.value !in users {
      var id := data.id.value;
      match UserByEmail(users, email.value)
      case Some(prior) =>
        assert OnUserCreated(users, data, now).0 == (users - {prior})[id := Relink(users[prior], id, data)];
      case None =>
        assert OnUserCreated(users, data, now).0
            == users[id := NewFreeUser(id, email.value, data.firstName, data.lastName, data.imageUrl, now)];
    }
  }

  /** Delivering the same `user.created` twice equals delivering it once. */
  lemma CreatedIdempotent(users: Users, data: ClerkUser, now: Time, later: Time)
    requires Valid(users)
    ensures var once := OnUserCreated(users, data, now).0;
            Valid(once) && OnUserCreated(once, data, later).0 == once
  {
    CreatedPreservesValid(users, data, now);
  }

  /** The email relinking case: the row keeps its email and every billing
      and quota field, and only its key and profile fields change. */
  lemma RelinkKeepsBilling(users: Users, a: ClerkId, b: ClerkId, data: ClerkUser, now: Time)
    requires Valid(users) && a in users && b !in users
    requires data.id == Some(b) && b != ""
    requires ChooseEmail(data.emails, data.primaryEmailId) == Some(users[a].email) && users[a].email != ""
    ensures var after := OnUserCreated(users, data, now).0;
            && a !in after && b in after
            && after[b].email == users[a].email
            && after[b].plan == users[a].plan && after[b].summariesUsed == users[a].summariesUsed
            && after[b].summaryLimit == users[a].summaryLimit && after[b].usageResetAt == users[a].usageResetAt
            && after[b].totalSummariesMade == users[a].totalSummariesMade
            && after[b].stripeCustomerId == users[a].stripeCustomerId
            && after[b].stripeSubscriptionId == users[a].stripeSubscriptionId
            && after[b].stripePriceId == users[a].stripePriceId
            && after[b].stripeCurrentPeriodEnd == users[a].stripeCurrentPeriodEnd
  {
    assert UserByEmail(users, users[a].email) == Some(a);
    CreatedOutcomes(users, data, now);
  }

  lemma CreatedPreservesValid(users: Users, data: ClerkUser, now: Time)
    requires Valid(users)
    ensures Valid(OnUserCreated(users, data, now).0)
  {
    var email := ChooseEmail(data.emails, data.primaryEmailId);
    if Truthy(data.id) && Truthy(email) && data.id.value !in users {
      var id := data.id.value;
      match UserByEmail(users, email.value)
      case Some(prior) =>
        RekeyPreservesValid(users, prior, Relink(users[prior], id, data));
      case None =>
        InsertPreservesValid(users, NewFreeUser(id, email.value, data.firstName, data.lastName, data.imageUrl, now));
    }
  }

  /** `user.updated` never writes an absent value: every field it leaves
      out keeps its stored value. */
  lemma UpdatedNeverClears(users: Users, data: ClerkUser)
    requires Valid(users)
    ensures var r := OnUserUpdated(users, data).0;
            && r.Keys == users.Keys
            && forall k :: k in users ==>
                 && (data.firstName.None? ==> r[k].firstName == users[k].firstName)
                 && (data.lastName.None? ==> r[k].lastName == users[k].lastName)
                 && (data.imageUrl.None? ==> r[k].profileImageUrl == users[k].profileImageUrl)
                 && (!Truthy(ChooseEmail(data.emails, data.primaryEmailId)) ==> r[k].email == users[k].email)
                 && r[k].plan == users[k].plan && r[k].summariesUsed == users[k].summariesUsed
                 && r[k].stripeCustomerId == users[k].stripeCustomerId
    ensures !HasPatch(data) ==> OnUserUpdated(users, data).0 == users
  {
    var r := OnUserUpdated(users, data).0;
    if Truthy(data.id) && HasPatch(data) && data.id.value in users {
      var id := data.id.value;
      var v := ProfilePatch(users[id], data);
      assert r == users || r == users[id := v];
    }
  }

  lemma UpdatedPreservesValid(users: Users, data: ClerkUser)
    requires Valid(users)
    ensures Valid(OnUserUpdated(users, data).0)
  {
    var r := OnUserUpdated(users, data).0;
    if r != users {
      var id := data.id.value;
      var v := ProfilePatch(users[id], data);
      var owner := UserByEmail(users, v.email);
      assert owner.None? || owner == Some(id);
      ReplaceEmailPreservesValid(users, id, v);
    }
  }

  /** After `user.deleted` neither the row nor any of its history remains;
      everybody else's rows and history are untouched. */
  lemma DeletedRemovesEverything(db: Db, id: string)
    requires id != ""
    ensures var after := OnUserDeleted(db, Some(id)).0;
            && id !in after.users
            && (forall h :: h in after.history ==> h.userId != id)
            && (forall k :: k in db.users && k != id ==> k in after.users && after.users[k] == db.users[k])
            && (forall h :: h in db.history && h.userId != id ==> h in after.history)
  {
  }

  /** Deletion is idempotent: a second delivery answers ok and changes
      nothing. */
  lemma DeletedIdempotent(db: Db, id: Option<string>)
    ensures var once := OnUserDeleted(db, id).0;
            OnUserDeleted(once, id).0 == once && OnUserDeleted(once, id).1.Ok? == Truthy(id)
  {
    if Truthy(id) {
      DeleteHistoryTwice(db.history, id.value);
    }
  }

  lemma {:induction false} DeleteHistoryTwice(h: seq<HistoryRow>, id: ClerkId)
    ensures DeleteHistoryOf(DeleteHistoryOf(h, id), id) == DeleteHistoryOf(h, id)
  {
    if h != [] {
      DeleteHistoryTwice(h[1..], id);
      var rest := DeleteHistoryOf(h[1..], id);
      if h[0].userId != id {
        assert DeleteHistoryOf(h, id) == [h[0]] + rest;
        assert ([h[0]] + rest)[1..] == rest;
      } else {
        assert DeleteHistoryOf(h, id) == rest;
      }
    }
  }

  /** Creating a user that did not exist and deleting it twice leaves the
      users table as it was. */
  lemma CreateThenDelete(db: Db, data: ClerkUser, now: Time)
    requires Valid(db.users) && Truthy(data.id) && data.id.value !in db.users
    requires Truthy(ChooseEmail(data.emails, data.primaryEmailId))
    requires UserByEmail(db.users, ChooseEmail(data.emails, data.primaryEmailId).value).None?
    ensures var created := db.(users := OnUserCreated(db.users, data, now).0);
            var gone := OnUserDeleted(OnUserDeleted(created, data.id).0, data.id).0;
            gone.users == db.users
  {
    var id := data.id.value;
    var created := db.(users := OnUserCreated(db.users, data, now).0);
    assert created.users.Keys == db.users.Keys + {id};
    assert (created.users - {id}) == db.users;
  }

  /** Every Clerk delivery keeps the schema invariants. */
  lemma ClerkWebhookPreservesValid(db: Db, secretConfigured: bool, svixId: Option<string>, svixTimestamp: Option<string>,
                                   svixSignature: Option<string>, verification: Verification, now: Time)
    requires Valid(db.users)
    ensures Valid(ClerkWebhook(db, secretConfigured, svixId, svixTimestamp, svixSignature, verification, now).0.users)
  {
    var r := ClerkWebhook(db, secretConfigured, svixId, svixTimestamp, svixSignature, verification, now);
    if secretConfigured && Truthy(svixId) && Truthy(svixTimestamp) && Truthy(svixSignature) && verification.VerifiedEvent? {
      match verification.event
      case UserCreated(data) =>
        assert r.0.users == OnUserCreated(db.users, data, now).0;
        CreatedPreservesValid(db.users, data, now);
      case UserUpdated(data) =>
        assert r.0.users == OnUserUpdated(db.users, data).0;
        UpdatedPreservesValid(db.users, data);
      case UserDeleted(id) =>
        if Truthy(id) {
          assert r.0.users == db.users - {id.value};
          RemovePreservesValid(db.users, id.value);
        }
      case OtherClerkEvent(_) =>
    }
  }
}

=== FILE: quota.dfy ===
/** The quota gate at the start of `/summarize`, the usage accountant that
    runs after a successful summary, and the request flow that ties them
    together (api/main.py). */
module Quota {
  import opened Options
  import opened Text
  import opened Accounts

  /** 00:00 UTC of the day that contains `now`. */
  function StartOfDay(now: Time): (r: Time)
    ensures r <= now < r + DaySeconds
    ensures r % DaySeconds == 0
  {
    now - now % DaySeconds
  }

  datatype GateResult = Allow | Deny(status: int, detail: string)

  const ProfileMissing: string := "User profile not found."
  const UsageCheckFailed: string := "Database error during usage check."

  function DailyLimitMessage(limit: int): string {
    "Daily summary limit (" + IntToString(limit) + ") reached."
  }

  function MonthlyLimitMessage(limit: int): string {
    "Monthly summary limit (" + IntToString(limit)
      + ") reached. Please wait for your next billing cycle or contact support if you believe this is an error."
  }

  /** A free row whose window started before today is due for a reset. */
  predicate DueForDailyReset(u: User, now: Time) {
    u.plan == FreePlan && u.usageResetAt.Some? && u.usageResetAt.value < StartOfDay(now)
  }

  /** The counter and window after the lazy daily reset. */
  function ResetDaily(u: User, now: Time): (v: User)
    ensures v.summariesUsed == 0 && v.usageResetAt == Some(now)
    ensures v == u.(summariesUsed := 0, usageResetAt := Some(now))
  {
    u.(summariesUsed := 0, usageResetAt := Some(now))
  }

  /** The limit check after the reset: plan "free" and "premium" are turned
      away with their own message once the counter reaches the limit; any
      other plan string is let through. */
  function LimitCheck(u: User): (r: GateResult)
    ensures r.Deny? <==> u.summariesUsed >= u.summaryLimit && (u.plan == FreePlan || u.plan == PremiumPlan)
    ensures r.Deny? ==> r.status == 429
    ensures r.Deny? && u.plan == FreePlan ==> r.detail == DailyLimitMessage(u.summaryLimit)
    ensures r.Deny? && u.plan == PremiumPlan ==> r.detail == MonthlyLimitMessage(u.summaryLimit)
  {
    if u.summariesUsed >= u.summaryLimit then
      if u.plan == FreePlan then Deny(429, DailyLimitMessage(u.summaryLimit))
      else if u.plan == PremiumPlan then Deny(429, MonthlyLimitMessage(u.summaryLimit))
      else Allow
    else Allow
  }

  /** The gate: looks the caller up, lazily resets a free row whose window
      has passed, never touches a premium row (a stale billing period is
      only logged), and then applies the limit check. Returns the users
      table after the gate's own writes. The 403 for a missing row is
      raised inside the lookup's `try`, whose catch-all turns it into the
      500 "Database error during usage check.", so an unknown caller gets
      that 500. */
  function Gate(users: Users, id: ClerkId, now: Time): (r: (Users, GateResult))
    ensures r.1 == Deny(500, UsageCheckFailed) <==>
              id !in users || (users[id].plan == FreePlan && users[id].usageResetAt.None?)
    ensures r.1 != Deny(403, ProfileMissing)
    ensures id !in users ==> r.0 == users
    ensures r.0.Keys == users.Keys
    ensures forall k :: k in users && k != id ==> r.0[k] == users[k]
    ensures id in users && DueForDailyReset(users[id], now) ==>
              r.0[id] == ResetDaily(users[id], now) && r.1 == LimitCheck(ResetDaily(users[id], now))
    ensures id in users && !DueForDailyReset(users[id], now) ==> r.0 == users
    ensures id in users && users[id].plan == FreePlan && users[id].usageResetAt.None? ==>
              r.1 == Deny(500, UsageCheckFailed)
    ensures id in users && (users[id].plan != FreePlan || users[id].usageResetAt.Some?) ==>
              r.1 == LimitCheck(r.0[id])
  {
    if id !in users then
      // the 403 raised inside the try is caught by `except Exception`
      (users, Deny(500, UsageCheckFailed))
    else
      var u := users[id];
      if u.plan == FreePlan && u.usageResetAt.None? then
        // comparing None with a datetime raises; the handler answers 500
        (users, Deny(500, UsageCheckFailed))
      else if DueForDailyReset(u, now) then
        var v := ResetDaily(u, now);
        (users[id := v], LimitCheck(v))
      else
        (users, LimitCheck(u))
  }

  /** The gate as its comments intend it: an unknown caller is refused
      with 403 "User profile not found." (the check after the `try` that the
      catch-all makes unreachable for this case); every known caller is
      gated as above. */
  function GateFixed(users: Users, id: ClerkId, now: Time): (r: (Users, GateResult))
    ensures id !in users <==> r.1 == Deny(403, ProfileMissing)
    ensures id !in users ==> r.0 == users
    ensures id in users ==> r == Gate(users, id, now)
  {
    if id !in users then (users, Deny(403, ProfileMissing))
    else Gate(users, id, now)
  }

  /** `track_summary_usage`: one increment of both counters; a missing row
      is logged and left alone. */
  function TrackUsage(users: Users, id: ClerkId): (r: Users)
    ensures r.Keys == users.Keys
    ensures forall k :: k in users && k != id ==> r[k] == users[k]
    ensures id in users ==> r[id] == users[id].(summariesUsed := users[id].summariesUsed + 1,
                                              totalSummariesMade := users[id].totalSummariesMade + 1)
  {
    if id in users then
      var u := users[id];
      users[id := u.(summariesUsed := u.summariesUsed + 1, totalSummariesMade := u.totalSummariesMade + 1)]
    else users
  }

  /** What the summarization backend (DeepSeek) gave back: an answer, whose
      tl;dr may itself be an "Error:" sentinel, or one of the failures the
      endpoint maps to an HTTP status. */
  datatype Upstream =
    | Answer(tldr: string, keyPoints: seq<string>)
    | HttpStatusFailure(code: int)
    | RequestFailure
    | UnexpectedFailure

  datatype SummarizeResponse = Summary(tldr: string, keyPoints: seq<string>) | Failed(status: int, detail: string)

  /** Background work is scheduled only for an answer that is not an error
      sentinel. */
  predicate Schedules(up: Upstream) {
    up.Answer? && !StartsWith(up.tldr, "Error:")
  }

  /** The fixed messages of a failed summary request. */
  const UpstreamUnreachableMessage: string := "External API request failed (DeepSeek). Please try again later."
  const UnexpectedErrorMessage: string := "An unexpected error occurred. Please try again later."
  const KeyMissingMessage: string := "API key for summarization service not configured."

  /** `/summarize` after authentication: the gate, the backend call (given
      as `up`), and the two background tasks, which run after the response
      in the order they were added: save the history row (`rowId` is the id
      the database assigns), then count the usage. */
  function Summarize(db: Db, id: ClerkId, now: Time, url: Option<string>, title: Option<string>,
                     up: Upstream, rowId: string): (r: (Db, SummarizeResponse))
    ensures r.0.users.Keys == db.users.Keys
    ensures Gate(db.users, id, now).1.Deny? ==>
              r.1 == Failed(Gate(db.users, id, now).1.status, Gate(db.users, id, now).1.detail)
    ensures Gate(db.users, id, now).1 == Allow ==> (r.1.Summary? <==> up.Answer?)
    ensures Gate(db.users, id, now).1 == Allow && up.HttpStatusFailure? ==> r.1.Failed? && r.1.status == 503
    ensures Gate(db.users, id, now).1 == Allow && up.RequestFailure? ==> r.1.Failed? && r.1.status == 504
    ensures Gate(db.users, id, now).1 == Allow && up.UnexpectedFailure? ==> r.1.Failed? && r.1.status == 500
    ensures r.0.history == db.history
            || (Schedules(up) && r.0.history == db.history + [HistoryRow(rowId, id, url, title, up.tldr, up.keyPoints)])
  {
    var g := Gate(db.users, id, now);
    var gated := Db(g.0, db.history);
    if g.1.Deny? then (gated, Failed(g.1.status, g.1.detail))
    else Respond(gated, id, url, title, up, rowId)
  }

  /** An admitted request (`db` already holds the gate's writes): the
      backend outcome picks the answer, and only an answer that schedules
      the background tasks saves a row and counts the usage. */
  function Respond(db: Db, id: ClerkId, url: Option<string>, title: Option<string>,
                   up: Upstream, rowId: string): (r: (Db, SummarizeResponse))
    ensures r.0.users.Keys == db.users.Keys
    ensures r.1.Summary? <==> up.Answer?
    ensures up.HttpStatusFailure? ==> r.1.Failed? && r.1.status == 503
    ensures up.RequestFailure? ==> r.1.Failed? && r.1.status == 504
    ensures up.UnexpectedFailure? ==> r.1.Failed? && r.1.status == 500
    ensures r.0.history == db.history
            || (Schedules(up) && r.0.history == db.history + [HistoryRow(rowId, id, url, title, up.tldr, up.keyPoints)])
    ensures Schedules(up) ==>
              r.0 == Db(TrackUsage(db.users, id), db.history + [HistoryRow(rowId, id, url, title, up.tldr, up.keyPoints)])
    ensures !Schedules(up) ==> r.0 == db
  {
    match up
    case HttpStatusFailure(code) =>
      (db, Failed(503, "External API error (DeepSeek): " + IntToString(code)))
    case RequestFailure =>
      (db, Failed(504, UpstreamUnreachableMessage))
    case UnexpectedFailure =>
      (db, Failed(500, UnexpectedErrorMessage))
    case Answer(tldr, points) =>
      if Schedules(up) then
        var row := HistoryRow(rowId, id, url, title, tldr, points);
        (Db(TrackUsage(db.users, id), db.history + [row]), Summary(tldr, points))
      else (db, Summary(tldr, points))
  }

  /** The endpoint as a whole: without a configured summarization key the
      request fails before the gate and nothing is read or written. */
  function SummarizeEndpoint(db: Db, keyConfigured: bool, id: ClerkId, now: Time, url: Option<string>,
                             title: Option<string>, up: Upstream, rowId: string): (r: (Db, SummarizeResponse))
    ensures !keyConfigured ==> r == (db, Failed(500, KeyMissingMessage))
    ensures keyConfigured ==> r == Summarize(db, id, now, url, title, up, rowId)
  {
    if !keyConfigured then (db, Failed(500, KeyMissingMessage))
    else Summarize(db, id, now, url, title, up, rowId)
  }

  // ---------------------------------------------------------------------
  // Properties
  // ---------------------------------------------------------------------

  /** The gate never adds to a counter: it only compares or resets. */
  lemma GateNeverIncrements(users: Users, id: ClerkId, now: Time)
    ensures forall k :: k in users ==> Gate(users, id, now).0[k].summariesUsed <= users[k].summariesUsed
    ensures forall k :: k in users ==> Gate(users, id, now).0[k].totalSummariesMade == users[k].totalSummariesMade
  {
  }

  /** A premium row is never reset by the gate, even when its billing
      period has ended: the stored counter is compared as it is. */
  lemma PremiumNeverReset(users: Users, id: ClerkId, now: Time)
    requires id in users && users[id].plan == PremiumPlan
    ensures Gate(users, id, now).0 == users
    ensures Gate(users, id, now).1.Deny? <==> users[id].summariesUsed >= users[id].summaryLimit
  {
  }

  /** The gate turns the caller away with 429 exactly when the (possibly
      reset) counter has reached the limit on plan "free" or "premium". */
  lemma GateDeniesIffExhausted(users: Users, id: ClerkId, now: Time)
    requires id in users
    requires users[id].plan != FreePlan || users[id].usageResetAt.Some?
    ensures var (after, verdict) := Gate(users, id, now);
            verdict.Deny? <==> after[id].summariesUsed >= after[id].summaryLimit
                                && (after[id].plan == FreePlan || after[id].plan == PremiumPlan)
  {
  }

  /** Asking the gate twice at the same instant gives the same answer and
      writes nothing the second time. */
  lemma GateIdempotent(users: Users, id: ClerkId, now: Time)
    ensures var (once, v1) := Gate(users, id, now);
            Gate(once, id, now) == (once, v1)
  {
    if id in users && DueForDailyReset(users[id], now) {
      var v := ResetDaily(users[id], now);
      assert !DueForDailyReset(v, now);
    }
  }

  /** A free row that has used up its limit inside the current day stays
      turned away for the rest of that day. */
  lemma FreeDeniedUntilRollover(users: Users, id: ClerkId, t: Time, later: Time)
    requires id in users && users[id].plan == FreePlan
    requires users[id].usageResetAt.Some? && StartOfDay(t) <= users[id].usageResetAt.value
    requires users[id].summariesUsed >= users[id].summaryLimit
    requires t <= later < StartOfDay(t) + DaySeconds
    ensures Gate(users, id, later) == (users, Deny(429, DailyLimitMessage(users[id].summaryLimit)))
  {
    assert StartOfDay(later) == StartOfDay(t);
  }

  /** The first request on a later day finds a fresh free window. */
  lemma FreeWindowRollsOver(users: Users, id: ClerkId, now: Time)
    requires id in users && users[id].plan == FreePlan
    requires users[id].usageResetAt.Some? && users[id].usageResetAt.value < StartOfDay(now)
    requires users[id].summaryLimit > 0
    ensures Gate(users, id, now).1 == Allow
    ensures Gate(users, id, now).0[id].summariesUsed == 0
    ensures Gate(users, id, now).0[id].usageResetAt == Some(now)
  {
  }

  /** `n` runs of the accountant. */
  function TrackTimes(users: Users, id: ClerkId, n: nat): Users {
    if n == 0 then users else TrackUsage(TrackTimes(users, id, n - 1), id)
  }

  lemma {:induction false} TrackTimesCounts(users: Users, id: ClerkId, n: nat)
    requires id in users
    ensures id in TrackTimes(users, id, n)
    ensures TrackTimes(users, id, n)[id] == users[id].(summariesUsed := users[id].summariesUsed + n,
                                                      totalSummariesMade := users[id].totalSummariesMade + n)
  {
    if n > 0 {
      TrackTimesCounts(users, id, n - 1);
    }
  }

  /** A new free user who has made ten summaries today is turned away with
      the daily-limit message on the eleventh request the same day. */
  lemma TenthSummaryExhaustsFreeDay(users: Users, id: ClerkId, email: string, created: Time, now: Time)
    requires id !in users
    requires StartOfDay(created) == StartOfDay(now) && created <= now
    ensures var start := users[id := NewFreeUser(id, email, None, None, None, created)];
            Gate(TrackTimes(start, id, 10), id, now).1 == Deny(429, DailyLimitMessage(10))
  {
    var start := users[id := NewFreeUser(id, email, None, None, None, created)];
    TrackTimesCounts(start, id, 10);
  }

  /** A free row whose window started two days ago gets a fresh counter and
      is let through. */
  lemma StaleFreeWindowAllows(users: Users, id: ClerkId, now: Time)
    requires id in users && users[id].plan == FreePlan && users[id].summaryLimit > 0
    requires users[id].usageResetAt == Some(now - 2 * DaySeconds)
    ensures Gate(users, id, now).1 == Allow
    ensures Gate(users, id, now).0[id].summariesUsed == 0
  {
  }

  /** Usage is counted exactly once per request that passed the gate and
      got a non-error answer, and never otherwise; the gate's own reset is
      the only other change to the counter. */
  lemma SummarizeCountsOnlySuccess(db: Db, id: ClerkId, now: Time, url: Option<string>,
                                   title: Option<string>, up: Upstream, rowId: string)
    requires id in db.users
    ensures Summarize(db, id, now, url, title, up, rowId).0.users[id].summariesUsed ==
              Gate(db.users, id, now).0[id].summariesUsed
              + (if Gate(db.users, id, now).1 == Allow && Schedules(up) then 1 else 0)
    ensures |Summarize(db, id, now, url, title, up, rowId).0.history| ==
              |db.history| + (if Gate(db.users, id, now).1 == Allow && Schedules(up) then 1 else 0)
  {
    SummarizeWrites(db, id, now, url, title, up, rowId);
    var after := Summarize(db, id, now, url, title, up, rowId).0;
    var g := Gate(db.users, id, now);
    assert id in g.0;
    if g.1 == Allow && Schedules(up) {
      assert after.users == TrackUsage(g.0, id);
      assert after.users[id].summariesUsed == g.0[id].summariesUsed + 1;
      assert after.history == db.history + [HistoryRow(rowId, id, url, title, up.tldr, up.keyPoints)];
      assert |after.history| == |db.history| + 1;
    } else {
      assert after.users == g.0;
      assert after.history == db.history;
    }
  }

  /** A turned-away request leaves the history untouched and answers with
      the gate's status. */
  lemma DeniedRequestSavesNothing(db: Db, id: ClerkId, now: Time, url: Option<string>,
                                  title: Option<string>, up: Upstream, rowId: string)
    requires Gate(db.users, id, now).1.Deny?
    ensures Summarize(db, id, now, url, title, up, rowId).0 == db.(users := Gate(db.users, id, now).0)
    ensures Summarize(db, id, now, url, title, up, rowId).1.Failed?
  {
  }

  /** An unknown caller: the gate as written answers 500 with the
      database-error message where the corrected gate answers 403; neither
      writes anything. */
  lemma UnknownCallerGets500(users: Users, id: ClerkId, now: Time)
    requires id !in users
    ensures Gate(users, id, now) == (users, Deny(500, UsageCheckFailed))
    ensures GateFixed(users, id, now) == (users, Deny(403, ProfileMissing))
    ensures Gate(users, id, now) != GateFixed(users, id, now)
  {
  }

  /** The two gates agree on every caller who has a row. */
  lemma GatesAgreeOnKnownCallers(users: Users, id: ClerkId, now: Time)
    requires id in users
    ensures Gate(users, id, now) == GateFixed(users, id, now)
    ensures GateFixed(users, id, now).1 != Deny(403, ProfileMissing)
  {
  }

  /** The gate keeps the schema invariants. */
  lemma GatePreservesValid(users: Users, id: ClerkId, now: Time)
    requires Valid(users)
    ensures Valid(Gate(users, id, now).0)
  {
    if id in users && DueForDailyReset(users[id], now) {
      ReplacePreservesValid(users, id, ResetDaily(users[id], now));
    }
  }

  /** The accountant keeps the schema invariants. */
  lemma TrackUsagePreservesValid(users: Users, id: ClerkId)
    requires Valid(users)
    ensures Valid(TrackUsage(users, id))
  {
    if id in users {
      var u := users[id];
      ReplacePreservesValid(users, id, u.(summariesUsed := u.summariesUsed + 1,
                                          totalSummariesMade := u.totalSummariesMade + 1));
    }
  }

  /** Every step of the quota flow keeps the schema invariants. */
  lemma SummarizePreservesValid(db: Db, id: ClerkId, now: Time, url: Option<string>,
                                title: Option<string>, up: Upstream, rowId: string)
    requires Valid(db.users)
    ensures Valid(Summarize(db, id, now, url, title, up, rowId).0.users)
  {
    if Gate(db.users, id, now).1 == Allow && Schedules(up) {
      CountedRequestPreservesValid(db, id, now, url, title, up, rowId);
    } else {
      UncountedRequestPreservesValid(db, id, now, url, title, up, rowId);
    }
  }

  /** A counted request leaves valid users. */
  lemma CountedRequestPreservesValid(db: Db, id: ClerkId, now: Time, url: Option<string>,
                                     title: Option<string>, up: Upstream, rowId: string)
    requires Valid(db.users) && Gate(db.users, id, now).1 == Allow && Schedules(up)
    ensures Valid(Summarize(db, id, now, url, title, up, rowId).0.users)
  {
    var gated := Gate(db.users, id, now).0;
    GatePreservesValid(db.users, id, now);
    TrackUsagePreservesValid(gated, id);
    SummarizeWrites(db, id, now, url, title, up, rowId);
  }

  /** A request that is not counted leaves valid users. */
  lemma UncountedRequestPreservesValid(db: Db, id: ClerkId, now: Time, url: Option<string>,
                                       title: Option<string>, up: Upstream, rowId: string)
    requires Valid(db.users) && !(Gate(db.users, id, now).1 == Allow && Schedules(up))
    ensures Valid(Summarize(db, id, now, url, title, up, rowId).0.users)
  {
    GatePreservesValid(db.users, id, now);
    SummarizeWrites(db, id, now, url, title, up, rowId);
  }

  /** The users a summarize request leaves: the gate's, with the counters
      bumped when a summary was produced. */
  lemma SummarizeWrites(db: Db, id: ClerkId, now: Time, url: Option<string>,
                        title: Option<string>, up: Upstream, rowId: string)
    ensures Summarize(db, id, now, url, title, up, rowId).0.users
              == if Gate(db.users, id, now).1 == Allow && Schedules(up) then TrackUsage(Gate(db.users, id, now).0, id)
                 else Gate(db.users, id, now).0
  {
  }
}

=== FILE: resume.dfy ===
/** Resume tailoring without the language model
    (api/services/resume_tailoring.py): reordering the resume's skills so
    that those mentioning a job skill come first, the job skills the resume
    text mentions, the three improvement suggestions, and the version id of
    a tailored resume. Case folding is ASCII only. */
module Resume {
  import opened Options
  import opened Text
  import opened Jobs

  /** An experience, education or project entry; `bullets` defaults to []. */
  datatype Section = Section(
    title: string,
    company: Option<string>,
    location: Option<string>,
    startDate: Option<string>,
    endDate: Option<string>,
    bullets: seq<string>,
    description: Option<string>)

  /** `ResumeData` with its list fields already defaulted to []. */
  datatype ResumeData = ResumeData(
    name: string,
    contact: map<string, string>,
    summary: Option<string>,
    experience: seq<Section>,
    education: seq<Section>,
    skills: seq<string>,
    projects: seq<Section>,
    certifications: seq<string>,
    languages: seq<string>)

  // ---------------------------------------------------------------------
  // Skill reordering
  // ---------------------------------------------------------------------

  /** Some lowercased job skill occurs in the lowercased resume skill. */
  predicate MatchesJob(skill: string, jobSkills: seq<string>) {
    exists j :: 0 <= j < |jobSkills| && Contains(Lower(skill), Lower(jobSkills[j]))
  }

  /** The skills whose match status is `want`, in their original order. */
  function Group(skills: seq<string>, jobSkills: seq<string>, want: bool): (r: seq<string>)
    ensures |r| <= |skills|
    ensures forall x :: x in r <==> x in skills && MatchesJob(x, jobSkills) == want
  {
    if skills == [] then []
    else (if MatchesJob(skills[0], jobSkills) == want then [skills[0]] else []) + Group(skills[1..], jobSkills, want)
  }

  /** Grouping a concatenation groups each part: the relative order of the
      skills inside a group is the order they had in the resume. */
  lemma {:induction false} GroupConcat(a: seq<string>, b: seq<string>, jobSkills: seq<string>, want: bool)
    ensures Group(a + b, jobSkills, want) == Group(a, jobSkills, want) + Group(b, jobSkills, want)
  {
    if a == [] {
      assert a + b == b;
    } else {
      assert (a + b)[0] == a[0];
      assert (a + b)[1..] == a[1..] + b;
      GroupConcat(a[1..], b, jobSkills, want);
    }
  }

  /** The two groups together hold every skill exactly as often as the
      resume does. */
  lemma {:induction false} GroupsPermute(skills: seq<string>, jobSkills: seq<string>)
    ensures multiset(Group(skills, jobSkills, true)) + multiset(Group(skills, jobSkills, false)) == multiset(skills)
  {
    if skills != [] {
      var h, t := skills[0], skills[1..];
      GroupsPermute(t, jobSkills);
      assert skills == [h] + t;
      if MatchesJob(h, jobSkills) {
        assert Group(skills, jobSkills, true) == [h] + Group(t, jobSkills, true);
        assert Group(skills, jobSkills, false) == Group(t, jobSkills, false);
      } else {
        assert Group(skills, jobSkills, true) == Group(t, jobSkills, true);
        assert Group(skills, jobSkills, false) == [h] + Group(t, jobSkills, false);
      }
    }
  }

  /** `_basic_tailor_resume`: every field but the skills is copied; the
      skills are reordered only when both the resume and the posting have
      some. */
  function BasicTailor(resume: ResumeData, job: JobPosting): (r: ResumeData)
    ensures r.(skills := resume.skills) == resume
    ensures resume.skills == [] || job.skills == [] ==> r.skills == resume.skills
    ensures resume.skills != [] && job.skills != [] ==>
              r.skills == Group(resume.skills, job.skills, true) + Group(resume.skills, job.skills, false)
  {
    if resume.skills != [] && job.skills != [] then
      resume.(skills := Group(resume.skills, job.skills, true) + Group(resume.skills, job.skills, false))
    else resume
  }

  /** The tailored skills are a permutation of the resume's in which the
      skills that mention a job skill are exactly the first ones. */
  lemma TailorPermutes(resume: ResumeData, job: JobPosting)
    ensures multiset(BasicTailor(resume, job).skills) == multiset(resume.skills)
    ensures resume.skills != [] && job.skills != [] ==>
              var s := BasicTailor(resume, job).skills;
              forall i :: 0 <= i < |s| ==> (MatchesJob(s[i], job.skills) <==> i < |Group(resume.skills, job.skills, true)|)
  {
    if resume.skills != [] && job.skills != [] {
      var m := Group(resume.skills, job.skills, true);
      var o := Group(resume.skills, job.skills, false);
      GroupsPermute(resume.skills, job.skills);
      var s := m + o;
      forall i | 0 <= i < |s|
        ensures MatchesJob(s[i], job.skills) <==> i < |m|
      {
        if i < |m| {
          assert s[i] == m[i] && m[i] in m;
        } else {
          assert s[i] == o[i - |m|] && o[i - |m|] in o;
        }
      }
    }
  }

  // ---------------------------------------------------------------------
  // Keyword matches
  // ---------------------------------------------------------------------

  /** The bullets of each experience that has some, each joined by spaces
      and followed by one. */
  function BulletText(experience: seq<Section>): string {
    if experience == [] then ""
    else (if experience[0].bullets != [] then Join(experience[0].bullets, " ") + " " else "") + BulletText(experience[1..])
  }

  /** The text `_find_keyword_matches` searches, before lowercasing: the
      summary, the bullets and the skills, each followed by a space. */
  function ResumeText(resume: ResumeData): string {
    (if Truthy(resume.summary) then resume.summary.value + " " else "")
    + BulletText(resume.experience)
    + (if resume.skills != [] then Join(resume.skills, " ") + " " else "")
  }

  /** Job skills the posting lists, in order, that occur in `text`. */
  function SkillsIn(jobSkills: seq<string>, text: string): (r: seq<string>)
    ensures forall x :: x in r <==> x in jobSkills && Contains(text, Lower(x))
  {
    if jobSkills == [] then []
    else (if Contains(text, Lower(jobSkills[0])) then [jobSkills[0]] else []) + SkillsIn(jobSkills[1..], text)
  }

  /** `_find_keyword_matches`: the distinct job skills whose lowercase form
      occurs in the lowercased resume text. */
  function KeywordMatches(resume: ResumeData, job: JobPosting): (r: seq<string>)
    ensures forall x :: x in r <==> x in job.skills && Contains(Lower(ResumeText(resume)), Lower(x))
    ensures forall i, j :: 0 <= i < j < |r| ==> r[i] != r[j]
  {
    Dedup(SkillsIn(job.skills, Lower(ResumeText(resume))))
  }

  /** Case folding keeps an occurrence. */
  lemma ContainsLower(s: string, p: string)
    requires Contains(s, p)
    ensures Contains(Lower(s), Lower(p))
  {
    var i :| 0 <= i <= |s| - |p| && OccursAt(s, p, i);
    assert s[i..i + |p|] == p;
    assert Lower(s)[i..i + |p|] == Lower(s[i..i + |p|]);
    assert OccursAt(Lower(s), Lower(p), i);
  }

  /** A job skill equal, up to case, to a skill the resume lists is always
      a keyword match. */
  lemma ListedSkillMatches(resume: ResumeData, job: JobPosting, k: nat, js: string)
    requires k < |resume.skills| && js in job.skills && Lower(js) == Lower(resume.skills[k])
    ensures js in KeywordMatches(resume, job)
  {
    var prefix := (if Truthy(resume.summary) then resume.summary.value + " " else "") + BulletText(resume.experience);
    JoinContains(resume.skills, " ", k);
    ContainsInfix(prefix, Join(resume.skills, " "), " ", resume.skills[k]);
    assert ResumeText(resume) == prefix + Join(resume.skills, " ") + " ";
    ContainsLower(ResumeText(resume), resume.skills[k]);
  }

  // ---------------------------------------------------------------------
  // Suggestions
  // ---------------------------------------------------------------------

  /** Some resume skill contains the job skill, up to case. */
  predicate Covered(jobSkill: string, skills: seq<string>) {
    exists i :: 0 <= i < |skills| && Contains(Lower(skills[i]), Lower(jobSkill))
  }

  /** The job skills no resume skill contains, in the posting's order. */
  function MissingSkills(jobSkills: seq<string>, skills: seq<string>): (r: seq<string>)
    ensures forall x :: x in r <==> x in jobSkills && !Covered(x, skills)
    ensures |r| <= |jobSkills|
  {
    if jobSkills == [] then []
    else (if Covered(jobSkills[0], skills) then [] else [jobSkills[0]]) + MissingSkills(jobSkills[1..], skills)
  }

  function TotalBullets(experience: seq<Section>): nat {
    if experience == [] then 0 else |experience[0].bullets| + TotalBullets(experience[1..])
  }

  const SummaryTip: string := "Add a compelling professional summary"
  const BulletTip: string := "Add more detailed bullet points " + "to your experience"

  function HighlightTip(missing: seq<string>): string {
    "Consider highlighting: " + Join(Take3(missing), ", ")
  }

  function Take3(xs: seq<string>): (r: seq<string>)
    ensures |r| == if |xs| < 3 then |xs| else 3
    ensures r == xs[..|r|]
  {
    if |xs| < 3 then xs else xs[..3]
  }

  predicate WantsHighlight(resume: ResumeData, job: JobPosting) {
    job.skills != [] && resume.skills != [] && MissingSkills(job.skills, resume.skills) != []
  }

  predicate WantsSummary(resume: ResumeData) {
    !Truthy(resume.summary) || |resume.summary.value| < 100
  }

  predicate WantsBullets(resume: ResumeData) {
    TotalBullets(resume.experience) < 3 * |resume.experience|
  }

  /** `_suggest_improvements`: the missing-skills tip, the summary tip and
      the bullets tip, each present exactly when its rule fires, in that
      order. */
  function Suggestions(resume: ResumeData, job: JobPosting): (r: seq<string>)
    ensures |r| <= 3
    ensures HighlightTip(MissingSkills(job.skills, resume.skills)) in r <==> WantsHighlight(resume, job)
    ensures SummaryTip in r <==> WantsSummary(resume)
    ensures BulletTip in r <==> WantsBullets(resume)
    ensures WantsHighlight(resume, job) ==> r[0] == HighlightTip(MissingSkills(job.skills, resume.skills))
  {
    var missing := MissingSkills(job.skills, resume.skills);
    TipsDistinct(missing);
    Tips(WantsHighlight(resume, job), HighlightTip(missing), WantsSummary(resume), WantsBullets(resume))
  }

  /** The highlight tip `highlight` when `h`, then the summary tip when `s`,
      then the bullets tip when `b`. */
  function Tips(h: bool, highlight: string, s: bool, b: bool): (r: seq<string>)
    requires highlight != SummaryTip && highlight != BulletTip && SummaryTip != BulletTip
    ensures |r| <= 3
    ensures highlight in r <==> h
    ensures SummaryTip in r <==> s
    ensures BulletTip in r <==> b
    ensures h ==> r[0] == highlight
  {
    (if h then [highlight] else []) + (if s then [SummaryTip] else []) + (if b then [BulletTip] else [])
  }

  /** The three tips are different texts. */
  lemma TipsDistinct(missing: seq<string>)
    ensures HighlightTip(missing) != SummaryTip && HighlightTip(missing) != BulletTip && SummaryTip != BulletTip
  {
    var prefix := "Consider highlighting: ";
    assert HighlightTip(missing)[0] == prefix[0] == 'C';
    assert SummaryTip[0] == 'A';
    assert |SummaryTip| != |BulletTip|;
  }

  /** An empty experience list never asks for more bullets, whatever else
      the resume holds. */
  lemma NoBulletTipWithoutExperience(resume: ResumeData, job: JobPosting)
    requires resume.experience == []
    ensures BulletTip !in Suggestions(resume, job)
  {
  }

  /** When every job skill is covered by some resume skill there is nothing
      to highlight. */
  lemma {:induction false} CoveredSkillsNotMissing(jobSkills: seq<string>, skills: seq<string>)
    requires forall j :: 0 <= j < |jobSkills| ==> Covered(jobSkills[j], skills)
    ensures MissingSkills(jobSkills, skills) == []
  {
    if jobSkills != [] {
      CoveredSkillsNotMissing(jobSkills[1..], skills);
    }
  }

  /** Covered depends on the resume skills only as a collection. */
  lemma CoveredPermutation(js: string, a: seq<string>, b: seq<string>)
    requires multiset(a) == multiset(b)
    ensures Covered(js, a) <==> Covered(js, b)
  {
    if Covered(js, a) {
      var i :| 0 <= i < |a| && Contains(Lower(a[i]), Lower(js));
      assert a[i] in multiset(b);
      var k :| 0 <= k < |b| && b[k] == a[i];
    }
    if Covered(js, b) {
      var i :| 0 <= i < |b| && Contains(Lower(b[i]), Lower(js));
      assert b[i] in multiset(a);
      var k :| 0 <= k < |a| && a[k] == b[i];
    }
  }

  lemma {:induction false} MissingPermutation(jobSkills: seq<string>, a: seq<string>, b: seq<string>)
    requires multiset(a) == multiset(b)
    ensures MissingSkills(jobSkills, a) == MissingSkills(jobSkills, b)
  {
    if jobSkills != [] {
      CoveredPermutation(jobSkills[0], a, b);
      MissingPermutation(jobSkills[1..], a, b);
    }
  }

  /** Reordering the skills does not change the advice: the suggestions
      for the tailored resume are those for the original. */
  lemma SuggestionsIgnoreTailoring(resume: ResumeData, job: JobPosting)
    ensures Suggestions(BasicTailor(resume, job), job) == Suggestions(resume, job)
  {
    TailorPermutes(resume, job);
    var t := BasicTailor(resume, job);
    MissingPermutation(job.skills, t.skills, resume.skills);
    assert |t.skills| == |multiset(t.skills)| == |resume.skills|;
  }

  // ---------------------------------------------------------------------
  // The tailored resume
  // ---------------------------------------------------------------------

  /** `version_id`: "company_title" with spaces turned into underscores,
      lowercased. */
  function VersionId(job: JobPosting): (r: string)
    ensures |r| == |job.company| + 1 + |job.title|
    ensures ' ' !in r
    ensures forall i :: 0 <= i < |r| ==> IsLowerChar(r[i])
    ensures r[|job.company|] == '_'
  {
    Lower(ReplaceChar(job.company + "_" + job.title, ' ', '_'))
  }

  /** The id is the folded company and the folded title around an
      underscore. */
  lemma VersionIdParts(job: JobPosting)
    ensures VersionId(job) == Lower(ReplaceChar(job.company, ' ', '_')) + "_" + Lower(ReplaceChar(job.title, ' ', '_'))
  {
    var whole := job.company + "_" + job.title;
    var parts := Lower(ReplaceChar(job.company, ' ', '_')) + "_" + Lower(ReplaceChar(job.title, ' ', '_'));
    forall i | 0 <= i < |whole|
      ensures VersionId(job)[i] == parts[i]
    {
      if i < |job.company| {
        assert whole[i] == job.company[i];
      } else if i > |job.company| {
        assert whole[i] == job.title[i - |job.company| - 1];
      }
    }
  }

  /** Postings whose company and title differ only in letter case or in
      spaces versus underscores share a version id. */
  lemma VersionIdFolds(a: JobPosting, b: JobPosting)
    requires Lower(ReplaceChar(a.company, ' ', '_')) == Lower(ReplaceChar(b.company, ' ', '_'))
    requires Lower(ReplaceChar(a.title, ' ', '_')) == Lower(ReplaceChar(b.title, ' ', '_'))
    ensures VersionId(a) == VersionId(b)
  {
    VersionIdParts(a);
    VersionIdParts(b);
  }

  datatype TailoredResume = TailoredResume(
    resumeData: ResumeData,
    jobPosting: JobPosting,
    keywordMatches: seq<string>,
    suggestedImprovements: seq<string>,
    tailoringNotes: string,
    versionId: string)

  /** `tailor_resume` without the optimization score: the tailored data,
      with matches and suggestions computed on it. */
  function Tailor(resume: ResumeData, job: JobPosting): (r: TailoredResume)
    ensures r.resumeData == BasicTailor(resume, job) && r.jobPosting == job
    ensures r.suggestedImprovements == Suggestions(resume, job)
    ensures forall x :: x in r.keywordMatches ==> x in job.skills
    ensures r.keywordMatches == KeywordMatches(r.resumeData, job)
    ensures r.tailoringNotes == "Tailored for " + job.title + " at " + job.company
    ensures r.versionId == VersionId(job)
  {
    var t := BasicTailor(resume, job);
    SuggestionsIgnoreTailoring(resume, job);
    TailoredResume(t, job, KeywordMatches(t, job), Suggestions(t, job),
                   "Tailored for " + job.title + " at " + job.company, VersionId(job))
  }
}

=== FILE: text.dfy ===
/** String helpers shared by every component: prefix and substring tests,
    ASCII case folding, whitespace trimming, splitting and joining, and
    decimal rendering of integers. Strings are `seq<char>`. */
module Text {

  /** `s.startswith(p)` / `s.startsWith(p)`. */
  predicate StartsWith(s: string, p: string) {
    |p| <= |s| && s[..|p|] == p
  }

  /** `p in s` / `s.includes(p)`. */
  predicate Contains(s: string, p: string) {
    exists i | 0 <= i <= |s| - |p| :: OccursAt(s, p, i)
  }

  /** `p` occurs in `s` starting at index `i`. */
  predicate OccursAt(s: string, p: string, i: int) {
    0 <= i && i + |p| <= |s| && s[i..i + |p|] == p
  }

  lemma ContainsSelf(s: string)
    ensures Contains(s, s)
  {
    assert OccursAt(s, s, 0);
  }

  /** A string that occurs in `a` occurs in any string that has `a` inside. */
  lemma ContainsInfix(a: string, b: string, c: string, p: string)
    requires Contains(b, p)
    ensures Contains(a + b + c, p)
  {
    var i :| 0 <= i <= |b| - |p| && OccursAt(b, p, i);
    var s := a + b + c;
    assert s[|a| + i..|a| + i + |p|] == b[i..i + |p|];
    assert OccursAt(s, p, |a| + i);
  }

  lemma StartsWithContains(s: string, p: string)
    requires StartsWith(s, p)
    ensures Contains(s, p)
  {
    assert OccursAt(s, p, 0);
  }

  /** The empty string occurs everywhere. */
  lemma ContainsEmpty(s: string)
    ensures Contains(s, "")
  {
    assert OccursAt(s, "", 0);
  }

  function LowerChar(c: char): char {
    if 'A' <= c <= 'Z' then (c as int + 32) as char else c
  }

  predicate IsLowerChar(c: char) {
    !('A' <= c <= 'Z')
  }

  /** `s.lower()` / `s.toLowerCase()`, on ASCII letters. */
  function Lower(s: string): (r: string)
    ensures |r| == |s|
    ensures forall i :: 0 <= i < |s| ==> r[i] == LowerChar(s[i])
  {
    seq(|s|, i requires 0 <= i < |s| => LowerChar(s[i]))
  }

  lemma LowerIsLower(s: string)
    ensures forall i :: 0 <= i < |s| ==> IsLowerChar(Lower(s)[i])
  {
  }

  lemma LowerIdempotent(s: string)
    ensures Lower(Lower(s)) == Lower(s)
  {
  }

  lemma LowerConcat(a: string, b: string)
    ensures Lower(a + b) == Lower(a) + Lower(b)
  {
  }

  /** Python's `str.strip()` / JavaScript's `trim()` whitespace. */
  predicate IsSpace(c: char) {
    c == ' ' || c == '\t' || c == '\n' || c == '\r' || c == '\U{B}' || c == '\U{C}'
  }

  function TrimStart(s: string): (r: string)
    ensures |r| <= |s|
    ensures r == s[|s| - |r|..]
    ensures r == [] || !IsSpace(r[0])
    ensures forall i :: 0 <= i < |s| - |r| ==> IsSpace(s[i])
  {
    if s != [] && IsSpace(s[0]) then TrimStart(s[1..]) else s
  }

  function TrimEnd(s: string): (r: string)
    ensures |r| <= |s|
    ensures r == s[..|r|]
    ensures r == [] || !IsSpace(r[|r| - 1])
    ensures forall i :: |r| <= i < |s| ==> IsSpace(s[i])
  {
    if s != [] && IsSpace(s[|s| - 1]) then TrimEnd(s[..|s| - 1]) else s
  }

  /** Both-ends trim: the result is the stretch of `s` between the leading
      and trailing whitespace. */
  function Trim(s: string): (r: string)
    ensures |r| <= |s|
    ensures r == [] || (!IsSpace(r[0]) && !IsSpace(r[|r| - 1]))
  {
    TrimEnd(TrimStart(s))
  }

  /** The number of whitespace characters `Trim` drops at the front. */
  function LeadingSpaces(s: string): nat {
    |s| - |TrimStart(s)|
  }

  /** `Trim(s)` is the slice of `s` after its leading whitespace, and only
      whitespace lies outside that slice. */
  lemma TrimSlice(s: string)
    ensures LeadingSpaces(s) + |Trim(s)| <= |s|
    ensures Trim(s) == s[LeadingSpaces(s)..LeadingSpaces(s) + |Trim(s)|]
    ensures forall j :: 0 <= j < LeadingSpaces(s) ==> IsSpace(s[j])
    ensures forall j :: LeadingSpaces(s) + |Trim(s)| <= j < |s| ==> IsSpace(s[j])
  {
    var t := TrimStart(s);
    var k := LeadingSpaces(s);
    assert t == s[k..];
    forall j | k + |Trim(s)| <= j < |s|
      ensures IsSpace(s[j])
    {
      assert s[j] == t[j - k];
    }
  }

  /** Trimming twice changes nothing more. */
  lemma TrimIdempotent(s: string)
    ensures Trim(Trim(s)) == Trim(s)
  {
    var t := Trim(s);
    if t != [] {
      assert !IsSpace(t[0]);
      assert TrimStart(t) == t;
      assert TrimEnd(t) == t;
    }
  }

  /** Text without whitespace at either end trims to itself. */
  lemma TrimUnchanged(s: string)
    requires s == [] || (!IsSpace(s[0]) && !IsSpace(s[|s| - 1]))
    ensures Trim(s) == s
  {
    if s != [] {
      assert TrimStart(s) == s;
      assert TrimEnd(s) == s;
    }
  }

  /** Leading whitespace makes no difference to a trim. */
  lemma {:induction false} TrimAfterSpaces(a: string, s: string)
    requires forall i :: 0 <= i < |a| ==> IsSpace(a[i])
    ensures TrimStart(a + s) == TrimStart(s)
    ensures Trim(a + s) == Trim(s)
    decreases |a|
  {
    if a != [] {
      assert (a + s)[1..] == a[1..] + s;
      TrimAfterSpaces(a[1..], s);
    } else {
      assert a + s == s;
    }
  }

  /** `s[:n]` / `s.slice(0, n)` / `s.substring(0, n)` for `n >= 0`. */
  function Take<T>(s: seq<T>, n: nat): (r: seq<T>)
    ensures |r| == if |s| <= n then |s| else n
    ensures r == s[..|r|]
  {
    if |s| <= n then s else s[..n]
  }

  /** `s.split(sep)` with a one-character separator, JavaScript and Python
      agree: `k` separators give `k + 1` pieces, none containing `sep`. */
  function Split(s: string, sep: char): (r: seq<string>)
    ensures |r| >= 1
    ensures forall i :: 0 <= i < |r| ==> sep !in r[i]
    decreases |s|
  {
    if s == [] then [""]
    else
      var rest := Split(s[1..], sep);
      if s[0] == sep then [""] + rest
      else [[s[0]] + rest[0]] + rest[1..]
  }

  /** The last piece of a split is the text after the last separator. */
  lemma {:induction false} SplitLast(s: string, sep: char)
    ensures var r := Split(s, sep);
            var last := r[|r| - 1];
            && (|r| == 1 ==> last == s)
            && (|r| > 1 ==> |last| < |s|)
            && |last| <= |s|
            && s[|s| - |last|..] == last
            && (|last| == |s| || s[|s| - |last| - 1] == sep)
    decreases |s|
  {
    if s != [] {
      SplitLast(s[1..], sep);
      var rest := Split(s[1..], sep);
      var r := Split(s, sep);
      if s[0] == sep {
        assert r == [""] + rest;
        assert r[|r| - 1] == rest[|rest| - 1];
      } else {
        assert r == [[s[0]] + rest[0]] + rest[1..];
        if |rest| == 1 {
          assert r == [[s[0]] + s[1..]];
          assert [s[0]] + s[1..] == s;
        } else {
          var last := rest[|rest| - 1];
          assert r[|r| - 1] == last;
          assert s[1..][|s| - 1 - |last|..] == last;
          assert s[1..][|s| - 1 - |last| - 1] == sep;
        }
      }
    }
  }

  /** `re.split('[…]', s)`: split at every character of `seps`. */
  function SplitAny(s: string, seps: set<char>): (r: seq<string>)
    ensures |r| >= 1
    ensures forall i, k :: 0 <= i < |r| && 0 <= k < |r[i]| ==> r[i][k] !in seps
    decreases |s|
  {
    if s == [] then [""]
    else
      var rest := SplitAny(s[1..], seps);
      if s[0] in seps then [""] + rest
      else [[s[0]] + rest[0]] + rest[1..]
  }

  /** Occurrences of `c` in `s`. */
  function CountChar(s: string, c: char): nat {
    if s == [] then 0 else (if s[0] == c then 1 else 0) + CountChar(s[1..], c)
  }

  lemma {:induction false} SplitCount(s: string, sep: char)
    ensures |Split(s, sep)| == CountChar(s, sep) + 1
    decreases |s|
  {
    if s != [] {
      SplitCount(s[1..], sep);
    }
  }

  /** `sep.join(xs)` / `xs.join(sep)`. */
  function Join(xs: seq<string>, sep: string): (r: string)
    ensures xs == [] ==> r == ""
  {
    if xs == [] then ""
    else if |xs| == 1 then xs[0]
    else xs[0] + sep + Join(xs[1..], sep)
  }

  /** Every piece of a join occurs in the joined text. */
  lemma {:induction false} JoinContains(xs: seq<string>, sep: string, i: nat)
    requires i < |xs|
    ensures Contains(Join(xs, sep), xs[i])
    decreases |xs|
  {
    if |xs| == 1 {
      ContainsSelf(xs[0]);
    } else if i == 0 {
      ContainsSelf(xs[0]);
      ContainsInfix("", xs[0], sep + Join(xs[1..], sep), xs[0]);
      assert "" + xs[0] + (sep + Join(xs[1..], sep)) == Join(xs, sep);
    } else {
      JoinContains(xs[1..], sep, i - 1);
      ContainsInfix(xs[0] + sep, Join(xs[1..], sep), "", xs[i]);
      assert xs[0] + sep + Join(xs[1..], sep) + "" == Join(xs, sep);
    }
  }

  /** `s.replace(a, b)` for single characters. */
  function ReplaceChar(s: string, a: char, b: char): (r: string)
    ensures |r| == |s|
    ensures forall i :: 0 <= i < |s| ==> r[i] == if s[i] == a then b else s[i]
  {
    seq(|s|, i requires 0 <= i < |s| => if s[i] == a then b else s[i])
  }

  predicate IsDigit(c: char) {
    '0' <= c <= '9'
  }

  function DigitChar(d: nat): (c: char)
    requires d < 10
    ensures IsDigit(c)
  {
    ('0' as int + d) as char
  }

  /** Decimal rendering of a natural number, most significant digit first. */
  function NatToString(n: nat): (r: string)
    ensures |r| >= 1
    ensures forall i :: 0 <= i < |r| ==> IsDigit(r[i])
    ensures DecimalValue(r) == n
    decreases n
  {
    if n < 10 then [DigitChar(n)]
    else
      var r := NatToString(n / 10) + [DigitChar(n % 10)];
      assert r[..|r| - 1] == NatToString(n / 10);
      r
  }

  /** The number a string of decimal digits denotes. */
  function DecimalValue(s: string): nat
    requires forall i :: 0 <= i < |s| ==> IsDigit(s[i])
  {
    if s == [] then 0
    else
      assert IsDigit(s[|s| - 1]);
      10 * DecimalValue(s[..|s| - 1]) + (s[|s| - 1] as int - '0' as int) as nat
  }

  /** `String(n)` / `f"{n}"` for an integer. */
  function IntToString(n: int): (r: string)
    ensures n >= 0 ==> r == NatToString(n)
    ensures n < 0 ==> r == "-" + NatToString(-n)
  {
    if n >= 0 then NatToString(n) else "-" + NatToString(-n)
  }

  /** Distinct elements of a list, first occurrence kept, order otherwise
      preserved. Python's `list(set(xs))` leaves the order unspecified; the
      model fixes this one. */
  function Dedup(xs: seq<string>): (r: seq<string>)
    ensures forall x :: x in r <==> x in xs
    ensures forall i, j :: 0 <= i < j < |r| ==> r[i] != r[j]
  {
    DedupFrom(xs, [])
  }

  function DedupFrom(xs: seq<string>, acc: seq<string>): (r: seq<string>)
    requires forall i, j :: 0 <= i < j < |acc| ==> acc[i] != acc[j]
    ensures forall x :: x in r <==> x in xs || x in acc
    ensures forall i, j :: 0 <= i < j < |r| ==> r[i] != r[j]
    decreases |xs|
  {
    if xs == [] then acc
    else if xs[0] in acc then DedupFrom(xs[1..], acc)
    else DedupFrom(xs[1..], acc + [xs[0]])
  }
}

=== FILE: webclerk.dfy ===
/** The web app's own Clerk webhook (web/app/api/webhooks/clerk/route.ts),
    which writes to the same user table as the API but follows simpler
    rules: it uses the first email address, creates bare rows, updates
    only the email, and reports a missing row as 404. Svix verification is
    an input. */
module WebClerk {
  import opened Options
  import opened Accounts
  import Provisioning

  /** A plain-text response with its HTTP status. */
  datatype WebResponse = WebResponse(status: int, body: string)

  datatype WebEvent =
    | Created(id: Option<string>, emails: seq<Provisioning.EmailEntry>)
    | Updated(id: Option<string>, emails: seq<Provisioning.EmailEntry>)
    | Deleted(id: Option<string>, deleted: bool)
    | Other(kind: string)

  /** The fixed response bodies. */
  const MissingIdBody: string := "Bad Request: Missing user ID"
  const MissingEmailBody: string := "Bad Request: Missing primary email"
  const CreatedBody: string := "User created successfully"
  const MissingIdOrEmailBody: string := "Bad Request: Missing user ID or email"
  const UpdateErrorBody: string := "Internal Server Error updating user"
  const UpdatedBody: string := "User updated successfully"
  const SoftDeletedBody: string := "User soft deleted, no DB action"
  const DeleteErrorBody: string := "Internal Server Error deleting user"
  const DeletedBody: string := "User deleted successfully"
  const NoSvixHeadersBody: string := "Error occurred -- no svix headers"
  const SecretMissingBody: string := "Internal Server Error: Webhook secret not configured"

  /** `email_addresses[0]?.email_address`. */
  function FirstAddress(emails: seq<Provisioning.EmailEntry>): (r: Option<string>)
    ensures emails == [] ==> r == None
    ensures emails != [] ==> r == emails[0].address
  {
    if emails == [] then None else emails[0].address
  }

  /** `user.created`: a row with only the Clerk id and email set; the
      remaining columns take the table's defaults, which the model takes
      to be those of a fresh free row. A unique violation on either column
      is answered 200 and changes nothing. */
  function OnCreated(users: Users, id: Option<string>, emails: seq<Provisioning.EmailEntry>, now: Time): (r: (Users, WebResponse))
    requires Valid(users)
    ensures !Truthy(id) ==> r == (users, WebResponse(400, MissingIdBody))
    ensures Truthy(id) && !Truthy(FirstAddress(emails)) ==> r == (users, WebResponse(400, MissingEmailBody))
    ensures Truthy(id) && Truthy(FirstAddress(emails))
            && (id.value in users || UserByEmail(users, FirstAddress(emails).value).Some?) ==>
              r == (users, WebResponse(200, "User already exists"))
    ensures Truthy(id) && Truthy(FirstAddress(emails))
            && id.value !in users && UserByEmail(users, FirstAddress(emails).value).None? ==>
              r == (users[id.value := NewFreeUser(id.value, FirstAddress(emails).value, None, None, None, now)],
                    WebResponse(201, CreatedBody))
  {
    if !Truthy(id) then (users, WebResponse(400, MissingIdBody))
    else
      var email := FirstAddress(emails);
      if !Truthy(email) then (users, WebResponse(400, MissingEmailBody))
      else if id.value in users || UserByEmail(users, email.value).Some? then
        (users, WebResponse(200, "User already exists"))
      else
        (users[id.value := NewFreeUser(id.value, email.value, None, None, None, now)],
         WebResponse(201, CreatedBody))
  }

  /** `user.updated`: only the email is written. */
  function OnUpdated(users: Users, id: Option<string>, emails: seq<Provisioning.EmailEntry>): (r: (Users, WebResponse))
    requires Valid(users)
    ensures !Truthy(id) || !Truthy(FirstAddress(emails)) ==> r == (users, WebResponse(400, MissingIdOrEmailBody))
    ensures Truthy(id) && Truthy(FirstAddress(emails)) && id.value !in users ==> r == (users, WebResponse(404, "User not found"))
    ensures Truthy(id) && Truthy(FirstAddress(emails)) && id.value in users
            && UserByEmail(users, FirstAddress(emails).value) in {None, Some(id.value)} ==>
              r == (users[id.value := users[id.value].(email := FirstAddress(emails).value)], WebResponse(200, UpdatedBody))
    ensures Truthy(id) && Truthy(FirstAddress(emails)) && id.value in users
            && UserByEmail(users, FirstAddress(emails).value) !in {None, Some(id.value)} ==>
              r == (users, WebResponse(500, UpdateErrorBody))
  {
    var email := FirstAddress(emails);
    if !Truthy(id) || !Truthy(email) then (users, WebResponse(400, MissingIdOrEmailBody))
    else if id.value !in users then (users, WebResponse(404, "User not found"))
    else
      var owner := UserByEmail(users, email.value);
      if owner.Some? && owner.value != id.value then (users, WebResponse(500, UpdateErrorBody))
      else (users[id.value := users[id.value].(email := email.value)], WebResponse(200, UpdatedBody))
  }

  /** `user.deleted`: a soft delete is acknowledged before the id is even
      looked at. The row is deleted on its own, so while history rows still
      reference it the foreign key refuses and the handler answers 500. */
  function OnDeleted(db: Db, id: Option<string>, deleted: bool): (r: (Db, WebResponse))
    ensures !deleted ==> r == (db, WebResponse(200, SoftDeletedBody))
    ensures deleted && !Truthy(id) ==> r == (db, WebResponse(400, MissingIdBody))
    ensures deleted && Truthy(id) && id.value !in db.users ==> r == (db, WebResponse(404, "User not found"))
    ensures deleted && Truthy(id) && id.value in db.users && HistoryOf(db.history, id.value) != [] ==>
              r == (db, WebResponse(500, DeleteErrorBody))
    ensures deleted && Truthy(id) && id.value in db.users && HistoryOf(db.history, id.value) == [] ==>
              r == (Db(db.users - {id.value}, db.history), WebResponse(200, DeletedBody))
  {
    if !deleted then (db, WebResponse(200, SoftDeletedBody))
    else if !Truthy(id) then (db, WebResponse(400, MissingIdBody))
    else if id.value !in db.users then (db, WebResponse(404, "User not found"))
    else if HistoryOf(db.history, id.value) != [] then (db, WebResponse(500, DeleteErrorBody))
    else (db.(users := db.users - {id.value}), WebResponse(200, DeletedBody))
  }

  /** `POST`: the secret and the three Svix headers are checked before
      anything is read from the database. `verified` is the event when
      verification succeeds. */
  function WebClerkWebhook(db: Db, secretConfigured: bool, svixId: Option<string>, svixTimestamp: Option<string>,
                           svixSignature: Option<string>, verified: Option<WebEvent>, now: Time): (r: (Db, WebResponse))
    requires Valid(db.users)
    ensures !secretConfigured ==> r.0 == db && r.1.status == 500
    ensures secretConfigured && !(Truthy(svixId) && Truthy(svixTimestamp) && Truthy(svixSignature)) ==>
              r == (db, WebResponse(400, NoSvixHeadersBody))
    ensures verified.None? ==> r.0 == db && r.1.status in {400, 500}
    ensures verified.Some? && verified.value.Other? ==> r.0 == db && r.1.status in {200, 400, 500}
    ensures secretConfigured && Truthy(svixId) && Truthy(svixTimestamp) && Truthy(svixSignature) && verified.Some? ==>
              && (verified.value.Created? ==>
                    r == (db.(users := OnCreated(db.users, verified.value.id, verified.value.emails, now).0),
                          OnCreated(db.users, verified.value.id, verified.value.emails, now).1))
              && (verified.value.Updated? ==>
                    r == (db.(users := OnUpdated(db.users, verified.value.id, verified.value.emails).0),
                          OnUpdated(db.users, verified.value.id, verified.value.emails).1))
              && (verified.value.Deleted? ==> r == OnDeleted(db, verified.value.id, verified.value.deleted))
              && (verified.value.Other? ==> r == (db, WebResponse(200, "Webhook received")))
  {
    if !secretConfigured then (db, WebResponse(500, SecretMissingBody))
    else if !(Truthy(svixId) && Truthy(svixTimestamp) && Truthy(svixSignature)) then
      (db, WebResponse(400, NoSvixHeadersBody))
    else match verified
      case None => (db, WebResponse(400, "Webhook Error"))
      case Some(event) =>
        match event
        case Created(id, emails) =>
          var created := OnCreated(db.users, id, emails, now);
          (db.(users := created.0), created.1)
        case Updated(id, emails) =>
          var updated := OnUpdated(db.users, id, emails);
          (db.(users := updated.0), updated.1)
        case Deleted(id, deleted) => OnDeleted(db, id, deleted)
        case Other(_) => (db, WebResponse(200, "Webhook received"))
  }

  // ---------------------------------------------------------------------
  // Properties
  // ---------------------------------------------------------------------

  /** A duplicate creation is acknowledged with 200 and leaves the table as
      it was; a new one adds exactly one row. */
  lemma CreatedOutcomes(users: Users, id: Option<string>, emails: seq<Provisioning.EmailEntry>, now: Time)
    requires Valid(users)
    ensures var r := OnCreated(users, id, emails, now);
            && (r.1.status == 201 <==> Truthy(id) && Truthy(FirstAddress(emails)) && id.value !in users
                                        && UserByEmail(users, FirstAddress(emails).value).None?)
            && (r.1.status != 201 ==> r.0 == users)
            && (r.1.status == 201 ==> r.0.Keys == users.Keys + {id.value} && r.0[id.value].email == FirstAddress(emails).value)
    ensures OnCreated(users, id, emails, now).1.status == 201 ==>
              OnCreated(users, id, emails, now).0
                == users[id.value := NewFreeUser(id.value, FirstAddress(emails).value, None, None, None, now)]
    ensures OnCreated(users, id, emails, now).1.status == 400 <==> !Truthy(id) || !Truthy(FirstAddress(emails))
    ensures Truthy(id) && Truthy(FirstAddress(emails)) && id.value in users ==>
              OnCreated(users, id, emails, now) == (users, WebResponse(200, "User already exists"))
    ensures Valid(OnCreated(users, id, emails, now).0)
  {
    var r := OnCreated(users, id, emails, now);
    if r.1.status == 201 {
      InsertPreservesValid(users, NewFreeUser(id.value, FirstAddress(emails).value, None, None, None, now));
    }
  }

  /** An update changes the email of the named row and nothing else, and
      only when the row exists and no other row has that email. */
  lemma UpdatedOnlyEmail(users: Users, id: Option<string>, emails: seq<Provisioning.EmailEntry>)
    requires Valid(users)
    ensures var r := OnUpdated(users, id, emails);
            && r.0.Keys == users.Keys
            && (r.1.status == 200 ==> r.0 == users[id.value := users[id.value].(email := FirstAddress(emails).value)])
            && (r.1.status != 200 ==> r.0 == users)
            && (Truthy(id) && Truthy(FirstAddress(emails)) && id.value !in users ==> r.1.status == 404)
    ensures OnUpdated(users, id, emails).1.status == 400 <==> !Truthy(id) || !Truthy(FirstAddress(emails))
    ensures Truthy(id) && Truthy(FirstAddress(emails)) && id.value in users
            && UserByEmail(users, FirstAddress(emails).value) in {None, Some(id.value)} ==>
              OnUpdated(users, id, emails).1.status == 200
    ensures Valid(OnUpdated(users, id, emails).0)
  {
    var r := OnUpdated(users, id, emails);
    if r.1.status == 200 {
      var email := FirstAddress(emails).value;
      var owner := UserByEmail(users, email);
      assert owner.None? || owner == Some(id.value);
      ReplaceEmailPreservesValid(users, id.value, users[id.value].(email := email));
    }
  }

  /** Unlike the API's handler, deleting here is not idempotent: the first
      delivery removes a row without history, the second answers 404. */
  lemma SecondDeleteIsNotFound(db: Db, id: string)
    requires id != "" && id in db.users && HistoryOf(db.history, id) == []
    ensures var (once, first) := OnDeleted(db, Some(id), true);
            && first.status == 200 && id !in once.users
            && OnDeleted(once, Some(id), true) == (once, WebResponse(404, "User not found"))
  {
  }

  /** A soft delete never touches the database, whatever the id. */
  lemma SoftDeleteNoop(db: Db, id: Option<string>)
    ensures OnDeleted(db, id, false) == (db, WebResponse(200, SoftDeletedBody))
  {
  }
}
